=== FILE: README.md ===
# freshtools core in Dafny

A functional model of freshtools, a command-line tool that copies FreshBooks
time-tracking data into a local SQLite cache and prints summaries of it.

The model covers these parts:

- **The REST client** (`refresh2/api.py`). It normalizes the irregular JSON
  answers of the FreshBooks API and follows their page numbers. It also
  selects a business by name or by id.
- **The cache** (`freshtools/models.py`, `cache.py`, `util.py`). The cache
  has six tables: accounts, businesses, clients, projects, tasks and time
  entries. It creates and drops them, pulls the remote rows in
  foreign-key dependency order, and upserts them. It also lists the tables
  and reports how many rows each holds.
- **The time-entry window** (`entries.py`, `date.py`). This is an optional
  client plus optional start and end moments. Moments can be aligned to
  day, week, month or year boundaries.
- **The time-entry query** (`log.py`).
- **The three reports** (`summary.py`): tasks by client, days by client,
  project and task, and weeks by client and project. Each report is a
  grouped, summed, sorted SQL query. `coalate` nests its rows, and each
  group prints as a dashed-bar section.

Each Python module becomes one Dafny module:

- `Api`, `Models`, `Cache`, `Util`, `Date`, `Entries`, `Log` and
  `Summary`;
- `Report`, which holds the printing half of `summary.py`;
- three supporting modules:
  - `TableStore`, the keyed tables the ORM writes to;
  - `Text`, the UTF-8 length of a header, Python's `%0Nd` and `str(date)`;
  - `Seqs`, general sequence helpers.

`Wrappers` supplies `Option` and `Result`.

The model's conventions:

- A Python exception becomes a `Failure` value that carries the same
  condition.
- A database is a map from model to a keyed table.
- The HTTP session is a function from request to JSON. It is a parameter of the `Api` functions. The pulls take their listings as finished pages instead.
- Dates are day numbers counted from 1970-01-01.
- Times of day are microseconds.

## Model

| member | source | states |
|---|---|---|
| Util.Lookahead | freshtools/util.py:17-23 | every element comes out once, in order, paired with "more follows"; the flag is false exactly on the last one; an empty input yields nothing (Python 2 ends the generator on the first `next`) |
| Util.Coalate | freshtools/util.py:26-45 | the nested ordered dictionaries the insertion loop builds equal the declarative grouping: at every level the keys in order of first appearance, each leaf the rows of that key path in input order; with no keys the rows come back unchanged |
| Util.InsertGrouped | freshtools/util.py:32-43 | filing one more row into the grouping of some rows gives the grouping of the rows with that row appended, which is why the loop is correct |
| Util.GroupedLevel | freshtools/util.py:35-41 | the keys of a level are distinct, every row's value for that level is one of them, and each key's subtree groups exactly the rows carrying it |
| Util.GroupedLeaves | freshtools/util.py:26-45 | following a full key path reaches a leaf exactly when some row has that path, and the leaf holds exactly those rows in input order |
| Util.GroupedPermutation | freshtools/util.py:26-45 | flattening the grouping gives back a permutation of the input rows: nothing lost, nothing duplicated |
| Util.GroupedHead | freshtools/util.py:6-14 | `head` applied down every level of the grouping of a non-empty input is the first input row |
| Util.GroupedFilled | freshtools/util.py:26-45 | no dictionary and no leaf list of the grouping of a non-empty input is empty, so `head` never fails on it |
| Util.HeadInFlatten | freshtools/util.py:6-14 | the row `head` reaches is one of the grouped rows |
| Util.DependencyOrder | freshtools/util.py:58-74 | the depth-first order lists every requested model once, and it is closed under foreign keys: each model it lists has its referenced models listed too |
| Util.DependencyOrderRespectsForeignKeys | freshtools/util.py:48-74 | in an acyclic schema, every model referenced by a foreign key comes before the model that references it |
| Util.DependencyOrderIsClosure | freshtools/util.py:58-74 | the order contains only models reachable from the requested ones |
| Util.TopoSort | freshtools/util.py:59-72 | the walk marks every requested model visited, emits each newly visited model once and no model visited before, emits only schema models, and leaves every model it visited with all its foreign-key targets visited |
| Util.CreateTables | freshtools/util.py:77-80 | afterwards every listed table exists; missing ones are created empty and existing ones keep their rows |
| Util.DropTables | freshtools/util.py:83-86 | exactly the listed tables are gone and all others are untouched |
| Util.CreateTablesIdempotent | freshtools/util.py:77-80 | creating the same tables twice is the same as once |
| Util.DropTablesIdempotent | freshtools/util.py:83-86 | dropping the same tables twice is the same as once |
| TableStore.LastWithKey | freshtools/models.py:27-33 | of several rows sharing a primary key, REPLACE leaves the last one: the result is a row with that key and no later row of the batch has the key; absent exactly when no row has that key |
| TableStore.Upsert | freshtools/models.py:27-33 | no data leaves the store as it was; otherwise it fails exactly when the table is missing, and on success the table's keys become old keys plus new keys, each new key holds its last row, untouched keys and all other tables are unchanged |
| TableStore.Insert | freshtools/models.py:21-25 | no data leaves the store as it was; a missing table or a key clash fails; on success old rows stay and every new row is stored under its key |
| TableStore.Count | freshtools/cache.py:21-26 | the count of an existing table is its number of rows; counting a missing table fails |
| TableStore.UpsertIdempotent | freshtools/models.py:27-33 | upserting the same data a second time changes nothing |
| TableStore.UpsertKeepsOtherRows | freshtools/models.py:27-33 | a row whose key the data does not mention survives an upsert unchanged |
| Date.ParseDateTime | freshtools/date.py:6-13 | a date becomes its midnight, a datetime is returned unchanged |
| Date.BeginningOfDay | freshtools/date.py:21-23 | midnight of the moment's day: not after the moment and not after any time of that day |
| Date.EndingOfDay | freshtools/date.py:26-28 | 23:59:59.999999 of the moment's day: not before the moment and not before any time of that day |
| Date.DayStartingAndEnding | freshtools/date.py:31-37 | no date gives no bounds; a date gives its day's first and last instants, which enclose it |
| Date.WeekStartingAndEnding | freshtools/date.py:40-49 | no date gives no bounds; otherwise the Monday midnight at most six days back and the following Sunday's last instant, which enclose the moment |
| Date.WeekStarting | freshtools/date.py:52-54 | a Monday midnight within the six days up to the moment, absent exactly when the date is |
| Date.WeekEnding | freshtools/date.py:57-59 | a Sunday's last instant within the six days from the moment, absent exactly when the date is |
| Date.WeekStartUnique | freshtools/date.py:40-49 | the week start is the only Monday midnight whose week contains the moment |
| Date.WeekBoundsStable | freshtools/date.py:40-49 | every time inside a week has the same week bounds |
| Date.WeekBoundsIdempotent | freshtools/date.py:52-59 | the week start of a week start, and the week end of a week end, are themselves |
| Date.CivilRoundTrip | freshtools/tests/test_date.py:17-33 | converting a valid calendar date to a day number and back gives the same date |
| Date.MonthStartingAndEnding | freshtools/tests/test_date.py:17-24 | the first instant of the 1st and the last instant of the month's last day, enclosing the moment; no date gives no bounds |
| Date.YearStartingAndEnding | freshtools/tests/test_date.py:27-33 | the first instant of 1 January and the last instant of 31 December of the moment's year, enclosing it; no date gives no bounds |
| Date.DateTestExamples | freshtools/tests/test_date.py:7-33 | the four test cases hold: beginning and ending of day, and the month and year bounds of 2018-02-15 and 2018-02-20 |
| Entries.NewWindow | freshtools/entries.py:6-16 | start and end are kept; a falsy client gives no client, a given row is kept, a name is looked up and a failed lookup fails the constructor |
| Entries.AlignedToWeekBoundaries | freshtools/entries.py:18-23 | never fails, keeps the client, and moves start and end to the week's Monday start and Sunday end, keeping absent bounds absent |
| Entries.AlignedToMonthBoundaries | freshtools/entries.py:25-30 | never fails, keeps the client, and moves the bounds to the month's first and last instant |
| Entries.AlignedToYearBoundaries | freshtools/entries.py:32-37 | never fails, keeps the client, and moves the bounds to the year's first and last instant |
| Entries.AlignmentNeverLooksUp | freshtools/entries.py:18-37 | re-wrapping an already resolved client never consults the client lookup |
| Entries.WeekAlignmentIdempotent | freshtools/entries.py:18-23 | aligning an aligned window again changes nothing |
| Entries.WeekAlignmentCovers | freshtools/entries.py:18-23 | the aligned window contains the original bounds |
| Entries.CalendarAlignmentKeepsAbsence | freshtools/entries.py:25-37 | month and year alignment leave a missing bound missing and a given one given |
| Log.Clauses | freshtools/log.py:24-41 | exactly one clause per given argument and none for an absent one: the count of clauses is the number of given arguments, and each kind of clause is present exactly when its argument is given |
| Log.Where | freshtools/log.py:27-40 | a clause keeps exactly the rows satisfying it |
| Log.TimeEntries | freshtools/log.py:24-41 | a row is returned exactly when it is in the table and inside the window, client matched and both bounds inclusive; no arguments return the whole table |
| Log.WhereAllIsKeep | freshtools/log.py:24-41 | chaining the clauses is a single conjunctive pass in table order |
| Log.TimeEntriesInOrder | freshtools/log.py:24-41 | the query equals the single ordered pass and its members are exactly the rows in the window |
| Log.BoundsInclusive | freshtools/log.py:32-40 | an entry created exactly at the start and end bound is kept |
| Api.Index | refresh2/api.py:27-55 | subscripting an object finds a present key and raises KeyError for a missing one |
| Api.Normalize | refresh2/api.py:27-55 | a `message` or `errors` key raises an API error; otherwise the payload is unwrapped from `response` and `result`, and the pagination comes from `meta`, from `per_page` with `pages` and `page`, or is empty |
| Api.Unwrap | refresh2/api.py:35-41 | an object with the key yields its value, one without yields itself |
| Api.Pagination | refresh2/api.py:43-53 | `meta` wins; without `meta` and `per_page` there is no pagination |
| Api.NextPage | refresh2/api.py:75-78 | empty pagination stops; a next page exists only when `pages` differs from the current page |
| Api.PagesFrom | refresh2/api.py:58-78 | requests start at the given page; there is a request exactly when the budget allows one and never more requests than the budget; each request yields one value, except a last one that raised; running out of budget means the budget was used up |
| Api.PaginatedGet | refresh2/api.py:58-78 | the first request is page 1, and each request yields one value except a last one that raised |
| Api.PagesFollowReportedPage | refresh2/api.py:58-78 | each fetched page after the first is the previous answer's `page` plus one |
| Api.PagesStopAtLastPage | refresh2/api.py:75-76 | fetching stops right after a page whose number equals the reported page count, or which has no pagination |
| Api.YieldsSelectedResults | refresh2/api.py:70-73 | each successful page yields its result, or the `key` member of it when a key is given |
| Api.PaginatedGetWellBehaved | refresh2/api.py:58-78 | with a server reporting page p of n truthfully, the requests are pages 1 to n, n results are yielded, and the loop ends normally |
| Api.PageRequest | refresh2/api.py:62-65 | the request carries the page size and page number and otherwise the caller's parameters |
| Api.NonPaginatedGet | refresh2/api.py:81-91 | fails with InternalError exactly when the normalized answer has pagination, passes normalization errors on, and otherwise returns the selected result |
| Api.NonPaginatedPlainObject | refresh2/api.py:81-91 | a plain object without special keys comes back as it is, or its `key` member |
| Api.ListSearchIgnored | refresh2/api.py:103-143 | the client, task and time-entry search arguments make no difference to what is fetched, because the built arguments are never passed on |
| Api.ClientPages | refresh2/api.py:103-110 | the clients listing is a paginated get starting at page 1 with one value per answered page; the search argument is ignored, as Api.ListSearchIgnored states |
| Api.FindByName | refresh2/api.py:199-213 | the first membership whose lower-cased name equals the lower-cased query; none means no name matches |
| Api.FindById | refresh2/api.py:215-228 | the first membership with the given id; none means no id matches |
| Api.Business | refresh2/api.py:170-183 | neither or both selectors raise a parameter error; a failed membership fetch is passed on; otherwise it fails exactly when no membership matches, and returns the first match |
| Api.BusinessNameCaseInsensitive | refresh2/api.py:199-213 | asking by a lower-cased name gives the same answer |
| Models.SchemaAcyclic | freshtools/models.py:39-196 | the foreign keys of the six models form a graph closed over the models and ranked by depth, so it has no cycle |
| Models.LowerNameCorrect | freshtools/models.py:209-218 | lower-cased class names are distinct, so a name picks at most one model |
| Models.ModelsByName | freshtools/models.py:209-218 | never more models than names |
| Models.ModelsByNameMembers | freshtools/models.py:209-218 | a model is returned exactly when some name equals its class name ignoring case |
| Models.ModelsByNameRoundTrip | freshtools/models.py:209-218 | the class names of a list of models give back that list |
| Models.ModelsByNameAppend | freshtools/models.py:209-218 | names are resolved one by one, in order |
| Models.ModelsByNameSingle | freshtools/models.py:209-218 | case does not matter, and an unknown name is dropped silently |
| Models.Gather | freshtools/models.py:89-196 | the per-business page listings succeed exactly when each business's does; otherwise the first failing business's error is returned |
| Models.GatherContents | freshtools/models.py:89-196 | on success the records are every business's pages concatenated in order, each tagged with its business |
| Models.AccountRows | freshtools/models.py:42-52 | one account row per business, keyed by its account id |
| Models.BusinessRows | freshtools/models.py:60-71 | one business row per business with its id, account and name |
| Models.ClientRowOf | freshtools/models.py:88-105 | the client row holds the record's fields and the business's account id |
| Models.ProjectRowOf | freshtools/models.py:114-128 | the project row holds the record's fields and the business id |
| Models.TaskRowOf | freshtools/models.py:136-150 | the task row holds the record's fields |
| Models.TimeEntryRowOf | freshtools/models.py:171-196 | the entry row holds the record's fields, each date column is the day of its timestamp, and a bare date is taken as midnight |
| Models.RowsFor | freshtools/models.py:39-196 | every row belongs to the model's table; accounts and businesses never fail and yield one row per business |
| Models.ClientRowsComplete | freshtools/models.py:88-105 | a successful client pull yields exactly one row per fetched client record, in order |
| Models.Pull | freshtools/models.py:39-196 | a failed membership fetch or listing walk fails the pull with that error; otherwise it fails exactly when there are rows and the model's table is missing; on success the model's table gains the keys of the pulled rows, each holding the last pulled row with that key, its other rows are unchanged, and every other table is unchanged |
| Models.PullWellTyped | freshtools/models.py:39-196 | after a pull every table still holds only rows of its own model, under their own keys |
| Cache.SchemaOrder | freshtools/cache.py:9-12 | the initialization order lists each model exactly once |
| Cache.Initialize | freshtools/cache.py:9-12 | whatever the store held, afterwards all six tables exist and are empty |
| Cache.InitializeIdempotent | freshtools/cache.py:9-12 | initializing twice is the same as once |
| Cache.List | freshtools/cache.py:15-18 | exactly the existing tables, in the declaration order of the models |
| Cache.StatusAsWritten | freshtools/cache.py:21-26 | as written: every line printed is a record count, in model order; no line ever says "empty" |
| Cache.StatusAsWrittenFailsOnMissingTable | freshtools/cache.py:21-26 | as written, a missing time-entry table makes status fail before printing anything, where "empty" was meant |
| Cache.Status | freshtools/cache.py:21-26 | one line per model, in order: "empty" exactly when the table is missing, otherwise its row count |
| Cache.StatusAgreesWhenComplete | freshtools/cache.py:21-26 | when every table exists, the code as written and the intended status print the same lines |
| Cache.PullEach | freshtools/cache.py:32-35 | models are pulled in order, stopping at the first failure, which leaves some model not done; no table is added or removed |
| Cache.PullStep | freshtools/cache.py:32-35 | a step is the model's pull followed by its row count: it fails as the pull does, or afterwards exactly when the table is missing, and otherwise gives the pulled store |
| Cache.PullEachStops | freshtools/cache.py:32-35 | the models completed before a failure form a complete run ending in the same store, so their upserts persist, and the failure is the next model's step on that store |
| Cache.PullEachLeavesOthers | freshtools/cache.py:32-35 | the tables of the models not pulled keep their rows |
| Cache.PullModels | freshtools/cache.py:29-35 | the pulled models are distinct, and all requested models are pulled when nothing fails |
| Cache.PullRespectsDependencies | freshtools/cache.py:29-35 | every model is pulled after all the models it references, and only models in the dependency closure are pulled |
| Cache.PullEachWellTyped | freshtools/cache.py:29-35 | pulling keeps every table holding only its own model's rows |
| Cache.PullTimeEntriesOrder | freshtools/cache.py:29-35 | pulling time entries pulls accounts, clients, businesses, projects, tasks and then time entries |
| Summary.Join | freshtools/summary.py:39-47 | the inner join with tasks: an entry appears, paired with its task, exactly when its task id names an existing task |
| Summary.WeekEndingDay | freshtools/summary.py:142 | the week-ending date of a timestamp is the Sunday on or within six days after its day |
| Summary.Earliest | freshtools/summary.py:43 | `MIN(created_at)` is one of the group's timestamps and none is earlier |
| Summary.Latest | freshtools/summary.py:44 | `MAX(created_at)` is one of the group's timestamps and none is later |
| Summary.GroupBy | freshtools/summary.py:39-48 | one group per distinct key, in order of first appearance, each drawn from its members and summarizing exactly them: summed duration, earliest and latest timestamp |
| Summary.GroupByCovers | freshtools/summary.py:39-48 | group keys are pairwise distinct, and every joined row falls into some group |
| Summary.GroupTotalsAddUp | freshtools/summary.py:42-48 | the group totals add up to the total duration of all joined rows |
| Summary.BucketsPartition | freshtools/summary.py:39-48 | the rows carrying each of a list of distinct keys that covers every joined row together hold every joined row exactly as often as the input does: grouping loses and duplicates no row |
| Summary.InsertByLast | freshtools/summary.py:49-51 | inserting into a list sorted by last date keeps it sorted and adds exactly that group |
| Summary.SortByLast | freshtools/summary.py:49-51 | the result is sorted by last date and is a permutation of its input |
| Summary.QueryOrdered | freshtools/summary.py:38-68 | the result is sorted by last date, and is a permutation of the grouping of the joined window entries |
| Summary.QueryRowsInWindow | freshtools/summary.py:53-66 | every group's representative is a cached entry inside the window whose task exists |
| Summary.Query | freshtools/summary.py:38-68 | the result rows are sorted by last date, and two result rows with the same grouping key are the same row |
| Summary.TasksByClient | freshtools/summary.py:71-78 | sorted by last date, with at most one group per task and client |
| Summary.TopValues | freshtools/summary.py:110 | `.values()` of a dictionary gives its subtrees in key order, and their rows, concatenated, are the rows of the whole dictionary |
| Summary.WeekWindow | freshtools/summary.py:145-146 | the weeks report's window keeps the client and the presence of each bound, and starts on a Monday and ends on a Sunday |
| Summary.WeeksAlignOnce | freshtools/summary.py:145-146 | aligning a window before building the weeks report changes nothing |
| Summary.DaysByClientProjectTask | freshtools/summary.py:105-110 | one section per creation date of the result rows, in order of first appearance; each holds exactly the result rows of its date, its head row carries that date, and it is a non-empty map of clients to non-empty maps of projects to non-empty lists |
| Summary.WeeksByClientProject | freshtools/summary.py:145-153 | on the week-aligned window, one section per week-ending date of the result rows; each holds exactly the rows of its week, its head row carries that date, and no level is empty |
| Summary.Section | freshtools/summary.py:105-110 | each top-level section holds exactly the result rows with its key, and its head carries that key |
| Text.Utf8Length | freshtools/summary.py:25-26 | the byte length of the encoded header is between its character count and four times that |
| Text.Utf8LengthAscii | freshtools/summary.py:25-26 | the bar is as long as the header exactly when the header is ASCII |
| Text.Utf8LengthAppend | freshtools/summary.py:25-26 | the encoded length of a concatenation is the sum of the lengths |
| Text.Bar | freshtools/summary.py:26 | only dashes, as many as the encoded header has bytes |
| Text.PadInt | freshtools/summary.py:113 | the zero-padded fields of `str(date)`: a number that fits in N digits prints as exactly N digits, and the text is never shorter than N |
| Text.DateText | freshtools/summary.py:113 | `str(date)` of a year in 1..9999 has 10 characters with dashes at positions 4 and 7 |
| Text.DateTextRoundTrip | freshtools/summary.py:113 | reading `str(date)` back gives the same date |
| Text.DateTimeText | freshtools/summary.py:84-91 | `str(datetime)` is the date, a space, hh:mm:ss, and six microsecond digits only when they are nonzero |
| Report.SectionLines | freshtools/summary.py:25-32 | five lines: the bar, the header, the same bar, the body, an empty line |
| Report.Print | freshtools/summary.py:23-32 | the report prints in full exactly when every row's title and body format, giving five lines per row in row order; otherwise it stops at the first failing row, after the sections of all earlier rows |
| Report.PrintAppend | freshtools/summary.py:23-32 | printing two lists of rows is printing the first, then the second unless the first stopped |
| Report.BilledText | freshtools/summary.py:133 | "Yes" exactly when the entry is billed, otherwise "No" |
| Report.ClientOf | freshtools/summary.py:88 | the row's client when the client table has it, otherwise a missing-client error |
| Report.ProjectOf | freshtools/summary.py:124 | the row's project when it has one the table knows; a null project fails with NoProject, an unknown one with a missing-row error |
| Report.LoadField | freshtools/util.py:36 | reading the client column raises exactly when the client row is missing, reading the project column exactly when a non-null project row is missing, and the date columns never raise |
| Report.LoadKeys | freshtools/util.py:35-41 | reading a row's grouping columns in order succeeds exactly when every column reads, and a failure is a missing row |
| Report.LoadRows | freshtools/util.py:32-43 | the loop over the result rows succeeds exactly when every row's columns read, and a failure is a missing row |
| Report.LevelsLoad | freshtools/summary.py:108-109 | with the day or week levels, a row's columns read exactly when its client and its non-null project exist |
| Report.DaysQuery | freshtools/summary.py:105-110 | the day sections are built exactly when every result row's client and non-null project exist, and are then the grouping of the result rows; otherwise a missing row is raised |
| Report.WeeksQuery | freshtools/summary.py:148-153 | the same for the week sections |
| Report.HeadRow | freshtools/util.py:6-14 | `head` down to a row returns one of the tree's rows, the first of a list; it fails only on an empty level, always when the tree holds no row, and never on a tree whose levels are all non-empty |
| Report.TaskBody | freshtools/summary.py:83-91 | the body names the client's organization, the total, and the first and last entered timestamps; it fails exactly when the client is missing |
| Report.TaskTitle | freshtools/summary.py:80-81 | the title is the joined task's name and never fails, so the tasks report can only stop in a body |
| Report.DayTitle | freshtools/summary.py:112-113 | the section title is the date of its first row |
| Report.WeekTitle | freshtools/summary.py:155-156 | the title is "Week Ending: " followed by the week-ending date of the first row |
| Report.DayBody | freshtools/summary.py:115-135 | the task blocks of a day's body are those of all the rows of the section, in grouping order; on a section the grouping builds it fails only on a lookup, only on a null project when every row's keys load, and never when every row's client and project exist |
| Report.WeekBody | freshtools/summary.py:158-173 | on a section the grouping builds, the week body fails only on a lookup, only on a null project when every row's keys load, and never when every row's client and project exist |
| Report.WeekProjectsFail | freshtools/summary.py:165-171 | one total line per project, failing only on a lookup |
| Report.NoEntriesNoOutput | freshtools/summary.py:23-32 | an empty time-entry table prints nothing for all three reports |
| Report.TasksByClientReport | freshtools/summary.py:71-91 | the tasks report stops only on a missing client, and prints in full exactly when every result row's client exists |
| Report.DaysReport | freshtools/summary.py:94-135 | a result row whose client or non-null project is missing stops the days report with a missing-row error before any line is printed; when every row loads, only a null project stops it; it prints in full when every result row resolves |
| Report.WeeksReport | freshtools/summary.py:138-173 | the same for the weeks report |

## Left out

- `refresh2/auth.py` (OAuth), the HTTP session, URL templates and headers. They are I/O. The session is a parameter `get: Request -> Json` of the `Api` functions.
- `safe_get` is not part of this model. It is a parameter of the paging functions.
- The base `pull` that raises (`freshtools/models.py:17-19`): every concrete model overrides it.
- A `KeyError` on a missing field of a fetched record. Records are typed datatypes; only the response envelope is JSON.
- Python's `str.lower()` is modelled for ASCII letters only. There is no Unicode case folding.
- Account ids are `CharField`s in the schema (`freshtools/models.py:40`). They are modelled as integers. Only equality and keying of account ids is modelled, and integers and strings support both alike.
- `dateutil`'s string parsing is not modelled. A moment is a date or a naive datetime.
- `parse_date` is not defined in `freshtools/util.py`. As written, `from util import parse_date` (`freshtools/models.py:4`) raises `ImportError`. Every other module imports `models`, so the cache, the pull and every report fail at import. The model is of the evidently intended program: `parse_date` is taken to be `parse_datetime` of `freshtools/date.py:6-13`.
- Time zones and `local_from_utc_datetime` are left out. They need the host clock's zone.
- `todays_date`, `n_days_ago_date`, `this_weeks_date` and `n_weeks_ago_date` (`freshtools/date.py:62-76`) read the clock.
- The log destinations and `TaskLog` (`freshtools/log.py:4-21`) are side effects on another table.
- `Report.TaskBody`: the hours column (`%0.2f` of seconds over 3600) is floating point. It is a parameter `hours: int -> string`.
- `print` and the UTF-8 `'replace'` error handler are not modelled. Every Dafny `char` is a Unicode scalar value and encodes without replacement. The printed lines are returned as a sequence.
- `os.linesep` is taken to be `"\n"`.
- `get_logger` is not defined in `freshtools/log.py`. As written, `from log import get_logger` (`freshtools/cache.py:1`) raises `ImportError`, so no cache operation runs. The model is of the evidently intended program, with the logger calls left out: `status` returns its lines instead of logging them.
- `Entries.NewWindow`: `get_the_one_or_fail` is not defined in `freshtools/models.py`, which has only the classmethod `get_the_one` (`freshtools/models.py:83`). As written, `from models import Client, get_the_one_or_fail` (`freshtools/entries.py:1`) raises `ImportError`, so no window can be built. The model is of the evidently intended program: the client-name lookup is a parameter that may fail.
- `Api.ListSearchIgnored`: the search arguments are built and then dropped by the source, so no filtered fetch is modelled.
- `Models.Pull`: the listings a pull walks come from a `Remote` value. It holds a finite list of pages per account or business, or the error the walk raised. These pages are not built from `Api.ClientPages` or the other page functions over the session. They stand for any paginated walk that ends, and the paging itself is stated separately by the `Api` members. A listing that never ends, on which the source would loop forever, cannot be represented.
- `Api.PaginatedGet`: a `fuel` bound caps the number of pages. A server that never reports the last page would loop forever in the source; in the model it stops with `OutOfFuel`.
- Window bounds are compared as datetimes. A bare date is compared as its midnight. SQLite's comparison of stored text is not modelled.
- `created_at_week_ending_date` is not a column of `TimeEntry`. As written, the class body of `WeeksByClientProject` (`freshtools/summary.py:142`) reads `TimeEntry.created_at_week_ending_date` when the module is imported, which raises `AttributeError`, so the weeks report never runs. The model is of the evidently intended program: the column is taken to be the Sunday ending the week of `created_at`.
- `month_starting_datetime`, `month_ending_datetime`, `year_starting_datetime` and `year_ending_datetime` are imported by `freshtools/entries.py:2-4` but are not defined in `date.py`. As written, importing `entries.py` raises `ImportError`, so no window can be built and no report runs. The model is of the evidently intended program: these helpers are modelled on the civil calendar, as `freshtools/tests/test_date.py` describes them.
- The non-aggregated columns of a grouped SQLite row come from an unspecified member of the group. The model takes the first member in table order.
- Ties of `ORDER BY last_date` are unspecified. The model keeps the grouping order among equal keys. Only sortedness and the permutation are stated.
- `Cache.Initialize`: tables are dropped in dependency order rather than reverse dependency order. With foreign keys unenforced, as in the default SQLite setup, the end state is the same, and that end state is what the model states.
- `parameters.py` (command-line parsing) is outside the core.
- `Models.ForeignKeys`: the order in which a model lists its foreign keys follows the declaration order of its fields. The source reads them from `model._meta.fields.values()` (`freshtools/util.py:51`), a Python 2 dictionary whose iteration order is unspecified. Only the constraints proved by `Util.DependencyOrderRespectsForeignKeys` and `Cache.PullRespectsDependencies` hold for every order: each model after the models it references, and nothing outside the closure.
- `Cache.PullTimeEntriesOrder`: the exact sequence it states assumes that declaration order. Another field order gives another sequence that meets the same constraints.
- `Date.WeekStartingAndEnding`, `Date.WeekEnding` and `Date.EndingOfDay`: Python's `datetime` covers years 1 to 9999 only. In the week containing 9999-12-31, adding six days (`freshtools/date.py:45`) raises `OverflowError`. The model's `DateTime` has no year bound and returns a bound in year 10000 there instead.
- The day and week reports load each result row's client and project while the sections are built. A missing row raises at that point, before the first section prints. `Report.DaysQuery` and `Report.WeeksQuery` check these loads before the grouping rather than during it. The result is the same, because the grouping has no other effect.

## Findings

| source | as written | input that shows it | evidently intended | confidence | as-written member | corrected member |
|---|---|---|---|---|---|---|
| freshtools/cache.py:25 | `model.table_exists` is tested without being called. A bound method is always true, so every model's rows are counted and "empty" can never print. | A cache whose time-entry table does not exist: counting it raises before any line is printed. | `model.table_exists()`: print "empty" for a missing table and the count for the others. | not executed | Cache.StatusAsWritten, Cache.StatusAsWrittenFailsOnMissingTable | Cache.Status |

=== FILE: api.dfy ===
/** The FreshBooks API client: normalising the differently shaped responses
    of the API, paging through list endpoints, and finding a business among
    the user's memberships. The HTTP transport is a parameter: a function
    from the requested page to the decoded JSON body. */
module Api {
  import opened Wrappers
  import opened Seqs

  const PageSize: int := 100

  /** A decoded JSON value. Numbers are integers; objects are maps. */
  datatype Json =
    | JNull
    | JBool(b: bool)
    | JNum(n: int)
    | JStr(s: string)
    | JArr(items: seq<Json>)
    | JObj(fields: map<string, Json>)

  /** The exceptions the client raises or lets escape. */
  datatype ApiError =
    | ApiFailure(message: string)   // the body carried 'message'
    | ApiErrors(errors: Json)       // the body carried 'errors'
    | InternalError                 // a single-page endpoint answered with pagination
    | ParameterError                // business(): not exactly one of name and id
    | BusinessNotFound
    | KeyError(key: string)
    | TypeError

  /** The values the `in` operator can search. */
  predicate Container(j: Json) {
    j.JObj? || j.JArr? || j.JStr?
  }

  /** `x in j` for a string `x`: a key of an object, an element of a list,
      a substring of a string. On any other value `in` raises a TypeError,
      which callers check once through `Container`. */
  predicate Has(j: Json, x: string)
    requires Container(j)
  {
    match j
    case JObj(m) => x in m
    case JArr(items) => JStr(x) in items
    case JStr(s) => exists i, k :: 0 <= i <= k <= |s| && s[i..k] == x
  }

  /** `j[x]` for a string `x`: only objects can be indexed by a string. */
  function Index(j: Json, x: string): (r: Result<Json, ApiError>)
    ensures r.Success? <==> j.JObj? && x in j.fields
    ensures r.Success? ==> r.value == j.fields[x]
    ensures j.JObj? && x !in j.fields ==> r == Failure(KeyError(x))
  {
    match j
    case JObj(m) => if x in m then Success(m[x]) else Failure(KeyError(x))
    case _ => Failure(TypeError)
  }

  /** Python truthiness of a JSON value. */
  predicate Truthy(j: Json) {
    match j
    case JNull => false
    case JBool(b) => b
    case JNum(n) => n != 0
    case JStr(s) => s != ""
    case JArr(items) => items != []
    case JObj(m) => m != map[]
  }

  /** The integer a JSON value stands for in arithmetic: a bool is 0 or 1. */
  function AsInt(j: Json): Option<int> {
    match j
    case JNum(n) => Some(n)
    case JBool(b) => Some(if b then 1 else 0)
    case _ => None
  }

  const NoPagination: Json := JObj(map[])

  /** Rejects error bodies, unwraps the payload and extracts pagination.
      The success value is the pair (pagination, result). */
  function Normalize(response: Json): (r: Result<(Json, Json), ApiError>)
    ensures response.JObj? && "message" in response.fields ==>
      r == Failure(if response.fields["message"].JStr? then ApiFailure(response.fields["message"].s) else TypeError)
    ensures response.JObj? && "message" !in response.fields && "errors" in response.fields ==>
      r == Failure(ApiErrors(response.fields["errors"]))
    ensures r.Failure? && response.JObj? && "message" !in response.fields && "errors" !in response.fields ==>
      r.error == TypeError || r.error.KeyError?
    ensures r.Failure? ==> r.error.ApiFailure? || r.error.ApiErrors? || r.error.KeyError? || r.error == TypeError
    ensures r.Success? ==> r.value.1 == Payload(response) && r.value.0 == PaginationOf(r.value.1)
    ensures (response.JObj? && "message" !in response.fields && "errors" !in response.fields
             && Payload(response).JObj? && WellPaginated(Payload(response).fields)) ==> r.Success?
  {
    if !Container(response) then Failure(TypeError)
    else if Has(response, "message") then
      var msg :- Index(response, "message");
      if msg.JStr? then Failure(ApiFailure(msg.s)) else Failure(TypeError)
    else if Has(response, "errors") then
      var errors :- Index(response, "errors");
      Failure(ApiErrors(errors))
    else
      var result :- Unwrap(response, "response");
      var result :- Unwrap(result, "result");
      var pagination :- Pagination(result);
      Success((pagination, result))
  }

  /** The payload of an object body: the value under 'response' if there is
      one, and then the value under 'result' if there is one. */
  function Payload(response: Json): Json {
    var outer := if response.JObj? && "response" in response.fields then response.fields["response"] else response;
    if outer.JObj? && "result" in outer.fields then outer.fields["result"] else outer
  }

  /** The pagination an object payload carries. */
  function PaginationOf(result: Json): Json {
    if result.JObj? && "meta" in result.fields then result.fields["meta"]
    else if result.JObj? && "per_page" in result.fields && "pages" in result.fields && "page" in result.fields then
      JObj(map["per_page" := result.fields["per_page"], "pages" := result.fields["pages"], "page" := result.fields["page"]])
    else NoPagination
  }

  /** An object payload whose pagination can be read without a KeyError. */
  predicate WellPaginated(fields: map<string, Json>) {
    "meta" in fields || "per_page" !in fields || ("pages" in fields && "page" in fields)
  }

  /** `j[x]` when `x in j`, otherwise `j` itself. */
  function Unwrap(j: Json, x: string): (r: Result<Json, ApiError>)
    ensures j.JObj? ==> r == Success(if x in j.fields then j.fields[x] else j)
  {
    if !Container(j) then Failure(TypeError)
    else if Has(j, x) then Index(j, x)
    else Success(j)
  }

  /** 'meta' when present; else the (per_page, pages, page) triple when
      'per_page' is present, read in that order; else no pagination. */
  function Pagination(result: Json): (r: Result<Json, ApiError>)
    ensures result.JObj? && "meta" in result.fields ==> r == Success(result.fields["meta"])
    ensures result.JObj? && "meta" !in result.fields && "per_page" !in result.fields ==> r == Success(NoPagination)
  {
    if !Container(result) then Failure(TypeError)
    else if Has(result, "meta") then Index(result, "meta")
    else
      if Has(result, "per_page") then
        var perPage :- Index(result, "per_page");
        var pages :- Index(result, "pages");
        var page :- Index(result, "page");
        Success(JObj(map["per_page" := perPage, "pages" := pages, "page" := page]))
      else Success(NoPagination)
  }

  // ---------------------------------------------------------------------
  // paging

  /** The query parameters of a request: the page size, the page number and
      any further search filters, by name. */
  datatype Request = Request(perPage: int, page: int, filters: map<string, Json>)

  /** How the paging loop ended: the last page was reached, an exception
      escaped, or the model's step budget ran out. */
  datatype Stop = Done | Raised(error: ApiError) | OutOfFuel

  /** What a consumer of the generator observes: the page numbers requested,
      the values yielded, and how iteration ended. */
  datatype Paging = Paging(pages: seq<int>, yielded: seq<Json>, stop: Stop)

  /** The value yielded for a page: the whole result, or the part under
      `key` as the abstract `safeGet` picks it out. */
  function Select(result: Json, key: Option<string>, safeGet: (Json, string) -> Json): Json {
    match key
    case None => result
    case Some(k) => safeGet(result, k)
  }

  /** After a page: stop when pagination is empty or the page just requested
      is the last; otherwise request the reported page plus one. */
  function NextPage(pagination: Json, current: int): (r: Result<Option<int>, ApiError>)
    ensures !Truthy(pagination) ==> r == Success(None)
    ensures r.Success? && r.value.Some? ==>
      pagination.JObj? && "page" in pagination.fields && AsInt(pagination.fields["page"]) == Some(r.value.value - 1)
      && "pages" in pagination.fields && AsInt(pagination.fields["pages"]) != Some(current)
  {
    if !Truthy(pagination) then Success(None)
    else
      var pages :- Index(pagination, "pages");
      if AsInt(pages) == Some(current) then Success(None)
      else
        var page :- Index(pagination, "page");
        match AsInt(page)
        case None => Failure(TypeError)
        case Some(p) => Success(Some(p + 1))
  }

  /** A normalised response whose pagination reports page `page`. */
  predicate ReportsPage(n: Result<(Json, Json), ApiError>, page: int) {
    && n.Success?
    && n.value.0.JObj? && "page" in n.value.0.fields
    && AsInt(n.value.0.fields["page"]) == Some(page)
  }

  /** The paging loop from page `current`, with at most `fuel` requests;
      `fetch` requests a page and normalises the response. */
  function PagesFrom(fetch: int -> Result<(Json, Json), ApiError>, key: Option<string>,
                     safeGet: (Json, string) -> Json, current: int, fuel: nat): (r: Paging)
    ensures |r.pages| <= fuel
    ensures fuel > 0 <==> r.pages != []
    ensures r.pages != [] ==> r.pages[0] == current
    ensures |r.yielded| == |r.pages| || (r.stop.Raised? && |r.yielded| == |r.pages| - 1)
    ensures r.stop == OutOfFuel ==> |r.pages| == fuel
    decreases fuel
  {
    if fuel == 0 then Paging([], [], OutOfFuel)
    else
      match fetch(current)
      case Failure(e) => Paging([current], [], Raised(e))
      case Success((pagination, result)) =>
        var item := Select(result, key, safeGet);
        match NextPage(pagination, current)
        case Failure(e) => Paging([current], [item], Raised(e))
        case Success(None) => Paging([current], [item], Done)
        case Success(Some(next)) =>
          var rest := PagesFrom(fetch, key, safeGet, next, fuel - 1);
          Paging([current] + rest.pages, [item] + rest.yielded, rest.stop)
  }

  /** `paginated_get`: page 1 first, every request with `per_page` set to the
      page size and `page` to the page number, over the caller's filters. */
  function PaginatedGet(get: Request -> Json, key: Option<string>, safeGet: (Json, string) -> Json,
                        pageSize: int, filters: map<string, Json>, fuel: nat): (r: Paging)
    ensures fuel > 0 <==> r.pages != []
    ensures r.pages != [] ==> r.pages[0] == 1
    ensures |r.yielded| == |r.pages| || (r.stop.Raised? && |r.yielded| == |r.pages| - 1)
  {
    PagesFrom(p => Normalize(get(PageRequest(pageSize, filters, p))), key, safeGet, 1, fuel)
  }

  /** The request for one page: the caller's filters, with `per_page` and
      `page` overwritten. */
  function PageRequest(pageSize: int, filters: map<string, Json>, page: int): (q: Request)
    ensures q.perPage == pageSize && q.page == page
    ensures q.filters.Keys == filters.Keys - {"per_page", "page"}
    ensures forall k :: k in q.filters ==> q.filters[k] == filters[k]
  {
    Request(pageSize, page, filters - {"per_page", "page"})
  }

  predicate FollowsReportedPages(fetch: int -> Result<(Json, Json), ApiError>, pages: seq<int>) {
    forall i :: 0 <= i < |pages| - 1 ==> ReportsPage(fetch(pages[i]), pages[i + 1] - 1)
  }

  /** Each request after the first asks for the page after the one the
      server reported in the previous response. */
  lemma {:induction false} PagesFollowReportedPage(fetch: int -> Result<(Json, Json), ApiError>, key: Option<string>,
                                                  safeGet: (Json, string) -> Json, current: int, fuel: nat)
    ensures FollowsReportedPages(fetch, PagesFrom(fetch, key, safeGet, current, fuel).pages)
    decreases fuel
  {
    if fuel > 0 && fetch(current).Success? {
      var n := NextPage(fetch(current).value.0, current);
      if n.Success? && n.value.Some? {
        PagesFollowReportedPage(fetch, key, safeGet, n.value.value, fuel - 1);
        FollowsStep(fetch, key, safeGet, current, fuel, n.value.value);
      }
    }
  }

  lemma FollowsStep(fetch: int -> Result<(Json, Json), ApiError>, key: Option<string>,
                    safeGet: (Json, string) -> Json, current: int, fuel: nat, next: int)
    requires fuel > 0 && fetch(current).Success? && NextPage(fetch(current).value.0, current) == Success(Some(next))
    requires FollowsReportedPages(fetch, PagesFrom(fetch, key, safeGet, next, fuel - 1).pages)
    ensures FollowsReportedPages(fetch, PagesFrom(fetch, key, safeGet, current, fuel).pages)
  {
    var rest := PagesFrom(fetch, key, safeGet, next, fuel - 1);
    PagesCons(fetch, key, safeGet, current, fuel, next);
    if rest.pages != [] {
      FollowsCons(fetch, current, rest.pages);
    }
  }

  lemma FollowsCons(fetch: int -> Result<(Json, Json), ApiError>, first: int, rest: seq<int>)
    requires FollowsReportedPages(fetch, rest)
    requires rest != [] && ReportsPage(fetch(first), rest[0] - 1)
    ensures FollowsReportedPages(fetch, [first] + rest)
  {
    var ps := [first] + rest;
    forall i | 0 <= i < |ps| - 1 ensures ReportsPage(fetch(ps[i]), ps[i + 1] - 1) {
      if i > 0 {
        assert ps[i] == rest[i - 1] && ps[i + 1] == rest[i];
      }
    }
  }

  /** Iteration ends normally only after a page whose pagination is empty or
      whose page count equals the page just requested. */
  lemma {:induction false} PagesStopAtLastPage(fetch: int -> Result<(Json, Json), ApiError>, key: Option<string>,
                                              safeGet: (Json, string) -> Json, current: int, fuel: nat)
    ensures PagesFrom(fetch, key, safeGet, current, fuel).stop == Done ==>
      EndsOnLastPage(fetch, PagesFrom(fetch, key, safeGet, current, fuel).pages)
    decreases fuel
  {
    if fuel > 0 && fetch(current).Success? {
      var n := NextPage(fetch(current).value.0, current);
      if n.Success? && n.value.Some? {
        PagesStopAtLastPage(fetch, key, safeGet, n.value.value, fuel - 1);
        StopStep(fetch, key, safeGet, current, fuel, n.value.value);
      }
    }
  }

  lemma StopStep(fetch: int -> Result<(Json, Json), ApiError>, key: Option<string>,
                 safeGet: (Json, string) -> Json, current: int, fuel: nat, next: int)
    requires fuel > 0 && fetch(current).Success? && NextPage(fetch(current).value.0, current) == Success(Some(next))
    requires PagesFrom(fetch, key, safeGet, next, fuel - 1).stop == Done ==>
      EndsOnLastPage(fetch, PagesFrom(fetch, key, safeGet, next, fuel - 1).pages)
    ensures PagesFrom(fetch, key, safeGet, current, fuel).stop == Done ==>
      EndsOnLastPage(fetch, PagesFrom(fetch, key, safeGet, current, fuel).pages)
  {
    var rest := PagesFrom(fetch, key, safeGet, next, fuel - 1);
    PagesCons(fetch, key, safeGet, current, fuel, next);
    if rest.stop == Done {
      EndsOnLastPageCons(fetch, current, rest.pages);
    }
  }

  /** The last page requested reported no further page. */
  predicate EndsOnLastPage(fetch: int -> Result<(Json, Json), ApiError>, pages: seq<int>) {
    pages != [] &&
    var last := pages[|pages| - 1];
    fetch(last).Success? && NextPage(fetch(last).value.0, last) == Success(None)
  }

  lemma EndsOnLastPageCons(fetch: int -> Result<(Json, Json), ApiError>, first: int, rest: seq<int>)
    requires EndsOnLastPage(fetch, rest)
    ensures EndsOnLastPage(fetch, [first] + rest)
  {
    assert ([first] + rest)[|rest|] == rest[|rest| - 1];
  }

  /** A normalised response whose pagination reports page `page` of `pages`. */
  predicate ReportsPageOf(n: Result<(Json, Json), ApiError>, page: int, pages: int) {
    && n.Success?
    && n.value.0.JObj?
    && "pages" in n.value.0.fields && AsInt(n.value.0.fields["pages"]) == Some(pages)
    && "page" in n.value.0.fields && AsInt(n.value.0.fields["page"]) == Some(page)
  }

  /** A server that answers each page 1..n with a pagination reporting that
      page out of n. */
  predicate WellBehaved(fetch: int -> Result<(Json, Json), ApiError>, n: int) {
    forall p {:trigger ReportsPageOf(fetch(p), p, n)} :: 1 <= p <= n ==> ReportsPageOf(fetch(p), p, n)
  }

  /** The pages p, p + 1, ..., n in order. */
  predicate Consecutive(pages: seq<int>, p: int, n: int) {
    |pages| == n - p + 1 && forall i :: 0 <= i < |pages| ==> pages[i] == p + i
  }

  lemma ConsecutiveCons(p: int, n: int, rest: seq<int>)
    requires Consecutive(rest, p + 1, n)
    ensures Consecutive([p] + rest, p, n)
  {
    var ps := [p] + rest;
    forall i | 0 <= i < |ps| ensures ps[i] == p + i {
      if i > 0 { assert ps[i] == rest[i - 1]; }
    }
  }

  /** Against a well-behaved server, the loop requests pages p..n in order,
      yields once per page and ends normally after page n. */
  lemma {:induction false} PagesFromWellBehaved(fetch: int -> Result<(Json, Json), ApiError>, key: Option<string>,
                                               safeGet: (Json, string) -> Json, p: int, n: int, fuel: nat)
    requires WellBehaved(fetch, n)
    requires 1 <= p <= n && fuel >= n - p + 1
    ensures Completes(PagesFrom(fetch, key, safeGet, p, fuel), p, n)
    decreases n - p
  {
    if p < n {
      PagesFromWellBehaved(fetch, key, safeGet, p + 1, n, fuel - 1);
      WellBehavedCons(fetch, key, safeGet, p, n, fuel);
    } else {
      WellBehavedStep(fetch, p, n);
      PagesLast(fetch, key, safeGet, p, fuel);
    }
  }

  /** One more page in front of a completed run against a well-behaved server. */
  lemma WellBehavedCons(fetch: int -> Result<(Json, Json), ApiError>, key: Option<string>,
                        safeGet: (Json, string) -> Json, p: int, n: int, fuel: nat)
    requires WellBehaved(fetch, n)
    requires 1 <= p < n && fuel >= n - p + 1
    requires Completes(PagesFrom(fetch, key, safeGet, p + 1, fuel - 1), p + 1, n)
    ensures Completes(PagesFrom(fetch, key, safeGet, p, fuel), p, n)
  {
    WellBehavedStep(fetch, p, n);
    PagesCons(fetch, key, safeGet, p, fuel, p + 1);
    CompletesCons(p, n, Select(fetch(p).value.1, key, safeGet), PagesFrom(fetch, key, safeGet, p + 1, fuel - 1));
  }

  /** Pages p..n requested in order, one value yielded per page, a normal end. */
  predicate Completes(r: Paging, p: int, n: int) {
    Consecutive(r.pages, p, n) && |r.yielded| == n - p + 1 && r.stop == Done
  }

  lemma CompletesCons(p: int, n: int, x: Json, rest: Paging)
    requires Completes(rest, p + 1, n)
    ensures Completes(Paging([p] + rest.pages, [x] + rest.yielded, rest.stop), p, n)
  {
    ConsecutiveCons(p, n, rest.pages);
  }

  /** The i-th value yielded is picked out of the result of the i-th page requested. */
  lemma {:induction false} YieldsSelectedResults(fetch: int -> Result<(Json, Json), ApiError>, key: Option<string>,
                                                safeGet: (Json, string) -> Json, current: int, fuel: nat)
    ensures var r := PagesFrom(fetch, key, safeGet, current, fuel);
      YieldsSelected(fetch, key, safeGet, r.pages, r.yielded)
    decreases fuel
  {
    if fuel > 0 && fetch(current).Success? {
      var n := NextPage(fetch(current).value.0, current);
      if n.Success? && n.value.Some? {
        YieldsSelectedResults(fetch, key, safeGet, n.value.value, fuel - 1);
        YieldsStep(fetch, key, safeGet, current, fuel, n.value.value);
      }
    }
  }

  /** Every value yielded is the selection from the page requested at the
      same position. */
  predicate YieldsSelected(fetch: int -> Result<(Json, Json), ApiError>, key: Option<string>,
                           safeGet: (Json, string) -> Json, pages: seq<int>, yielded: seq<Json>) {
    && |yielded| <= |pages|
    && forall i :: 0 <= i < |yielded| ==>
      fetch(pages[i]).Success? && yielded[i] == Select(fetch(pages[i]).value.1, key, safeGet)
  }

  lemma YieldsStep(fetch: int -> Result<(Json, Json), ApiError>, key: Option<string>,
                   safeGet: (Json, string) -> Json, current: int, fuel: nat, next: int)
    requires fuel > 0 && fetch(current).Success? && NextPage(fetch(current).value.0, current) == Success(Some(next))
    requires var rest := PagesFrom(fetch, key, safeGet, next, fuel - 1);
      YieldsSelected(fetch, key, safeGet, rest.pages, rest.yielded)
    ensures var r := PagesFrom(fetch, key, safeGet, current, fuel);
      YieldsSelected(fetch, key, safeGet, r.pages, r.yielded)
  {
    var rest := PagesFrom(fetch, key, safeGet, next, fuel - 1);
    PagesCons(fetch, key, safeGet, current, fuel, next);
    YieldsSelectedCons(fetch, key, safeGet, current, rest.pages, rest.yielded);
  }

  lemma YieldsSelectedCons(fetch: int -> Result<(Json, Json), ApiError>, key: Option<string>,
                           safeGet: (Json, string) -> Json, p: int, pages: seq<int>, yielded: seq<Json>)
    requires fetch(p).Success? && YieldsSelected(fetch, key, safeGet, pages, yielded)
    ensures YieldsSelected(fetch, key, safeGet, [p] + pages, [Select(fetch(p).value.1, key, safeGet)] + yielded)
  {
    var ps, ys := [p] + pages, [Select(fetch(p).value.1, key, safeGet)] + yielded;
    forall i | 0 <= i < |ys|
      ensures fetch(ps[i]).Success? && ys[i] == Select(fetch(ps[i]).value.1, key, safeGet)
    {
      if i > 0 {
        assert ys[i] == yielded[i - 1] && ps[i] == pages[i - 1];
      }
    }
  }

  /** The step of the loop after which it ends normally. */
  lemma PagesLast(fetch: int -> Result<(Json, Json), ApiError>, key: Option<string>,
                  safeGet: (Json, string) -> Json, p: int, fuel: nat)
    requires fuel > 0 && fetch(p).Success? && NextPage(fetch(p).value.0, p) == Success(None)
    ensures PagesFrom(fetch, key, safeGet, p, fuel) == Paging([p], [Select(fetch(p).value.1, key, safeGet)], Done)
  {
  }

  /** One step of the loop that goes on to page `next`. */
  lemma PagesCons(fetch: int -> Result<(Json, Json), ApiError>, key: Option<string>,
                  safeGet: (Json, string) -> Json, p: int, fuel: nat, next: int)
    requires fuel > 0 && fetch(p).Success? && NextPage(fetch(p).value.0, p) == Success(Some(next))
    ensures var rest := PagesFrom(fetch, key, safeGet, next, fuel - 1);
      PagesFrom(fetch, key, safeGet, p, fuel)
        == Paging([p] + rest.pages, [Select(fetch(p).value.1, key, safeGet)] + rest.yielded, rest.stop)
  {
  }

  lemma WellBehavedStep(fetch: int -> Result<(Json, Json), ApiError>, p: int, n: int)
    requires WellBehaved(fetch, n) && 1 <= p <= n
    ensures fetch(p).Success?
    ensures NextPage(fetch(p).value.0, p) == if p < n then Success(Some(p + 1)) else Success(None)
  {
    assert ReportsPageOf(fetch(p), p, n);
  }

  /** `paginated_get` against a server with n >= 1 pages that reports each
      page faithfully: pages 1..n, one value per page, then a normal end. */
  lemma PaginatedGetWellBehaved(get: Request -> Json, key: Option<string>, safeGet: (Json, string) -> Json,
                                pageSize: int, filters: map<string, Json>, n: int, fuel: nat)
    requires WellBehaved(p => Normalize(get(PageRequest(pageSize, filters, p))), n)
    requires 1 <= n <= fuel
    ensures PaginatedGet(get, key, safeGet, pageSize, filters, fuel).pages == seq(n, i => i + 1)
    ensures |PaginatedGet(get, key, safeGet, pageSize, filters, fuel).yielded| == n
    ensures PaginatedGet(get, key, safeGet, pageSize, filters, fuel).stop == Done
  {
    PagesFromWellBehaved(p => Normalize(get(PageRequest(pageSize, filters, p))), key, safeGet, 1, n, fuel);
    var r := PaginatedGet(get, key, safeGet, pageSize, filters, fuel);
    assert r.pages == seq(n, i => i + 1);
  }

  /** `non_paginated_get`: one request; a response that carries pagination
      is an internal error, otherwise the result (or the part under `key`). */
  function NonPaginatedGet(response: Json, key: Option<string>, safeGet: (Json, string) -> Json): (r: Result<Json, ApiError>)
    ensures r == Failure(InternalError) <==> Normalize(response).Success? && Truthy(Normalize(response).value.0)
    ensures r.Failure? && r.error != InternalError ==> Normalize(response) == Failure(r.error)
    ensures r.Success? ==> Normalize(response).Success? && r.value == Select(Normalize(response).value.1, key, safeGet)
  {
    var (pagination, result) :- Normalize(response);
    if Truthy(pagination) then Failure(InternalError)
    else Success(Select(result, key, safeGet))
  }

  /** An object body without pagination, message or errors passes through
      the single-page path: the caller gets the payload itself. */
  lemma NonPaginatedPlainObject(fields: map<string, Json>, key: Option<string>, safeGet: (Json, string) -> Json)
    requires "message" !in fields && "errors" !in fields && "response" !in fields && "result" !in fields
    requires "meta" !in fields && "per_page" !in fields
    ensures NonPaginatedGet(JObj(fields), key, safeGet) == Success(Select(JObj(fields), key, safeGet))
  {
    NormalizePlain(fields);
  }

  /** An object body without message, errors, wrapper or pagination keys
      normalises to itself, with no pagination. */
  lemma NormalizePlain(fields: map<string, Json>)
    requires "message" !in fields && "errors" !in fields && "response" !in fields && "result" !in fields
    requires "meta" !in fields && "per_page" !in fields
    ensures Normalize(JObj(fields)) == Success((NoPagination, JObj(fields)))
  {
  }

  // ---------------------------------------------------------------------
  // list endpoints

  /** `client_pages(client)`: the clients listing. The search filters the
      source builds from `client` are never handed to `paginated_get`, so
      the argument has no effect on the requests. */
  function ClientPages(get: Request -> Json, safeGet: (Json, string) -> Json, client: Option<string>, fuel: nat): (r: Paging)
    ensures fuel > 0 <==> r.pages != []
    ensures r.pages != [] ==> r.pages[0] == 1
    ensures |r.yielded| == |r.pages| || (r.stop.Raised? && |r.yielded| == |r.pages| - 1)
  {
    PaginatedGet(get, Some("clients"), safeGet, PageSize, map[], fuel)
  }

  /** `task_pages(task_id)`: the tasks listing; the argument is likewise unused. */
  function TaskPages(get: Request -> Json, safeGet: (Json, string) -> Json, taskId: Option<int>, fuel: nat): Paging
  {
    PaginatedGet(get, Some("tasks"), safeGet, PageSize, map[], fuel)
  }

  /** `time_entry_pages(client_id)`: the time-entry listing; the argument is likewise unused. */
  function TimeEntryPages(get: Request -> Json, safeGet: (Json, string) -> Json, clientId: Option<int>, fuel: nat): Paging
  {
    PaginatedGet(get, Some("time_entries"), safeGet, PageSize, map[], fuel)
  }

  /** `project_pages()`: the projects listing. */
  function ProjectPages(get: Request -> Json, safeGet: (Json, string) -> Json, fuel: nat): Paging
  {
    PaginatedGet(get, Some("projects"), safeGet, PageSize, map[], fuel)
  }

  /** Asking for one client's entries, one task, or one client lists the
      same as asking for none: every request goes out unfiltered, with only
      the page size and page number. */
  lemma {:induction false} ListSearchIgnored(get: Request -> Json, safeGet: (Json, string) -> Json, fuel: nat,
                                            client: string, taskId: int, clientId: int)
    ensures ClientPages(get, safeGet, Some(client), fuel) == ClientPages(get, safeGet, None, fuel)
    ensures TaskPages(get, safeGet, Some(taskId), fuel) == TaskPages(get, safeGet, None, fuel)
    ensures TimeEntryPages(get, safeGet, Some(clientId), fuel) == TimeEntryPages(get, safeGet, None, fuel)
    ensures forall i :: 0 <= i < |ClientPages(get, safeGet, Some(client), fuel).pages| ==>
      PageRequest(PageSize, map[], ClientPages(get, safeGet, Some(client), fuel).pages[i]).filters == map[]
  {
    var none: map<string, Json> := map[];
    assert none - {"per_page", "page"} == none;
  }

  // ---------------------------------------------------------------------
  // businesses

  /** The business record of a membership. */
  datatype BusinessInfo = BusinessInfo(id: int, accountId: int, name: string)

  /** The first business whose name equals `name` ignoring ASCII case. */
  function FindByName(bs: seq<BusinessInfo>, name: string): (r: Option<nat>)
    ensures r.Some? ==> r.value < |bs| && Lower(bs[r.value].name) == Lower(name)
    ensures r.Some? ==> forall j :: 0 <= j < r.value ==> Lower(bs[j].name) != Lower(name)
    ensures r.None? ==> forall j :: 0 <= j < |bs| ==> Lower(bs[j].name) != Lower(name)
  {
    if bs == [] then None
    else if Lower(bs[0].name) == Lower(name) then Some(0)
    else match FindByName(bs[1..], name)
      case None => None
      case Some(i) => Some(i + 1)
  }

  /** The first business with id `id`. */
  function FindById(bs: seq<BusinessInfo>, id: int): (r: Option<nat>)
    ensures r.Some? ==> r.value < |bs| && bs[r.value].id == id
    ensures r.Some? ==> forall j :: 0 <= j < r.value ==> bs[j].id != id
    ensures r.None? ==> forall j :: 0 <= j < |bs| ==> bs[j].id != id
  {
    if bs == [] then None
    else if bs[0].id == id then Some(0)
    else match FindById(bs[1..], id)
      case None => None
      case Some(i) => Some(i + 1)
  }

  /** `business(business_name, business_id)`: exactly one of the two must be
      given (an empty name or a zero id counts as not given), checked before
      the memberships are fetched; the first matching membership is the
      answer. */
  function Business(memberships: Result<seq<BusinessInfo>, ApiError>, name: Option<string>, id: Option<int>): (r: Result<BusinessInfo, ApiError>)
    ensures NameGiven(name) == IdGiven(id) ==> r == Failure(ParameterError)
    ensures NameGiven(name) != IdGiven(id) && memberships.Failure? ==> r == Failure(memberships.error)
    ensures NameGiven(name) != IdGiven(id) && memberships.Success? ==>
      (r.Failure? ==> r.error == BusinessNotFound)
      && (r.Failure? <==> forall b :: b in memberships.value ==> !Matches(b, name, id))
    ensures r.Success? ==> memberships.Success? && FirstMatch(memberships.value, name, id, r.value)
  {
    if NameGiven(name) == IdGiven(id) then Failure(ParameterError)
    else
      var bs :- memberships;
      var found := if NameGiven(name) then FindByName(bs, name.value) else FindById(bs, id.value);
      match found
      case None => Failure(BusinessNotFound)
      case Some(i) =>
        assert Matches(bs[i], name, id) && forall j :: 0 <= j < i ==> !Matches(bs[j], name, id);
        Success(bs[i])
  }

  /** `b` is the earliest membership that answers the lookup. */
  predicate FirstMatch(bs: seq<BusinessInfo>, name: Option<string>, id: Option<int>, b: BusinessInfo) {
    exists i :: 0 <= i < |bs| && b == bs[i] && Matches(b, name, id)
      && forall j :: 0 <= j < i ==> !Matches(bs[j], name, id)
  }

  predicate NameGiven(name: Option<string>) {
    name.Some? && name.value != ""
  }

  predicate IdGiven(id: Option<int>) {
    id.Some? && id.value != 0
  }

  /** A membership answers the lookup: by name ignoring case when a name is
      given, by id otherwise. */
  predicate Matches(b: BusinessInfo, name: Option<string>, id: Option<int>) {
    if NameGiven(name) then Lower(b.name) == Lower(name.value)
    else id.Some? && b.id == id.value
  }

  /** The name lookup ignores case: asking for the lower-cased name finds
      the same business. */
  lemma BusinessNameCaseInsensitive(memberships: Result<seq<BusinessInfo>, ApiError>, name: string)
    ensures Business(memberships, Some(Lower(name)), None) == Business(memberships, Some(name), None)
  {
    LowerIdempotent(name);
    if memberships.Success? {
      FindByNameLowered(memberships.value, name);
    }
  }

  lemma {:induction false} FindByNameLowered(bs: seq<BusinessInfo>, name: string)
    ensures FindByName(bs, Lower(name)) == FindByName(bs, name)
  {
    LowerIdempotent(name);
    if bs != [] {
      FindByNameLowered(bs[1..], name);
    }
  }
}

=== FILE: cache.dfy ===
/** The cache commands: rebuilding the schema, listing the tables that
    exist, reporting row counts, and pulling models from the API in
    dependency order. The store is a `TableStore.Store`; log output is
    modelled as the sequence of lines a command reports. */
module Cache {
  import opened Wrappers
  import opened Seqs
  import opened TableStore
  import opened Models
  import Util

  /** `model_dependency_order(ALL_MODELS)`: the order `initialize` uses. */
  function SchemaOrder(): (r: seq<Model>)
    ensures Distinct(r)
    ensures forall m: Model :: m in r
  {
    Registered();
    var r := Util.DependencyOrder(Graph, AllModels);
    assert forall m: Model :: m in r by {
      forall m: Model ensures m in r {
        assert AllModels[Position(m)] == m;
      }
    }
    r
  }

  /** `initialize`: drops the tables of every model that exist, in
      dependency order, then creates them all in the same order. Whatever
      the store held, the result is the whole schema with every table empty,
      so running it twice is running it once. */
  function Initialize(s: Cache): (r: Cache)
    ensures r == EmptySchema()
  {
    var order := SchemaOrder();
    RebuildEmpties(order, s);
    Util.CreateTables(order, Util.DropTables(order, s))
  }

  /** Every table of the schema, empty. */
  function EmptySchema(): Cache {
    Store(map m | m in AllModels :: map[])
  }

  /** Dropping and then creating every model's table leaves exactly the
      schema's tables, all empty. */
  lemma RebuildEmpties(order: seq<Model>, s: Cache)
    requires forall m: Model :: m in order
    ensures Util.CreateTables(order, Util.DropTables(order, s)) == EmptySchema()
  {
    var dropped := Util.DropTables(order, s);
    assert dropped.tables.Keys == {};
    assert dropped.tables == map[];
    var r := Util.CreateTables(order, dropped);
    var e := EmptySchema();
    forall m: Model ensures m in e.tables && m in r.tables && r.tables[m] == e.tables[m] {
      assert AllModels[Position(m)] == m;
    }
    assert r.tables == e.tables;
  }

  /** `initialize` is idempotent. */
  lemma InitializeIdempotent(s: Cache)
    ensures Initialize(Initialize(s)) == Initialize(s)
  {
  }

  /** `list`: the models whose table exists, in `ALL_MODELS` order. */
  function List(s: Cache): (r: seq<Model>)
    ensures forall m :: m in r <==> m in s.tables
    ensures forall i, j :: 0 <= i < j < |r| ==> Position(r[i]) < Position(r[j])
  {
    ListFromOrdered(AllModels, 0, s);
    ListFrom(AllModels, 0, s)
  }

  /** The existing tables among the models from position `from` of `ms`,
      the models in declaration order. */
  function ListFrom(ms: seq<Model>, from: nat, s: Cache): (r: seq<Model>)
    requires from <= |ms| && ms == AllModels
    ensures forall m :: m in r <==> m in s.tables && from <= Position(m)
    ensures forall i :: 0 <= i < |r| ==> from <= Position(r[i])
    decreases |ms| - from
  {
    if from == |ms| then []
    else
      assert Position(ms[from]) == from;
      if ms[from] in s.tables then [ms[from]] + ListFrom(ms, from + 1, s) else ListFrom(ms, from + 1, s)
  }

  predicate InDeclarationOrder(r: seq<Model>) {
    forall i, j :: 0 <= i < j < |r| ==> Position(r[i]) < Position(r[j])
  }

  lemma {:induction false} ListFromOrdered(ms: seq<Model>, from: nat, s: Cache)
    requires from <= |ms| && ms == AllModels
    ensures InDeclarationOrder(ListFrom(ms, from, s))
    decreases |ms| - from
  {
    if from < |ms| {
      ListFromOrdered(ms, from + 1, s);
      ListFromOrderedStep(ms, from, s);
    }
  }

  lemma ListFromOrderedStep(ms: seq<Model>, from: nat, s: Cache)
    requires from < |ms| && ms == AllModels
    requires InDeclarationOrder(ListFrom(ms, from + 1, s))
    ensures InDeclarationOrder(ListFrom(ms, from, s))
  {
    var rest := ListFrom(ms, from + 1, s);
    assert Position(ms[from]) == from;
    if ms[from] in s.tables {
      ConsOrdered(ms[from], rest);
    }
  }

  lemma ConsOrdered(m: Model, rest: seq<Model>)
    requires forall k :: 0 <= k < |rest| ==> Position(m) < Position(rest[k])
    requires InDeclarationOrder(rest)
    ensures InDeclarationOrder([m] + rest)
  {
    var r := [m] + rest;
    forall i, j | 0 <= i < j < |r| ensures Position(r[i]) < Position(r[j]) {
      assert r[j] == rest[j - 1];
      if i > 0 {
        assert r[i] == rest[i - 1];
      }
    }
  }

  /** One line of `status`: a row count, or 'empty' for a missing table. */
  datatype StatusLine = Records(model: Model, count: nat) | Empty(model: Model)

  /** `status` as the source writes it: the existence test reads the
      attribute `table_exists` without calling it, and a method object is
      always true, so every model is counted; counting a missing table
      raises, which ends the command after the lines already reported. */
  function StatusAsWritten(s: Cache): (r: (seq<StatusLine>, Option<StoreError>))
    ensures |r.0| <= |AllModels|
    ensures forall i :: 0 <= i < |r.0| ==> r.0[i].Records? && r.0[i].model == AllModels[i]
  {
    StatusFrom(AllModels, s)
  }

  function StatusFrom(ms: seq<Model>, s: Cache): (r: (seq<StatusLine>, Option<StoreError>))
    ensures |r.0| <= |ms|
    ensures forall i :: 0 <= i < |r.0| ==> r.0[i].Records? && r.0[i].model == ms[i]
  {
    if ms == [] then ([], None)
    else
      match Count(s, ms[0])
      case Failure(e) => ([], Some(e))
      case Success(n) =>
        var rest := StatusFrom(ms[1..], s);
        ([Records(ms[0], n)] + rest.0, rest.1)
  }

  /** As written, 'empty' is never reported, and a missing table ends the
      command with an error before its line: on a store without a time-entry
      table, `status` reports nothing and fails. */
  lemma {:induction false} StatusAsWrittenFailsOnMissingTable(s: Cache)
    requires TimeEntry !in s.tables
    ensures StatusAsWritten(s) == ([], Some(NoSuchTable))
    ensures Status(s)[0] == Empty(TimeEntry)
  {
  }

  /** `status` as evidently intended: one line per model in `ALL_MODELS`
      order, the row count of each existing table and 'empty' for each
      missing one; nothing is raised. */
  function Status(s: Cache): (r: seq<StatusLine>)
    ensures |r| == |AllModels|
    ensures forall i :: 0 <= i < |r| ==> r[i].model == AllModels[i]
    ensures forall i :: 0 <= i < |r| ==> (r[i].Empty? <==> AllModels[i] !in s.tables)
    ensures forall i :: 0 <= i < |r| && r[i].Records? ==> r[i].count == |s.tables[AllModels[i]]|
  {
    seq(|AllModels|, i requires 0 <= i < |AllModels| =>
      if AllModels[i] in s.tables then Records(AllModels[i], |s.tables[AllModels[i]]|) else Empty(AllModels[i]))
  }

  /** On a store where every table exists, the source's `status` and the
      intended one agree. */
  lemma {:induction false} StatusAgreesWhenComplete(s: Cache)
    requires forall m: Model :: m in s.tables
    ensures StatusAsWritten(s) == (Status(s), None)
  {
    StatusFromComplete(AllModels, s);
    var r := Status(s);
    var w := StatusFrom(AllModels, s).0;
    assert |w| == |r|;
    forall i | 0 <= i < |r| ensures w[i] == r[i] {
      assert AllModels[i] in s.tables;
    }
    assert w == r;
  }

  lemma {:induction false} StatusFromComplete(ms: seq<Model>, s: Cache)
    requires forall m: Model :: m in s.tables
    ensures StatusFrom(ms, s).1 == None
    ensures StatusFrom(ms, s).0 == seq(|ms|, i requires 0 <= i < |ms| => Records(ms[i], |s.tables[ms[i]]|))
  {
    if ms != [] {
      StatusFromComplete(ms[1..], s);
    }
  }

  // ---------------------------------------------------------------------
  // pull

  /** The outcome of `pull`: the store, the models whose pull completed (in
      order), and the exception that ended the run, if any. */
  datatype PullRun = PullRun(store: Cache, done: seq<Model>, error: Option<PullError>)

  /** One model's step of `pull`: its pull, then the row count the command
      reports (which raises on a missing table). */
  function PullStep(m: Model, remote: Remote, s: Cache): (r: Result<Cache, PullError>)
    ensures r.Success? ==> r.value.tables.Keys == s.tables.Keys && m in s.tables
    ensures r.Success? ==> forall u :: u in s.tables && u != m ==> r.value.tables[u] == s.tables[u]
    ensures Pull(m, remote, s).Failure? ==> r == Pull(m, remote, s)
    ensures Pull(m, remote, s).Success? ==> (r.Success? <==> m in s.tables)
    ensures r.Success? ==> r == Pull(m, remote, s)
  {
    var s' :- Pull(m, remote, s);
    match Count(s', m)
    case Failure(e) => Failure(FromStore(e))
    case Success(_) => Success(s')
  }

  /** Runs the steps in order; the first exception stops the run, and the
      models pulled before it keep their upserts. */
  function PullEach(order: seq<Model>, remote: Remote, s: Cache): (r: PullRun)
    ensures r.done <= order
    ensures r.error.None? <==> r.done == order
    ensures r.store.tables.Keys == s.tables.Keys
    ensures r.error.Some? ==> |r.done| < |order|
  {
    if order == [] then PullRun(s, [], None)
    else
      match PullStep(order[0], remote, s)
      case Failure(e) => PullRun(s, [], Some(e))
      case Success(s') =>
        var rest := PullEach(order[1..], remote, s');
        PullRun(rest.store, [order[0]] + rest.done, rest.error)
  }

  /** The tables of the models a run did not complete keep their rows. */
  lemma {:induction false} PullEachLeavesOthers(order: seq<Model>, remote: Remote, s: Cache)
    ensures var r := PullEach(order, remote, s);
      forall u :: u in s.tables && u !in r.done ==> r.store.tables[u] == s.tables[u]
  {
    if order != [] && PullStep(order[0], remote, s).Success? {
      var s' := PullStep(order[0], remote, s).value;
      PullEachLeavesOthers(order[1..], remote, s');
      var r := PullEach(order, remote, s);
      forall u | u in s.tables && u !in r.done ensures r.store.tables[u] == s.tables[u] {
        assert u != order[0];
        assert u !in PullEach(order[1..], remote, s').done;
      }
    }
  }

  /** A run that stopped is the complete run of the models before the
      failing one, followed by that model's failing step: the upserts of
      the models pulled before the failure stay in the store. */
  lemma {:induction false} PullEachStops(order: seq<Model>, remote: Remote, s: Cache)
    ensures var r := PullEach(order, remote, s);
      && PullEach(r.done, remote, s) == PullRun(r.store, r.done, None)
      && (r.error.Some? ==> PullStep(order[|r.done|], remote, r.store) == Failure(r.error.value))
  {
    if order != [] && PullStep(order[0], remote, s).Success? {
      var s' := PullStep(order[0], remote, s).value;
      var rest := PullEach(order[1..], remote, s');
      PullEachStops(order[1..], remote, s');
      assert ([order[0]] + rest.done)[0] == order[0];
      assert ([order[0]] + rest.done)[1..] == rest.done;
      if rest.error.Some? {
        assert order[1..][|rest.done|] == order[1 + |rest.done|];
      }
    }
  }

  /** `pull(models)`: the requested models and everything they refer to,
      each pulled once, referenced models first. */
  function PullModels(ms: seq<Model>, remote: Remote, s: Cache): (r: PullRun)
    ensures Distinct(r.done)
    ensures r.store.tables.Keys == s.tables.Keys
    ensures r.error.None? ==> forall i :: 0 <= i < |ms| ==> ms[i] in r.done
  {
    SchemaAcyclic();
    var order := Util.DependencyOrder(Graph, ms);
    var r := PullEach(order, remote, s);
    assert Distinct(r.done) by {
      forall i, j | 0 <= i < j < |r.done| ensures r.done[i] != r.done[j] {
        assert r.done[i] == order[i] && r.done[j] == order[j];
      }
    }
    r
  }

  /** Every model `pull` completes has the targets of its foreign keys
      completed before it, and nothing outside the requested models and
      their transitive targets is pulled. */
  lemma PullRespectsDependencies(ms: seq<Model>, remote: Remote, s: Cache, closure: set<Model>)
    requires forall i :: 0 <= i < |ms| ==> ms[i] in closure
    requires Util.DepClosed(Graph, closure)
    ensures var done := PullModels(ms, remote, s).done;
      && (forall i, j :: 0 <= i < |done| && 0 <= j < |ForeignKeys(done[i])| ==> ForeignKeys(done[i])[j] in done[..i])
      && (forall i :: 0 <= i < |done| ==> done[i] in closure)
  {
    Registered();
    var order := Util.DependencyOrder(Graph, ms);
    SchemaAcyclic();
    Util.DependencyOrderRespectsForeignKeys(Graph, Depth, ms);
    Util.DependencyOrderIsClosure(Graph, ms, closure);
    Registered();
    PrefixRespects(order, PullModels(ms, remote, s).done, closure);
  }

  lemma PrefixRespects(order: seq<Model>, done: seq<Model>, closure: set<Model>)
    requires forall m: Model :: m in Graph
    requires done <= order
    requires forall i, j :: 0 <= i < |order| && 0 <= j < |Graph[order[i]]| ==> Graph[order[i]][j] in order[..i]
    requires forall i :: 0 <= i < |order| ==> order[i] in closure
    ensures forall i, j :: 0 <= i < |done| && 0 <= j < |ForeignKeys(done[i])| ==> ForeignKeys(done[i])[j] in done[..i]
    ensures forall i :: 0 <= i < |done| ==> done[i] in closure
  {
    forall i, j | 0 <= i < |done| && 0 <= j < |ForeignKeys(done[i])|
      ensures ForeignKeys(done[i])[j] in done[..i]
    {
      assert done[i] == order[i] && Graph[order[i]] == ForeignKeys(done[i]);
      assert done[..i] == order[..i];
    }
    forall i | 0 <= i < |done| ensures done[i] in closure {
      assert done[i] == order[i];
    }
  }

  /** Pulling keeps every table holding only rows of its own model. */
  lemma {:induction false} PullEachWellTyped(order: seq<Model>, remote: Remote, s: Cache)
    requires WellTyped(s)
    ensures WellTyped(PullEach(order, remote, s).store)
  {
    if order != [] && PullStep(order[0], remote, s).Success? {
      PullWellTyped(order[0], remote, s);
      PullEachWellTyped(order[1..], remote, PullStep(order[0], remote, s).value);
    }
  }

  /** `pull([TimeEntry])` pulls, in this order, accounts, clients,
      businesses, projects, tasks and then time entries. */
  lemma PullTimeEntriesOrder()
    ensures Util.DependencyOrder(Graph, [TimeEntry]) == [Account, Client, Business, Project, Task, TimeEntry]
  {
    Registered();
    WalkTimeEntry(Graph);
  }

  /** The facts of the registry the walk from TimeEntry reads. */
  ghost predicate Schema(g: map<Model, seq<Model>>) {
    && Util.Closed(g)
    && (forall m: Model :: m in g)
    && g[Account] == [] && g[Task] == []
    && g[Business] == [Account] && g[Client] == [Account]
    && g[Project] == [Business, Client] && g[TimeEntry] == [Client, Project, Task]
  }

  lemma WalkTimeEntry(g: map<Model, seq<Model>>)
    requires Schema(g)
    ensures Util.TopoSort(g, [TimeEntry], {}).order == [Account, Client, Business, Project, Task, TimeEntry]
  {
    var v0: set<Model> := {};
    var v := v0 + {TimeEntry};
    WalkClient(g, v);
    Util.TopoSortSingle(g, TimeEntry, v0, Util.Visit([Account, Client, Business, Project, Task],
      v + {Client} + {Account} + {Project} + {Business} + {Task}));
    OrderSplices();
  }

  /** The walk below Client, from any visited set that holds none of the five
      models it reaches. */
  lemma WalkClient(g: map<Model, seq<Model>>, v: set<Model>)
    requires Schema(g)
    requires Client !in v && Account !in v && Project !in v && Business !in v && Task !in v
    ensures Util.TopoSort(g, [Client, Project, Task], v)
         == Util.Visit([Account, Client, Business, Project, Task], v + {Client} + {Account} + {Project} + {Business} + {Task})
  {
    var ms := [Client, Project, Task];
    assert ms[0] == Client && ms[1..] == [Project, Task];
    Util.TopoSortLeaf(g, Account, v + {Client});
    WalkProject(g, v + {Client} + {Account});
    Util.TopoSortVisit(g, ms, v, Util.Visit([Account], v + {Client} + {Account}),
      Util.Visit([Business, Project, Task], v + {Client} + {Account} + {Project} + {Business} + {Task}));
    OrderSplices();
  }

  /** The walk below Project once accounts and clients are visited. */
  lemma WalkProject(g: map<Model, seq<Model>>, v: set<Model>)
    requires Schema(g)
    requires Account in v && Client in v && Project !in v && Business !in v && Task !in v
    ensures Util.TopoSort(g, [Project, Task], v)
         == Util.Visit([Business, Project, Task], v + {Project} + {Business} + {Task})
  {
    var ms := [Project, Task];
    assert ms[0] == Project && ms[1..] == [Task];
    WalkBusiness(g, v + {Project});
    Util.TopoSortLeaf(g, Task, v + {Project} + {Business});
    Util.TopoSortVisit(g, ms, v, Util.Visit([Business], v + {Project} + {Business}),
      Util.Visit([Task], v + {Project} + {Business} + {Task}));
    OrderSplices();
  }

  /** Business is emitted after its account, and the client that follows it
      in the project's keys is already visited. */
  lemma WalkBusiness(g: map<Model, seq<Model>>, v: set<Model>)
    requires Schema(g)
    requires Account in v && Client in v && Business !in v
    ensures Util.TopoSort(g, [Business, Client], v) == Util.Visit([Business], v + {Business})
  {
    var ve := v + {Business};
    Util.TopoSortNil(g, ve);
    Util.TopoSortSkip(g, [Account], ve, Util.Visit([], ve));
    Util.TopoSortSkip(g, [Client], ve, Util.Visit([], ve));
    Util.TopoSortVisit(g, [Business, Client], v, Util.Visit([], ve), Util.Visit([], ve));
  }

  /** The concatenations the walk lemmas above put together. */
  lemma OrderSplices()
    ensures [Account] + [Client] + [Business, Project, Task] == [Account, Client, Business, Project, Task]
    ensures [Account, Client, Business, Project, Task] + [TimeEntry] == [Account, Client, Business, Project, Task, TimeEntry]
    ensures [Business] + [Project] + [Task] == [Business, Project, Task]
  {
  }
}

=== FILE: date.dfy ===
/** Day, week, month and year boundaries of naive datetimes.

    A naive datetime is a day number (days since 1970-01-01 in the proleptic
    Gregorian calendar, negative before it) and the microseconds elapsed since
    midnight. Python's `datetime.time.min` is microsecond 0 and
    `datetime.time.max` (23:59:59.999999) is the last microsecond of the day. */
module Date {
  import opened Wrappers

  const MicrosPerDay: int := 86_400_000_000
  const LastMicro: int := MicrosPerDay - 1

  datatype Naive = Naive(day: int, micros: int)

  /** A datetime always has a time of day inside its day. */
  type DateTime = t: Naive | 0 <= t.micros < MicrosPerDay witness Naive(0, 0)

  /** The values `parse_datetime` accepts without a string parser: a bare
      date (a day number) or a datetime. */
  datatype Moment = OfDate(date: int) | OfDateTime(dt: DateTime)

  /** The calendar day a moment falls on. */
  function DayOf(m: Moment): int {
    match m
    case OfDate(d) => d
    case OfDateTime(t) => t.day
  }

  /** `a` is no later than `b`: by day, then by time of day. */
  predicate Le(a: DateTime, b: DateTime) {
    a.day < b.day || (a.day == b.day && a.micros <= b.micros)
  }

  /** Microseconds since the epoch: the timeline the order above compares on. */
  function Micros(t: DateTime): int {
    t.day * MicrosPerDay + t.micros
  }

  lemma LeIsTimeline(a: DateTime, b: DateTime)
    ensures Le(a, b) <==> Micros(a) <= Micros(b)
  {
    if a.day < b.day {
      assert Micros(a) < (a.day + 1) * MicrosPerDay <= b.day * MicrosPerDay <= Micros(b);
    } else if a.day > b.day {
      assert Micros(b) < (b.day + 1) * MicrosPerDay <= a.day * MicrosPerDay <= Micros(a);
    }
  }

  /** A bare date becomes midnight of that date; a datetime is returned as is. */
  function ParseDateTime(m: Moment): (r: DateTime)
    ensures r.day == DayOf(m)
    ensures m.OfDate? ==> r.micros == 0
    ensures m.OfDateTime? ==> r == m.dt
  {
    match m
    case OfDate(d) => Naive(d, 0)
    case OfDateTime(t) => t
  }

  /** `datetime + timedelta(days=n)`: the same time of day, `n` days later. */
  function AddDays(t: DateTime, n: int): (r: DateTime)
    ensures Micros(r) == Micros(t) + n * MicrosPerDay
    ensures r.micros == t.micros
  {
    Naive(t.day + n, t.micros)
  }

  /** Midnight of the moment's day: the earliest instant of that day. */
  function BeginningOfDay(m: Moment): (r: DateTime)
    ensures r.day == DayOf(m) && r.micros == 0
    ensures Le(r, ParseDateTime(m))
    ensures forall t: DateTime :: t.day == r.day ==> Le(r, t)
  {
    Naive(ParseDateTime(m).day, 0)
  }

  /** 23:59:59.999999 of the moment's day: the latest instant of that day. */
  function EndingOfDay(m: Moment): (r: DateTime)
    ensures r.day == DayOf(m) && r.micros == LastMicro
    ensures Le(ParseDateTime(m), r)
    ensures forall t: DateTime :: t.day == r.day ==> Le(t, r)
  {
    Naive(ParseDateTime(m).day, LastMicro)
  }

  /** The day's first and last instants, or a pair of nothing for nothing. */
  function DayStartingAndEnding(m: Option<Moment>): (r: (Option<DateTime>, Option<DateTime>))
    ensures m.None? <==> r.0.None?
    ensures m.None? <==> r.1.None?
    ensures m.Some? ==>
      && r.0.value.day == DayOf(m.value) && r.0.value.micros == 0
      && r.1.value.day == DayOf(m.value) && r.1.value.micros == LastMicro
      && Le(r.0.value, ParseDateTime(m.value)) && Le(ParseDateTime(m.value), r.1.value)
  {
    match m
    case None => (None, None)
    case Some(d) =>
      var t := ParseDateTime(d);
      (Some(BeginningOfDay(OfDateTime(t))), Some(EndingOfDay(OfDateTime(t))))
  }

  /** `date.weekday()`: Monday is 0 and Sunday is 6; 1970-01-01 was a Thursday. */
  function Weekday(day: int): (w: int)
    ensures 0 <= w < 7
  {
    (day + 3) % 7
  }

  lemma EpochIsThursday()
    ensures Weekday(0) == 3
  {
  }

  /** Consecutive days have consecutive weekdays, wrapping after Sunday. */
  lemma WeekdayNext(day: int)
    ensures Weekday(day + 1) == if Weekday(day) == 6 then 0 else Weekday(day) + 1
  {
  }

  /** Monday midnight of the moment's week, and Sunday 23:59:59.999999 six days later. */
  function WeekStartingAndEnding(m: Option<Moment>): (r: (Option<DateTime>, Option<DateTime>))
    ensures m.None? <==> r.0.None?
    ensures m.None? <==> r.1.None?
    ensures m.Some? ==>
      var start, end := r.0.value, r.1.value;
      && Weekday(start.day) == 0 && start.micros == 0
      && DayOf(m.value) - 6 <= start.day <= DayOf(m.value)
      && end.day == start.day + 6 && end.micros == LastMicro
      && Weekday(end.day) == 6
      && Le(start, ParseDateTime(m.value)) && Le(ParseDateTime(m.value), end)
  {
    match m
    case None => (None, None)
    case Some(d) =>
      var t := ParseDateTime(d);
      var start := BeginningOfDay(OfDateTime(AddDays(t, -Weekday(t.day))));
      var end := EndingOfDay(OfDateTime(AddDays(start, 6)));
      (Some(start), Some(end))
  }

  /** The week's start alone. */
  function WeekStarting(m: Option<Moment>): (r: Option<DateTime>)
    ensures r.None? <==> m.None?
    ensures r.Some? ==> Weekday(r.value.day) == 0 && r.value.micros == 0
    ensures r.Some? ==> DayOf(m.value) - 6 <= r.value.day <= DayOf(m.value)
  {
    WeekStartingAndEnding(m).0
  }

  /** The week's end alone. */
  function WeekEnding(m: Option<Moment>): (r: Option<DateTime>)
    ensures r.None? <==> m.None?
    ensures r.Some? ==> Weekday(r.value.day) == 6 && r.value.micros == LastMicro
    ensures r.Some? ==> DayOf(m.value) <= r.value.day <= DayOf(m.value) + 6
  {
    WeekStartingAndEnding(m).1
  }

  /** Monday midnight at or before the moment, less than a week before it,
      is exactly the computed week start: the week bounds are determined by
      the calendar and not by how they are computed. */
  lemma WeekStartUnique(m: Moment, s: DateTime)
    requires Weekday(s.day) == 0 && s.micros == 0
    requires s.day <= DayOf(m) < s.day + 7
    ensures WeekStarting(Some(m)) == Some(s)
  {
    var w := WeekStarting(Some(m)).value;
    assert w.day == s.day by {
      if w.day < s.day {
        WeekdayGap(w.day, s.day);
      } else if s.day < w.day {
        WeekdayGap(s.day, w.day);
      }
    }
  }

  /** Two Mondays are a multiple of seven days apart. */
  lemma WeekdayGap(a: int, b: int)
    requires a < b < a + 7
    ensures Weekday(a) != Weekday(b)
  {
  }

  /** Every moment of a week has that week's bounds: recomputing from the
      start or from the end gives the same pair. */
  lemma WeekBoundsStable(m: Moment, t: DateTime)
    requires WeekStarting(Some(m)).value.day <= t.day <= WeekEnding(Some(m)).value.day
    ensures WeekStartingAndEnding(Some(OfDateTime(t))) == WeekStartingAndEnding(Some(m))
  {
    WeekStartUnique(OfDateTime(t), WeekStarting(Some(m)).value);
  }

  /** A computed bound, handed back as an argument. */
  function Lift(o: Option<DateTime>): (r: Option<Moment>)
    ensures r.None? <==> o.None?
    ensures r.Some? ==> r.value == OfDateTime(o.value)
  {
    match o
    case None => None
    case Some(t) => Some(OfDateTime(t))
  }

  /** Taking the week start of a week start, or the week end of a week end,
      changes nothing. */
  lemma WeekBoundsIdempotent(m: Option<Moment>)
    ensures WeekStarting(Lift(WeekStarting(m))) == WeekStarting(m)
    ensures WeekEnding(Lift(WeekEnding(m))) == WeekEnding(m)
  {
    if m.Some? {
      WeekBoundsStable(m.value, WeekStarting(m).value);
      WeekBoundsStable(m.value, WeekEnding(m).value);
    }
  }

  // ---------------------------------------------------------------------
  // civil calendar, for the month and year bounds

  datatype Civil = Civil(year: int, month: int, dom: int)

  /** Leap years of the Gregorian calendar. */
  predicate Leap(y: int) {
    y % 4 == 0 && (y % 100 != 0 || y % 400 == 0)
  }

  function DaysInMonth(year: int, month: int): (n: int)
    requires 1 <= month <= 12
    ensures 28 <= n <= 31
  {
    if month == 2 then (if Leap(year) then 29 else 28)
    else if month == 4 || month == 6 || month == 9 || month == 11 then 30
    else 31
  }

  /** A date that exists in the calendar. */
  predicate ValidCivil(c: Civil) {
    1 <= c.month <= 12 && 1 <= c.dom <= DaysInMonth(c.year, c.month)
  }

  /** Position of a month in a March-based year: March is 0, February 11.
      Counting years from March puts the leap day at the end of the year. */
  function MarchMonth(month: int): (mp: int)
    requires 1 <= month <= 12
    ensures 0 <= mp < 12
  {
    (month + 9) % 12
  }

  /** Days from March 1 to the first of the month. */
  function MonthOffset(mp: int): int {
    (153 * mp + 2) / 5
  }

  /** Day of a 400-year era (eras start on March 1 of years divisible by
      400) on which the era's March-based year `yoe` starts. */
  function YearStartInEra(yoe: int): int {
    yoe * 365 + yoe / 4 - yoe / 100
  }

  /** Day number of March 1 of civil year `y`. */
  function MarchFirst(y: int): int {
    var era := y / 400;
    era * 146097 + YearStartInEra(y - era * 400) - 719468
  }

  /** Day number of a date. */
  function DaysFromCivil(c: Civil): int
    requires 1 <= c.month <= 12
  {
    MarchFirst(if c.month <= 2 then c.year - 1 else c.year) + MonthOffset(MarchMonth(c.month)) + c.dom - 1
  }

  /** Splits a day of an era into its March-based year of era and the day of
      that year, by 100-year, 4-year and 1-year cycles. */
  function SplitEra(doe: int): (r: (int, int))
    requires 0 <= doe < 146097
    ensures 0 <= r.0 < 400 && 0 <= r.1
    ensures YearStartInEra(r.0) + r.1 == doe
    ensures r.1 < 365 + (if Leap(r.0 + 1) then 1 else 0)
  {
    var c := if doe == 146096 then 3 else doe / 36524;
    var rest := doe - 36524 * c;
    var q := rest / 1461;
    var rem := rest - 1461 * q;
    var y := if rem == 1460 then 3 else rem / 365;
    var k := rem - 365 * y;
    CycleStart(c, q, y);
    CycleLeap(c, q, y, rem == 1460);
    (100 * c + 4 * q + y, k)
  }

  lemma CycleStart(c: int, q: int, y: int)
    requires 0 <= c < 4 && 0 <= q < 25 && 0 <= y < 4
    ensures YearStartInEra(100 * c + 4 * q + y) == 36524 * c + 1461 * q + 365 * y
  {
    var yoe := 100 * c + 4 * q + y;
    assert yoe / 4 == 25 * c + q;
    assert yoe / 100 == c;
  }

  lemma CycleLeap(c: int, q: int, y: int, last: bool)
    requires 0 <= c < 4 && 0 <= q < 25 && 0 <= y < 4
    requires last ==> y == 3 && (q < 24 || c == 3)
    ensures last ==> Leap(100 * c + 4 * q + y + 1)
  {
    if last {
      var n := 100 * c + 4 * q + 4;
      assert n == 4 * (25 * c + q + 1);
      if q == 24 {
        assert n == 400;
      } else {
        assert n % 100 != 0;
      }
    }
  }

  /** The calendar repeats every 400 years. */
  lemma LeapPeriodic(era: int, y: int)
    ensures Leap(era * 400 + y) == Leap(y)
  {
    ShiftMod4(y, era * 100);
    ShiftMod100(y, era * 4);
    ShiftMod400(y, era);
  }

  lemma ShiftMod4(y: int, k: int)
    ensures (y + 4 * k) % 4 == y % 4
  {
  }

  lemma ShiftMod100(y: int, k: int)
    ensures (y + 100 * k) % 100 == y % 100
  {
  }

  lemma ShiftMod400(y: int, k: int)
    ensures (y + 400 * k) % 400 == y % 400
  {
  }

  /** Month and day of month of a day of a March-based year. */
  function MonthOfYear(doy: int, leap: bool): (r: (int, int))
    requires 0 <= doy < 365 + (if leap then 1 else 0)
    ensures 0 <= r.0 < 12
    ensures MonthOffset(r.0) + r.1 - 1 == doy
    ensures 1 <= r.1 <= (if r.0 == 11 then (if leap then 29 else 28)
                         else if r.0 == 1 || r.0 == 3 || r.0 == 6 || r.0 == 8 then 30 else 31)
  {
    var mp := (5 * doy + 2) / 153;
    (mp, doy - MonthOffset(mp) + 1)
  }

  /** The calendar date of a day number: the inverse of `DaysFromCivil`. */
  function CivilFromDays(z: int): (c: Civil)
    ensures ValidCivil(c)
    ensures DaysFromCivil(c) == z
  {
    var era := (z + 719468) / 146097;
    var doe := z + 719468 - era * 146097;
    var (yoe, doy) := SplitEra(doe);
    var (mp, dom) := MonthOfYear(doy, Leap(yoe + 1));
    EraDateCorrect(era, yoe, doy, mp, dom);
    EraDate(era, yoe, mp, dom)
  }

  /** The date on day `dom` of March-based month `mp` of year `yoe` of an era. */
  function EraDate(era: int, yoe: int, mp: int, dom: int): Civil
    requires 0 <= mp < 12
  {
    var month := if mp < 10 then mp + 3 else mp - 9;
    Civil(era * 400 + yoe + (if month <= 2 then 1 else 0), month, dom)
  }

  lemma EraDateCorrect(era: int, yoe: int, doy: int, mp: int, dom: int)
    requires 0 <= yoe < 400 && 0 <= doy < 365 + (if Leap(yoe + 1) then 1 else 0)
    requires (mp, dom) == MonthOfYear(doy, Leap(yoe + 1))
    ensures ValidCivil(EraDate(era, yoe, mp, dom))
    ensures DaysFromCivil(EraDate(era, yoe, mp, dom)) == era * 146097 + YearStartInEra(yoe) + doy - 719468
  {
    var c := EraDate(era, yoe, mp, dom);
    LeapPeriodic(era, yoe + 1);
    assert MarchMonth(c.month) == mp;
    MarchFirstOfEra(era, yoe);
  }

  lemma MarchFirstOfEra(era: int, yoe: int)
    requires 0 <= yoe < 400
    ensures MarchFirst(era * 400 + yoe) == era * 146097 + YearStartInEra(yoe) - 719468
  {
    assert (era * 400 + yoe) / 400 == era;
  }

  /** The March-based year a date belongs to: January and February count
      with the previous year. */
  function MarchYear(c: Civil): int
    requires 1 <= c.month <= 12
  {
    if c.month <= 2 then c.year - 1 else c.year
  }

  /** Day of a date within its March-based year. */
  function DayOfMarchYear(c: Civil): int
    requires 1 <= c.month <= 12
  {
    MonthOffset(MarchMonth(c.month)) + c.dom - 1
  }

  /** A valid date's day of its March-based year lies inside that year, and
      inside its month's slice of the year. */
  lemma DayOfMarchYearBounds(c: Civil)
    requires ValidCivil(c)
    ensures MonthOffset(MarchMonth(c.month)) <= DayOfMarchYear(c)
    ensures MarchMonth(c.month) < 11 ==> DayOfMarchYear(c) < MonthOffset(MarchMonth(c.month) + 1)
    ensures 0 <= DayOfMarchYear(c) < 365 + (if Leap(MarchYear(c) + 1) then 1 else 0)
  {
  }

  /** A March-based year has 366 days exactly when the leap day that ends it exists. */
  lemma YearLength(y: int)
    ensures MarchFirst(y + 1) - MarchFirst(y) == 365 + (if Leap(y + 1) then 1 else 0)
  {
    var era := y / 400;
    var yoe := y - era * 400;
    LeapPeriodic(era, yoe + 1);
    if yoe < 399 {
      assert (y + 1) / 400 == era;
      LeapInEra(yoe + 1);
    } else {
      assert (y + 1) / 400 == era + 1;
      assert y + 1 == (era + 1) * 400;
    }
  }

  lemma LeapInEra(n: int)
    requires 0 < n < 400
    ensures YearStartInEra(n) - YearStartInEra(n - 1) == 365 + (if Leap(n) then 1 else 0)
  {
  }

  /** March 1 of a later year is no earlier than the March 1 after an earlier one. */
  lemma {:induction false} MarchFirstMonotone(a: int, b: int)
    requires a < b
    ensures MarchFirst(a + 1) <= MarchFirst(b)
    decreases b - a
  {
    if a + 1 < b {
      MarchFirstMonotone(a, b - 1);
      YearLength(b - 1);
    }
  }

  /** Distinct valid dates have distinct day numbers. */
  lemma DaysFromCivilInjective(c1: Civil, c2: Civil)
    requires ValidCivil(c1) && ValidCivil(c2)
    requires DaysFromCivil(c1) == DaysFromCivil(c2)
    ensures c1 == c2
  {
    var y1, y2 := MarchYear(c1), MarchYear(c2);
    DayOfMarchYearBounds(c1);
    DayOfMarchYearBounds(c2);
    if y1 < y2 {
      YearLength(y1);
      MarchFirstMonotone(y1, y2);
      assert false;
    } else if y2 < y1 {
      YearLength(y2);
      MarchFirstMonotone(y2, y1);
      assert false;
    }
    SameMonth(c1, c2);
  }

  lemma SameMonth(c1: Civil, c2: Civil)
    requires ValidCivil(c1) && ValidCivil(c2)
    requires MarchYear(c1) == MarchYear(c2) && DayOfMarchYear(c1) == DayOfMarchYear(c2)
    ensures c1 == c2
  {
    DayOfMarchYearBounds(c1);
    DayOfMarchYearBounds(c2);
    var mp1, mp2 := MarchMonth(c1.month), MarchMonth(c2.month);
    if mp1 < mp2 {
      MonthOffsetMonotone(mp1 + 1, mp2);
      assert false;
    } else if mp2 < mp1 {
      MonthOffsetMonotone(mp2 + 1, mp1);
      assert false;
    }
    MarchMonthInjective(c1.month, c2.month);
  }

  lemma MonthOffsetMonotone(a: int, b: int)
    requires a <= b
    ensures MonthOffset(a) <= MonthOffset(b)
  {
  }

  lemma MarchMonthInjective(m1: int, m2: int)
    requires 1 <= m1 <= 12 && 1 <= m2 <= 12
    requires MarchMonth(m1) == MarchMonth(m2)
    ensures m1 == m2
  {
  }

  /** Converting a valid date to a day number and back gives the date. */
  lemma CivilRoundTrip(c: Civil)
    requires ValidCivil(c)
    ensures CivilFromDays(DaysFromCivil(c)) == c
  {
    DaysFromCivilInjective(c, CivilFromDays(DaysFromCivil(c)));
  }

  // ---------------------------------------------------------------------
  // month and year bounds

  /** Midnight of the first day of the moment's month, and 23:59:59.999999
      of its last day. */
  function MonthStartingAndEnding(m: Option<Moment>): (r: (Option<DateTime>, Option<DateTime>))
    ensures m.None? <==> r.0.None?
    ensures m.None? <==> r.1.None?
    ensures m.Some? ==>
      var c := CivilFromDays(DayOf(m.value));
      && r.0.value.micros == 0 && r.1.value.micros == LastMicro
      && CivilFromDays(r.0.value.day) == Civil(c.year, c.month, 1)
      && CivilFromDays(r.1.value.day) == Civil(c.year, c.month, DaysInMonth(c.year, c.month))
      && r.0.value.day <= DayOf(m.value) <= r.1.value.day
  {
    match m
    case None => (None, None)
    case Some(d) =>
      var c := CivilFromDays(DayOf(d));
      var first := Civil(c.year, c.month, 1);
      var last := Civil(c.year, c.month, DaysInMonth(c.year, c.month));
      MonthContains(c);
      (Some(BeginningOfDay(OfDate(DaysFromCivil(first)))), Some(EndingOfDay(OfDate(DaysFromCivil(last)))))
  }

  /** A date lies between the first and the last day of its month, which
      convert back to themselves. */
  lemma MonthContains(c: Civil)
    requires ValidCivil(c)
    ensures DaysFromCivil(Civil(c.year, c.month, 1)) <= DaysFromCivil(c)
    ensures DaysFromCivil(c) <= DaysFromCivil(Civil(c.year, c.month, DaysInMonth(c.year, c.month)))
    ensures CivilFromDays(DaysFromCivil(Civil(c.year, c.month, 1))) == Civil(c.year, c.month, 1)
    ensures CivilFromDays(DaysFromCivil(Civil(c.year, c.month, DaysInMonth(c.year, c.month))))
      == Civil(c.year, c.month, DaysInMonth(c.year, c.month))
  {
    DaysFromCivilDom(c.year, c.month, c.dom);
    DaysFromCivilDom(c.year, c.month, DaysInMonth(c.year, c.month));
    CivilRoundTrip(Civil(c.year, c.month, 1));
    CivilRoundTrip(Civil(c.year, c.month, DaysInMonth(c.year, c.month)));
  }

  /** Within a month, day numbers count the days of the month. */
  lemma DaysFromCivilDom(year: int, month: int, dom: int)
    requires 1 <= month <= 12
    ensures DaysFromCivil(Civil(year, month, dom)) == DaysFromCivil(Civil(year, month, 1)) + dom - 1
  {
  }

  function MonthStarting(m: Option<Moment>): (r: Option<DateTime>)
    ensures r.None? <==> m.None?
    ensures r.Some? ==> r.value.micros == 0 && r.value.day <= DayOf(m.value)
    ensures r.Some? ==> CivilFromDays(r.value.day).dom == 1
  {
    MonthStartingAndEnding(m).0
  }

  function MonthEnding(m: Option<Moment>): (r: Option<DateTime>)
    ensures r.None? <==> m.None?
    ensures r.Some? ==> r.value.micros == LastMicro && DayOf(m.value) <= r.value.day
    ensures r.Some? ==>
      var c := CivilFromDays(r.value.day); c.dom == DaysInMonth(c.year, c.month)
  {
    MonthStartingAndEnding(m).1
  }

  /** Midnight of January 1 of the moment's year, and 23:59:59.999999 of December 31. */
  function YearStartingAndEnding(m: Option<Moment>): (r: (Option<DateTime>, Option<DateTime>))
    ensures m.None? <==> r.0.None?
    ensures m.None? <==> r.1.None?
    ensures m.Some? ==>
      var c := CivilFromDays(DayOf(m.value));
      && r.0.value.micros == 0 && r.1.value.micros == LastMicro
      && CivilFromDays(r.0.value.day) == Civil(c.year, 1, 1)
      && CivilFromDays(r.1.value.day) == Civil(c.year, 12, 31)
      && r.0.value.day <= DayOf(m.value) <= r.1.value.day
  {
    match m
    case None => (None, None)
    case Some(d) =>
      var c := CivilFromDays(DayOf(d));
      var first := Civil(c.year, 1, 1);
      var last := Civil(c.year, 12, 31);
      CivilRoundTrip(first);
      CivilRoundTrip(last);
      YearContains(c);
      (Some(BeginningOfDay(OfDate(DaysFromCivil(first)))), Some(EndingOfDay(OfDate(DaysFromCivil(last)))))
  }

  function YearStarting(m: Option<Moment>): (r: Option<DateTime>)
    ensures r.None? <==> m.None?
    ensures r.Some? ==> r.value.micros == 0 && r.value.day <= DayOf(m.value)
    ensures r.Some? ==> var c := CivilFromDays(r.value.day); c.month == 1 && c.dom == 1
  {
    YearStartingAndEnding(m).0
  }

  function YearEnding(m: Option<Moment>): (r: Option<DateTime>)
    ensures r.None? <==> m.None?
    ensures r.Some? ==> r.value.micros == LastMicro && DayOf(m.value) <= r.value.day
    ensures r.Some? ==> var c := CivilFromDays(r.value.day); c.month == 12 && c.dom == 31
  {
    YearStartingAndEnding(m).1
  }

  /** Every date of a year lies between its January 1 and its December 31. */
  lemma YearContains(c: Civil)
    requires ValidCivil(c)
    ensures DaysFromCivil(Civil(c.year, 1, 1)) <= DaysFromCivil(c) <= DaysFromCivil(Civil(c.year, 12, 31))
  {
    MonthOffsetExamples();
    assert DaysFromCivil(Civil(c.year, 1, 1)) == MarchFirst(c.year - 1) + 306;
    assert DaysFromCivil(Civil(c.year, 12, 31)) == MarchFirst(c.year) + 305;
    YearContainsMarch(c);
  }

  lemma YearContainsMarch(c: Civil)
    requires ValidCivil(c)
    ensures MarchFirst(c.year - 1) + 306 <= DaysFromCivil(c) <= MarchFirst(c.year) + 305
  {
    var a, b := MarchFirst(c.year - 1), MarchFirst(c.year);
    YearLength(c.year - 1);
    var doy := DayOfMarchYear(c);
    DayOfMarchYearBounds(c);
    if c.month >= 3 {
      MonthOffsetExamples();
      assert DaysFromCivil(c) == b + doy;
      assert doy <= 305;
    } else {
      assert DaysFromCivil(c) == a + doy;
      assert 306 <= doy < b - a;
    }
  }

  /** The calendar's dates, as day numbers, on the days the date tests use. */
  lemma CalendarExamples()
    ensures DaysFromCivil(Civil(2018, 1, 1)) == 17532
    ensures DaysFromCivil(Civil(2018, 2, 1)) == 17563
    ensures DaysFromCivil(Civil(2018, 2, 2)) == 17564
    ensures DaysFromCivil(Civil(2018, 2, 15)) == 17577
    ensures DaysFromCivil(Civil(2018, 2, 20)) == 17582
    ensures DaysFromCivil(Civil(2018, 2, 28)) == 17590
    ensures DaysFromCivil(Civil(2018, 12, 31)) == 17896
    ensures DaysFromCivil(Civil(1970, 1, 1)) == 0
  {
    MarchFirstExamples();
    MonthOffsetExamples();
  }

  lemma MarchFirstExamples()
    ensures MarchFirst(1969) == -306
    ensures MarchFirst(2017) == 17226
    ensures MarchFirst(2018) == 17591
  {
    assert 1969 / 400 == 4 && YearStartInEra(369) == 134774;
    assert 2017 / 400 == 5 && YearStartInEra(17) == 6209;
    assert 2018 / 400 == 5 && YearStartInEra(18) == 6574;
  }

  lemma MonthOffsetExamples()
    ensures MarchMonth(1) == 10 && MarchMonth(2) == 11 && MarchMonth(12) == 9
    ensures MonthOffset(9) == 275 && MonthOffset(10) == 306 && MonthOffset(11) == 337
  {
  }

  /** The date tests: the beginning of 2/1/2018 is 2018-02-01 00:00:00; the
      ending of 2/2/2018 is 2018-02-02 23:59:59.999999; the month of
      2/15/2018 runs from 2/1 to 2/28; the year of 2/20/2018 from 1/1 to 12/31. */
  lemma DateTestExamples()
    ensures BeginningOfDay(OfDate(17563)) == Naive(17563, 0)
    ensures EndingOfDay(OfDate(17564)) == Naive(17564, LastMicro)
    ensures MonthStartingAndEnding(Some(OfDate(17577))) == (Some(Naive(17563, 0)), Some(Naive(17590, LastMicro)))
    ensures YearStartingAndEnding(Some(OfDate(17582))) == (Some(Naive(17532, 0)), Some(Naive(17896, LastMicro)))
  {
    DayExamples();
    MonthExample();
    YearExample();
  }

  lemma DayExamples()
    ensures BeginningOfDay(OfDate(17563)) == Naive(17563, 0)
    ensures EndingOfDay(OfDate(17564)) == Naive(17564, LastMicro)
  {
  }

  lemma MonthExample()
    ensures MonthStartingAndEnding(Some(OfDate(17577))) == (Some(Naive(17563, 0)), Some(Naive(17590, LastMicro)))
  {
    CalendarExamples();
    CivilRoundTrip(Civil(2018, 2, 15));
    assert CivilFromDays(17577) == Civil(2018, 2, 15);
    assert DaysInMonth(2018, 2) == 28;
  }

  lemma YearExample()
    ensures YearStartingAndEnding(Some(OfDate(17582))) == (Some(Naive(17532, 0)), Some(Naive(17896, LastMicro)))
  {
    CalendarExamples();
    CivilRoundTrip(Civil(2018, 2, 20));
    assert CivilFromDays(17582) == Civil(2018, 2, 20);
  }

  /** The week of Thursday 2018-02-15 runs from Monday 2/12 to Sunday 2/18. */
  lemma WeekExample()
    ensures WeekStartingAndEnding(Some(OfDate(17577))) == (Some(Naive(17574, 0)), Some(Naive(17580, LastMicro)))
  {
  }
}

=== FILE: entries.dfy ===
/** The time-entry window: an optional client and optional start and end
    bounds, and its alignment to week, month and year boundaries. A window
    is immutable; alignment builds a new one through the same constructor. */
module Entries {
  import opened Wrappers
  import opened Date

  /** A client already in hand: a client row, or a bare client id. */
  datatype ClientRef = Row(id: int) | Id(id: int)

  /** What the constructor accepts as its client argument. */
  datatype ClientArg = NoClient | Named(name: string) | Given(ref: ClientRef)

  datatype LookupError = ClientNotFound

  datatype Window = Window(client: Option<ClientRef>, start: Option<Moment>, end: Option<Moment>)

  /** Python truthiness of the client argument: nothing, the empty string and
      the id 0 are false; a client row is always true. */
  predicate Truthy(c: ClientArg) {
    match c
    case NoClient => false
    case Named(n) => n != ""
    case Given(Row(_)) => true
    case Given(Id(i)) => i != 0
  }

  /** The client a window can hold: never a false one. */
  predicate WellFormed(w: Window) {
    w.client.None? || Truthy(Given(w.client.value))
  }

  /** A stored client, handed back to the constructor. */
  function AsArg(c: Option<ClientRef>): ClientArg {
    match c
    case None => NoClient
    case Some(r) => Given(r)
  }

  /** The constructor. A false client is stored as nothing; a name is
      resolved through `lookup` to the id of a client row, and a failed
      lookup is raised; any other client is
      stored as it is. The bounds are stored as given. */
  function NewWindow(client: ClientArg, start: Option<Moment>, end: Option<Moment>,
                     lookup: string -> Result<int, LookupError>): (r: Result<Window, LookupError>)
    ensures r.Failure? <==> Truthy(client) && client.Named? && lookup(client.name).Failure?
    ensures r.Success? ==> r.value.start == start && r.value.end == end && WellFormed(r.value)
    ensures r.Success? ==> (r.value.client.None? <==> !Truthy(client))
    ensures r.Success? && Truthy(client) && client.Given? ==> r.value.client == Some(client.ref)
    ensures r.Success? && Truthy(client) && client.Named? ==> r.value.client == Some(Row(lookup(client.name).value))
  {
    if !Truthy(client) then Success(Window(None, start, end))
    else match client
      case Named(n) =>
        var id :- lookup(n);
        Success(Window(Some(Row(id)), start, end))
      case Given(ref) => Success(Window(Some(ref), start, end))
  }

  /** Week alignment: a new window with the same client, the week start of
      the old start and the week end of the old end. */
  function AlignedToWeekBoundaries(w: Window, lookup: string -> Result<int, LookupError>): (r: Result<Window, LookupError>)
    ensures r.Success?
    ensures WellFormed(w) ==> r.value.client == w.client
    ensures r.value.start.None? <==> w.start.None?
    ensures r.value.end.None? <==> w.end.None?
    ensures r.value.start == Lift(WeekStarting(w.start))
    ensures r.value.end == Lift(WeekEnding(w.end))
  {
    NewWindow(AsArg(w.client), Lift(WeekStarting(w.start)), Lift(WeekEnding(w.end)), lookup)
  }

  /** Month alignment: the first day of the start's month to the last day of the end's month. */
  function AlignedToMonthBoundaries(w: Window, lookup: string -> Result<int, LookupError>): (r: Result<Window, LookupError>)
    ensures r.Success?
    ensures WellFormed(w) ==> r.value.client == w.client
    ensures r.value.start == Lift(MonthStarting(w.start))
    ensures r.value.end == Lift(MonthEnding(w.end))
  {
    NewWindow(AsArg(w.client), Lift(MonthStarting(w.start)), Lift(MonthEnding(w.end)), lookup)
  }

  /** Year alignment: January 1 of the start's year to December 31 of the end's year. */
  function AlignedToYearBoundaries(w: Window, lookup: string -> Result<int, LookupError>): (r: Result<Window, LookupError>)
    ensures r.Success?
    ensures WellFormed(w) ==> r.value.client == w.client
    ensures r.value.start == Lift(YearStarting(w.start))
    ensures r.value.end == Lift(YearEnding(w.end))
  {
    NewWindow(AsArg(w.client), Lift(YearStarting(w.start)), Lift(YearEnding(w.end)), lookup)
  }

  /** Alignment never resolves a client name: a stored client is never a
      string, so the result does not depend on the lookup. */
  lemma AlignmentNeverLooksUp(w: Window, l1: string -> Result<int, LookupError>, l2: string -> Result<int, LookupError>)
    ensures AlignedToWeekBoundaries(w, l1) == AlignedToWeekBoundaries(w, l2)
    ensures AlignedToMonthBoundaries(w, l1) == AlignedToMonthBoundaries(w, l2)
    ensures AlignedToYearBoundaries(w, l1) == AlignedToYearBoundaries(w, l2)
  {
  }

  /** Aligning an aligned window to weeks again changes nothing. */
  lemma {:induction false} WeekAlignmentIdempotent(w: Window, lookup: string -> Result<int, LookupError>)
    requires WellFormed(w)
    ensures AlignedToWeekBoundaries(AlignedToWeekBoundaries(w, lookup).value, lookup) == AlignedToWeekBoundaries(w, lookup)
  {
    WeekBoundsIdempotent(w.start);
    WeekBoundsIdempotent(w.end);
  }

  /** The aligned window covers the old one: it starts on the Monday at or
      before the old start and ends on the Sunday at or after the old end. */
  lemma WeekAlignmentCovers(w: Window, lookup: string -> Result<int, LookupError>)
    ensures var a := AlignedToWeekBoundaries(w, lookup).value;
      && (w.start.Some? ==>
            Weekday(DayOf(a.start.value)) == 0 && DayOf(w.start.value) - 6 <= DayOf(a.start.value) <= DayOf(w.start.value))
      && (w.end.Some? ==>
            Weekday(DayOf(a.end.value)) == 6 && DayOf(w.end.value) <= DayOf(a.end.value) <= DayOf(w.end.value) + 6)
  {
  }

  /** A missing bound stays missing and a present one stays present under
      month and year alignment too. */
  lemma CalendarAlignmentKeepsAbsence(w: Window, lookup: string -> Result<int, LookupError>)
    ensures AlignedToMonthBoundaries(w, lookup).value.start.None? <==> w.start.None?
    ensures AlignedToMonthBoundaries(w, lookup).value.end.None? <==> w.end.None?
    ensures AlignedToYearBoundaries(w, lookup).value.start.None? <==> w.start.None?
    ensures AlignedToYearBoundaries(w, lookup).value.end.None? <==> w.end.None?
  {
  }
}

=== FILE: log.dfy ===
/** freshtools/log.py: `time_entries`, the time-entry query narrowed by an
    optional client and optional creation bounds. The query is a chain of
    `where` clauses over the cached time-entry table; each clause keeps the
    rows it admits in their table order. */
module Log {
  import opened Wrappers
  import opened Date
  import opened Models
  import Seqs

  /** A row of the time-entry table. */
  type EntryRow = r: Row | r.TimeEntryRow?
    witness TimeEntryRow(0, 0, None, None, Naive(0, 0), 0, Naive(0, 0), 0, 0, false, false)

  /** One `where` clause: the entry's client is the given one, or it was
      created at or after, or at or before, a bound. */
  datatype Clause = ClientIs(id: int) | CreatedFrom(bound: DateTime) | CreatedUntil(bound: DateTime)

  predicate Holds(c: Clause, e: EntryRow) {
    match c
    case ClientIs(id) => e.client == id
    case CreatedFrom(b) => Le(b, e.createdAt)
    case CreatedUntil(b) => Le(e.createdAt, b)
  }

  /** The clauses `time_entries` adds, in the order it adds them: one per
      argument that is given. A bare date bound is compared as its midnight. */
  function Clauses(client: Option<int>, start: Option<Moment>, end: Option<Moment>): (cs: seq<Clause>)
    ensures |cs| <= 3
    ensures client.None? && start.None? && end.None? <==> cs == []
    ensures client.Some? ==> ClientIs(client.value) in cs
    ensures start.Some? ==> CreatedFrom(ParseDateTime(start.value)) in cs
    ensures end.Some? ==> CreatedUntil(ParseDateTime(end.value)) in cs
    ensures |cs| == (if client.Some? then 1 else 0) + (if start.Some? then 1 else 0) + (if end.Some? then 1 else 0)
    ensures (exists c :: c in cs && c.ClientIs?) <==> client.Some?
    ensures (exists c :: c in cs && c.CreatedFrom?) <==> start.Some?
    ensures (exists c :: c in cs && c.CreatedUntil?) <==> end.Some?
  {
    (if client.Some? then [ClientIs(client.value)] else [])
      + (if start.Some? then [CreatedFrom(ParseDateTime(start.value))] else [])
      + (if end.Some? then [CreatedUntil(ParseDateTime(end.value))] else [])
  }

  /** `qs.where(c)`: the rows that satisfy `c`, in their order. */
  function Where(rows: seq<EntryRow>, c: Clause): (r: seq<EntryRow>)
    ensures |r| <= |rows|
    ensures forall e :: e in r <==> e in rows && Holds(c, e)
    decreases |rows|
  {
    if rows == [] then []
    else
      Where(rows[..|rows| - 1], c)
        + (if Holds(c, rows[|rows| - 1]) then [rows[|rows| - 1]] else [])
  }

  /** The clauses applied one after the other, as the query chains them. */
  function WhereAll(rows: seq<EntryRow>, cs: seq<Clause>): seq<EntryRow>
    decreases |cs|
  {
    if cs == [] then rows else Where(WhereAll(rows, cs[..|cs| - 1]), cs[|cs| - 1])
  }

  /** `time_entries(client, start_date, end_date)`. */
  function TimeEntries(rows: seq<EntryRow>, client: Option<int>, start: Option<Moment>, end: Option<Moment>): (r: seq<EntryRow>)
    ensures forall e :: e in r <==> e in rows && InWindow(client, start, end, e)
    ensures client.None? && start.None? && end.None? ==> r == rows
  {
    var cs := Clauses(client, start, end);
    WhereAllIsKeep(rows, cs);
    KeepMembers(rows, cs);
    InWindowIsAllClauses(client, start, end);
    WhereAll(rows, cs)
  }

  /** The window as one conjunctive predicate: the client matches when one
      is given, and the creation time lies within the given bounds, both
      ends included. Absent parts admit everything. */
  predicate InWindow(client: Option<int>, start: Option<Moment>, end: Option<Moment>, e: EntryRow) {
    && (client.None? || e.client == client.value)
    && (start.None? || Le(ParseDateTime(start.value), e.createdAt))
    && (end.None? || Le(e.createdAt, ParseDateTime(end.value)))
  }

  /** Every clause of a list holds. */
  predicate AllHold(cs: seq<Clause>, e: EntryRow) {
    forall i :: 0 <= i < |cs| ==> Holds(cs[i], e)
  }

  /** Reference definition: one pass keeping the rows that pass every clause. */
  function Keep(rows: seq<EntryRow>, cs: seq<Clause>): seq<EntryRow>
    decreases |rows|
  {
    if rows == [] then []
    else Keep(rows[..|rows| - 1], cs) + (if AllHold(cs, rows[|rows| - 1]) then [rows[|rows| - 1]] else [])
  }

  lemma InWindowIsAllClauses(client: Option<int>, start: Option<Moment>, end: Option<Moment>)
    ensures forall e :: InWindow(client, start, end, e) <==> AllHold(Clauses(client, start, end), e)
  {
    var cs := Clauses(client, start, end);
    forall e ensures InWindow(client, start, end, e) <==> AllHold(cs, e) {
      if AllHold(cs, e) {
        if client.Some? { assert cs[0] == ClientIs(client.value); }
        if start.Some? {
          var i := if client.Some? then 1 else 0;
          assert cs[i] == CreatedFrom(ParseDateTime(start.value));
        }
        if end.Some? { assert cs[|cs| - 1] == CreatedUntil(ParseDateTime(end.value)); }
      }
    }
  }

  /** Adding one more clause to the chain narrows the single pass by it. */
  lemma {:induction false} WhereKeep(rows: seq<EntryRow>, cs: seq<Clause>, c: Clause)
    ensures Where(Keep(rows, cs), c) == Keep(rows, cs + [c])
    decreases |rows|
  {
    if rows != [] {
      var init, x := rows[..|rows| - 1], rows[|rows| - 1];
      WhereKeep(init, cs, c);
      WhereAppend(Keep(init, cs), if AllHold(cs, x) then [x] else [], c);
      assert AllHold(cs + [c], x) <==> AllHold(cs, x) && Holds(c, x) by {
        if AllHold(cs, x) && Holds(c, x) {
          forall i | 0 <= i < |cs + [c]| ensures Holds((cs + [c])[i], x) {
            if i < |cs| { assert (cs + [c])[i] == cs[i]; }
          }
        }
        if AllHold(cs + [c], x) {
          forall i | 0 <= i < |cs| ensures Holds(cs[i], x) {
            assert (cs + [c])[i] == cs[i];
          }
          assert (cs + [c])[|cs|] == c;
        }
      }
    }
  }

  lemma {:induction false} WhereAppend(a: seq<EntryRow>, b: seq<EntryRow>, c: Clause)
    ensures Where(a + b, c) == Where(a, c) + Where(b, c)
    decreases |b|
  {
    if b == [] {
      assert a + b == a;
    } else {
      var init, x := b[..|b| - 1], b[|b| - 1];
      assert (a + b)[..|a + b| - 1] == a + init;
      assert (a + b)[|a + b| - 1] == x;
      WhereAppend(a, init, c);
      Seqs.ConcatAssoc(Where(a, c), Where(init, c), if Holds(c, x) then [x] else []);
    }
  }

  /** The chained query is the single pass: the clauses combine
      conjunctively and keep the table order. */
  lemma {:induction false} WhereAllIsKeep(rows: seq<EntryRow>, cs: seq<Clause>)
    ensures WhereAll(rows, cs) == Keep(rows, cs)
    decreases |cs|
  {
    if cs == [] {
      KeepNothing(rows);
    } else {
      var init := cs[..|cs| - 1];
      WhereAllIsKeep(rows, init);
      WhereKeep(rows, init, cs[|cs| - 1]);
      assert init + [cs[|cs| - 1]] == cs;
    }
  }

  /** With no clauses the single pass keeps every row. */
  lemma {:induction false} KeepNothing(rows: seq<EntryRow>)
    ensures Keep(rows, []) == rows
    decreases |rows|
  {
    if rows != [] {
      KeepNothing(rows[..|rows| - 1]);
      assert rows[..|rows| - 1] + [rows[|rows| - 1]] == rows;
    }
  }

  lemma {:induction false} KeepMembers(rows: seq<EntryRow>, cs: seq<Clause>)
    ensures forall e :: e in Keep(rows, cs) <==> e in rows && AllHold(cs, e)
    decreases |rows|
  {
    if rows != [] {
      KeepMembers(rows[..|rows| - 1], cs);
      assert rows == rows[..|rows| - 1] + [rows[|rows| - 1]];
    }
  }

  /** `time_entries` is the single pass over the window predicate: the rows
      in the window, in their table order. */
  lemma TimeEntriesInOrder(rows: seq<EntryRow>, client: Option<int>, start: Option<Moment>, end: Option<Moment>)
    ensures TimeEntries(rows, client, start, end) == Keep(rows, Clauses(client, start, end))
    ensures forall e :: e in TimeEntries(rows, client, start, end) <==> e in rows && InWindow(client, start, end, e)
  {
    WhereAllIsKeep(rows, Clauses(client, start, end));
    KeepMembers(rows, Clauses(client, start, end));
    InWindowIsAllClauses(client, start, end);
  }

  /** Entries on the bounds are kept: both ends are inclusive. */
  lemma BoundsInclusive(e: EntryRow)
    ensures InWindow(None, Some(OfDateTime(e.createdAt)), Some(OfDateTime(e.createdAt)), e)
  {
  }
}

=== FILE: models.dfy ===
/** The cache schema: the six cached models, the foreign keys between them,
    the rows each model stores, and the pure transforms from API records to
    rows that each model's pull performs before its upsert. */
module Models {
  import opened Wrappers
  import opened Seqs
  import opened Date
  import opened TableStore
  import Util
  import Api

  datatype Model = Account | Business | Client | Project | Task | TimeEntry

  /** `ALL_MODELS`, in the order the source lists them. */
  const AllModels: seq<Model> := [TimeEntry, Task, Project, Client, Account, Business]

  /** The class name of a model. */
  function Name(m: Model): string {
    match m
    case Account => "Account"
    case Business => "Business"
    case Client => "Client"
    case Project => "Project"
    case Task => "Task"
    case TimeEntry => "TimeEntry"
  }

  /** The foreign keys each model declares, in declaration order. */
  function ForeignKeys(m: Model): seq<Model> {
    match m
    case Account => []
    case Business => [Account]
    case Client => [Account]
    case Project => [Business, Client]
    case Task => []
    case TimeEntry => [Client, Project, Task]
  }

  /** `get_immediate_dependencies` for every model, as one graph. */
  const Graph: map<Model, seq<Model>> :=
    map[Account := ForeignKeys(Account), Business := ForeignKeys(Business), Client := ForeignKeys(Client),
        Project := ForeignKeys(Project), Task := ForeignKeys(Task), TimeEntry := ForeignKeys(TimeEntry)]

  /** The length of the longest foreign-key chain out of a model. */
  function Depth(m: Model): nat {
    match m
    case Account => 0
    case Task => 0
    case Business => 1
    case Client => 1
    case Project => 2
    case TimeEntry => 3
  }

  /** Every model is registered, every foreign key points at a registered
      model, and every foreign key leads to a strictly shallower model: the
      schema has no cycle. */
  lemma SchemaAcyclic()
    ensures forall m: Model :: m in Graph && m in AllModels
    ensures Util.Closed(Graph)
    ensures Util.Ranked(Graph, Depth)
  {
    forall m: Model ensures m in Graph && m in AllModels {
      match m
      case Account => assert AllModels[4] == m;
      case Business => assert AllModels[5] == m;
      case Client => assert AllModels[3] == m;
      case Project => assert AllModels[2] == m;
      case Task => assert AllModels[1] == m;
      case TimeEntry => assert AllModels[0] == m;
    }
    forall t, i | t in Graph && 0 <= i < |Graph[t]| ensures Graph[t][i] in Graph && Depth(Graph[t][i]) < Depth(t) {
      assert Graph[t] == ForeignKeys(t);
    }
  }

  /** The position of a model in `ALL_MODELS`. */
  function Position(m: Model): (i: nat)
    ensures i < |AllModels| && AllModels[i] == m
  {
    match m
    case TimeEntry => 0
    case Task => 1
    case Project => 2
    case Client => 3
    case Account => 4
    case Business => 5
  }

  /** The registry is closed: the graph knows every model, and every
      foreign key leads to a model of the graph. */
  lemma Registered()
    ensures Util.Closed(Graph)
    ensures forall m: Model :: m in Graph
  {
    SchemaAcyclic();
  }

  /** A class name in lower case. */
  function LowerName(m: Model): string {
    match m
    case Account => "account"
    case Business => "business"
    case Client => "client"
    case Project => "project"
    case Task => "task"
    case TimeEntry => "timeentry"
  }

  lemma LowerOf(s: string, t: string)
    requires |s| == |t| && forall i :: 0 <= i < |s| ==> LowerChar(s[i]) == t[i]
    ensures Lower(s) == t
  {
  }

  /** Lower-casing a class name gives `LowerName`, and no two lower-cased
      class names are equal. */
  lemma LowerNameCorrect(m: Model)
    ensures Lower(Name(m)) == LowerName(m)
    ensures forall m' :: LowerName(m') == LowerName(m) ==> m' == m
  {
    LowerNameInjective(m);
    match m
    case Account => LowerOf("Account", "account");
    case Business => LowerOf("Business", "business");
    case Client => LowerOf("Client", "client");
    case Project => LowerOf("Project", "project");
    case Task => LowerOf("Task", "task");
    case TimeEntry => LowerOf("TimeEntry", "timeentry");
  }

  lemma LowerNameInjective(m: Model)
    ensures forall m' :: LowerName(m') == LowerName(m) ==> m' == m
  {
    forall m' | m' != m ensures LowerName(m') != LowerName(m) {
      assert LowerName(m')[0] != LowerName(m)[0] || |LowerName(m')| != |LowerName(m)|;
    }
  }

  /** `models_by_name`: for each name in turn, the models of `ALL_MODELS`
      whose class name equals it ignoring case; unknown names contribute
      nothing. */
  function ModelsByName(names: seq<string>): (r: seq<Model>)
    ensures |r| <= |names|
  {
    if names == [] then []
    else Named(names[0]) + ModelsByName(names[1..])
  }

  /** One of `names` is the model's class name ignoring case. */
  predicate NameListed(m: Model, names: seq<string>) {
    exists j :: 0 <= j < |names| && Lower(Name(m)) == Lower(names[j])
  }

  /** A model is selected exactly when one of the names is its class name
      ignoring case. */
  lemma {:induction false} ModelsByNameMembers(names: seq<string>, m: Model)
    ensures m in ModelsByName(names) <==> NameListed(m, names)
  {
    if names != [] {
      ModelsByNameMembers(names[1..], m);
      NameListedCons(m, names);
    }
  }

  lemma NameListedCons(m: Model, names: seq<string>)
    requires names != []
    ensures NameListed(m, names) <==> Lower(Name(m)) == Lower(names[0]) || NameListed(m, names[1..])
  {
    if NameListed(m, names) {
      var j :| 0 <= j < |names| && Lower(Name(m)) == Lower(names[j]);
      if j > 0 {
        assert Lower(Name(m)) == Lower(names[1..][j - 1]);
      }
    }
    if NameListed(m, names[1..]) {
      var j :| 0 <= j < |names[1..]| && Lower(Name(m)) == Lower(names[1..][j]);
      assert names[1..][j] == names[j + 1];
    }
  }

  /** The models one name selects: at most one, since class names differ
      even ignoring case. */
  function Named(name: string): (r: seq<Model>)
    ensures |r| <= 1
    ensures forall m :: m in r <==> Lower(Name(m)) == Lower(name)
  {
    var r := Filter(AllModels, name);
    AllModelsDistinct();
    FilterAtMostOne(AllModels, name);
    r
  }

  lemma AllModelsDistinct()
    ensures Distinct(AllModels)
  {
  }

  /** The models of `ms` whose class name equals `name` ignoring case, in order. */
  function Filter(ms: seq<Model>, name: string): (r: seq<Model>)
    ensures forall m :: m in r <==> m in ms && Lower(Name(m)) == Lower(name)
  {
    if ms == [] then []
    else (if Lower(Name(ms[0])) == Lower(name) then [ms[0]] else []) + Filter(ms[1..], name)
  }

  lemma {:induction false} FilterAtMostOne(ms: seq<Model>, name: string)
    requires Distinct(ms)
    ensures |Filter(ms, name)| <= 1
  {
    if ms != [] {
      assert Distinct(ms[1..]) by {
        forall i, j | 0 <= i < j < |ms[1..]| ensures ms[1..][i] != ms[1..][j] {
          assert ms[1..][i] == ms[i + 1] && ms[1..][j] == ms[j + 1];
        }
      }
      FilterAtMostOne(ms[1..], name);
      var rest := Filter(ms[1..], name);
      if Lower(Name(ms[0])) == Lower(name) && rest != [] {
        assert rest[0] in rest;
        SameNameSameModel(ms[0], rest[0]);
      }
    }
  }

  lemma SameNameSameModel(m1: Model, m2: Model)
    requires Lower(Name(m1)) == Lower(Name(m2))
    ensures m1 == m2
  {
    LowerNameCorrect(m1);
    LowerNameCorrect(m2);
  }

  /** A model's own name selects exactly that model. */
  lemma NamedOwn(m: Model)
    ensures Named(Name(m)) == [m]
  {
    var r := Named(Name(m));
    assert m in r;
  }

  /** Names of models map back to those models, in the same order, repeats
      kept. */
  lemma {:induction false} ModelsByNameRoundTrip(ms: seq<Model>)
    ensures ModelsByName(Names(ms)) == ms
  {
    if ms != [] {
      NamedOwn(ms[0]);
      assert Names(ms)[1..] == Names(ms[1..]);
      ModelsByNameRoundTrip(ms[1..]);
    }
  }

  /** The class names of a list of models. */
  function Names(ms: seq<Model>): (r: seq<string>)
    ensures |r| == |ms| && forall i :: 0 <= i < |ms| ==> r[i] == Name(ms[i])
  {
    seq(|ms|, i requires 0 <= i < |ms| => Name(ms[i]))
  }

  /** Selecting by a concatenation of name lists is selecting by each: the
      output follows the order of the names. */
  lemma {:induction false} ModelsByNameAppend(a: seq<string>, b: seq<string>)
    ensures ModelsByName(a + b) == ModelsByName(a) + ModelsByName(b)
  {
    if a == [] {
      assert a + b == b;
    } else {
      assert (a + b)[0] == a[0];
      assert (a + b)[1..] == a[1..] + b;
      ModelsByNameAppend(a[1..], b);
    }
  }

  /** Case does not matter, and an unknown name is dropped. */
  lemma ModelsByNameSingle(name: string)
    ensures ModelsByName([name]) == ModelsByName([Lower(name)])
    ensures (forall m :: Lower(Name(m)) != Lower(name)) ==> ModelsByName([name]) == []
  {
    assert ModelsByName([name]) == Named(name) by { assert [name][1..] == []; }
    assert ModelsByName([Lower(name)]) == Named(Lower(name)) by { assert [Lower(name)][1..] == []; }
    FilterLowered(AllModels, name);
    if Named(name) != [] {
      assert Named(name)[0] in Named(name);
    }
  }

  lemma {:induction false} FilterLowered(ms: seq<Model>, name: string)
    ensures Filter(ms, Lower(name)) == Filter(ms, name)
  {
    LowerIdempotent(name);
    if ms != [] {
      FilterLowered(ms[1..], name);
    }
  }

  // ---------------------------------------------------------------------
  // rows

  /** A stored row of one of the six tables. Account ids are kept as integers. */
  datatype Row =
    | AccountRow(id: int)
    | BusinessRow(id: int, account: int, name: string)
    | ClientRow(id: int, account: int, fname: string, lname: string, organization: string, email: string)
    | ProjectRow(id: int, business: int, clientId: int, title: string)
    | TaskRow(id: int, name: string, description: string)
    | TimeEntryRow(id: int, client: int, project: Option<int>, task: Option<int>,
                   createdAt: DateTime, createdAtDate: int, startedAt: DateTime, startedAtDate: int,
                   duration: int, billed: bool, billable: bool)

  /** Every table is keyed by the row's id. */
  function Key(r: Row): int {
    r.id
  }

  /** The table a row belongs to. */
  function TableOf(r: Row): Model {
    match r
    case AccountRow(_) => Account
    case BusinessRow(_, _, _) => Business
    case ClientRow(_, _, _, _, _, _) => Client
    case ProjectRow(_, _, _, _) => Project
    case TaskRow(_, _, _) => Task
    case TimeEntryRow(_, _, _, _, _, _, _, _, _, _, _) => TimeEntry
  }

  type Cache = Store<Model, int, Row>

  /** Each table holds rows of its own model, under their own ids. */
  ghost predicate WellTyped(s: Cache) {
    forall t, k :: t in s.tables && k in s.tables[t] ==> TableOf(s.tables[t][k]) == t && Key(s.tables[t][k]) == k
  }

  // ---------------------------------------------------------------------
  // records as the API returns them

  datatype ClientRecord = ClientRecord(id: int, fname: string, lname: string, organization: string, email: string)
  datatype ProjectRecord = ProjectRecord(id: int, clientId: int, title: string)
  datatype TaskRecord = TaskRecord(id: int, name: string, description: string)
  datatype TimeEntryRecord = TimeEntryRecord(id: int, clientId: int, projectId: Option<int>, taskId: Option<int>,
                                             createdAt: Moment, startedAt: Moment,
                                             duration: int, billed: bool, billable: bool)

  /** What the API serves: the business memberships, and the pages of each
      listing, per account (clients, tasks) or per business (projects, time
      entries). A failed listing is the exception it raised. */
  datatype Remote = Remote(
    businesses: Result<seq<Api.BusinessInfo>, Api.ApiError>,
    clients: int -> Result<seq<seq<ClientRecord>>, Api.ApiError>,
    tasks: int -> Result<seq<seq<TaskRecord>>, Api.ApiError>,
    projects: int -> Result<seq<seq<ProjectRecord>>, Api.ApiError>,
    timeEntries: int -> Result<seq<seq<TimeEntryRecord>>, Api.ApiError>)

  /** Every record on every page of every business's listing, each paired
      with its business, in iteration order; the first failing listing
      aborts the walk. */
  function Gather<X>(bs: seq<Api.BusinessInfo>, listing: Api.BusinessInfo -> Result<seq<seq<X>>, Api.ApiError>)
    : (r: Result<seq<(Api.BusinessInfo, X)>, Api.ApiError>)
    ensures r.Success? <==> forall i :: 0 <= i < |bs| ==> listing(bs[i]).Success?
    ensures r.Failure? ==> exists i :: 0 <= i < |bs| && FirstFailure(bs, listing, i) && listing(bs[i]) == Failure(r.error)
  {
    if bs == [] then Success([])
    else
      var pages :- listing(bs[0]);
      var rest :- Gather(bs[1..], listing);
      assert forall i :: 1 <= i < |bs| ==> bs[i] == bs[1..][i - 1];
      Success(Tag(bs[0], Concat(pages)) + rest)
  }

  /** The i-th listing is the first to fail. */
  predicate FirstFailure<X>(bs: seq<Api.BusinessInfo>, listing: Api.BusinessInfo -> Result<seq<seq<X>>, Api.ApiError>, i: nat)
    requires i < |bs|
  {
    listing(bs[i]).Failure? && forall j :: 0 <= j < i ==> listing(bs[j]).Success?
  }

  /** The records of one business, each paired with it. */
  function Tag<X>(b: Api.BusinessInfo, xs: seq<X>): (r: seq<(Api.BusinessInfo, X)>)
    ensures |r| == |xs|
    ensures forall i :: 0 <= i < |xs| ==> r[i] == (b, xs[i])
  {
    seq(|xs|, i requires 0 <= i < |xs| => (b, xs[i]))
  }

  /** The records of every page of every business's listing, business by
      business, page by page, each paired with its business. */
  function Listed<X>(bs: seq<Api.BusinessInfo>, listing: Api.BusinessInfo -> Result<seq<seq<X>>, Api.ApiError>): seq<(Api.BusinessInfo, X)>
    requires forall i :: 0 <= i < |bs| ==> listing(bs[i]).Success?
  {
    Concat(seq(|bs|, i requires 0 <= i < |bs| => Tag(bs[i], Concat(listing(bs[i]).value))))
  }

  /** Gathering yields exactly the listed records, each once, in order. */
  lemma {:induction false} GatherContents<X>(bs: seq<Api.BusinessInfo>, listing: Api.BusinessInfo -> Result<seq<seq<X>>, Api.ApiError>)
    requires Gather(bs, listing).Success?
    ensures Gather(bs, listing).value == Listed(bs, listing)
  {
    if bs != [] {
      GatherContents(bs[1..], listing);
      var parts := seq(|bs|, i requires 0 <= i < |bs| => Tag(bs[i], Concat(listing(bs[i]).value)));
      assert parts[1..] == seq(|bs[1..]|, i requires 0 <= i < |bs[1..]| => Tag(bs[1..][i], Concat(listing(bs[1..][i]).value)));
    }
  }

  // ---------------------------------------------------------------------
  // record -> row transforms

  /** Account pull: one row per business, the id of the business's account. */
  function AccountRows(bs: seq<Api.BusinessInfo>): (r: seq<Row>)
    ensures |r| == |bs|
    ensures forall i :: 0 <= i < |bs| ==> r[i].AccountRow? && Key(r[i]) == bs[i].accountId
  {
    seq(|bs|, i requires 0 <= i < |bs| => AccountRow(bs[i].accountId))
  }

  /** Business pull: one row per business, with its account and name. */
  function BusinessRows(bs: seq<Api.BusinessInfo>): (r: seq<Row>)
    ensures |r| == |bs|
    ensures forall i :: 0 <= i < |bs| ==> r[i] == BusinessRow(bs[i].id, bs[i].accountId, bs[i].name)
  {
    seq(|bs|, i requires 0 <= i < |bs| => BusinessRow(bs[i].id, bs[i].accountId, bs[i].name))
  }

  /** A client record under an account: the account comes from the account
      being walked, not from the record. */
  function ClientRowOf(b: Api.BusinessInfo, c: ClientRecord): (r: Row)
    ensures r.ClientRow? && r.account == b.accountId && Key(r) == c.id
    ensures ClientRecord(r.id, r.fname, r.lname, r.organization, r.email) == c
  {
    ClientRow(c.id, b.accountId, c.fname, c.lname, c.organization, c.email)
  }

  /** A project record under a business: the business comes from the walk. */
  function ProjectRowOf(b: Api.BusinessInfo, p: ProjectRecord): (r: Row)
    ensures r.ProjectRow? && r.business == b.id && Key(r) == p.id
    ensures ProjectRecord(r.id, r.clientId, r.title) == p
  {
    ProjectRow(p.id, b.id, p.clientId, p.title)
  }

  function TaskRowOf(b: Api.BusinessInfo, t: TaskRecord): (r: Row)
    ensures r.TaskRow? && TaskRecord(r.id, r.name, r.description) == t
  {
    TaskRow(t.id, t.name, t.description)
  }

  /** A time-entry record: the timestamps are parsed, and their dates are
      stored alongside them; everything else is copied. */
  function TimeEntryRowOf(b: Api.BusinessInfo, e: TimeEntryRecord): (r: Row)
    ensures r.TimeEntryRow? && Key(r) == e.id
    ensures r.client == e.clientId && r.project == e.projectId && r.task == e.taskId
    ensures r.duration == e.duration && r.billed == e.billed && r.billable == e.billable
    ensures r.createdAtDate == r.createdAt.day == DayOf(e.createdAt)
    ensures r.startedAtDate == r.startedAt.day == DayOf(e.startedAt)
    ensures e.createdAt.OfDateTime? ==> r.createdAt == e.createdAt.dt
    ensures e.createdAt.OfDate? ==> r.createdAt.micros == 0
  {
    var created := ParseDateTime(e.createdAt);
    var started := ParseDateTime(e.startedAt);
    TimeEntryRow(e.id, e.clientId, e.projectId, e.taskId, created, created.day, started, started.day,
                 e.duration, e.billed, e.billable)
  }

  /** Applies a transform to gathered records. */
  function Rows<X>(tagged: seq<(Api.BusinessInfo, X)>, f: (Api.BusinessInfo, X) -> Row): (r: seq<Row>)
    ensures |r| == |tagged|
    ensures forall i :: 0 <= i < |tagged| ==> r[i] == f(tagged[i].0, tagged[i].1)
  {
    seq(|tagged|, i requires 0 <= i < |tagged| => f(tagged[i].0, tagged[i].1))
  }

  /** The listings each pull walks: clients and tasks per account, projects
      and time entries per business. */
  function ClientsListing(remote: Remote): Api.BusinessInfo -> Result<seq<seq<ClientRecord>>, Api.ApiError> {
    (b: Api.BusinessInfo) => remote.clients(b.accountId)
  }

  function TasksListing(remote: Remote): Api.BusinessInfo -> Result<seq<seq<TaskRecord>>, Api.ApiError> {
    (b: Api.BusinessInfo) => remote.tasks(b.accountId)
  }

  function ProjectsListing(remote: Remote): Api.BusinessInfo -> Result<seq<seq<ProjectRecord>>, Api.ApiError> {
    (b: Api.BusinessInfo) => remote.projects(b.id)
  }

  function TimeEntriesListing(remote: Remote): Api.BusinessInfo -> Result<seq<seq<TimeEntryRecord>>, Api.ApiError> {
    (b: Api.BusinessInfo) => remote.timeEntries(b.id)
  }

  /** The rows a model's pull upserts, or the exception its walk raised. */
  function RowsFor(m: Model, bs: seq<Api.BusinessInfo>, remote: Remote): (r: Result<seq<Row>, Api.ApiError>)
    ensures r.Success? ==> forall i :: 0 <= i < |r.value| ==> TableOf(r.value[i]) == m
    ensures (m == Account || m == Business) ==> r.Success? && |r.value| == |bs|
  {
    match m
    case Account => Success(AccountRows(bs))
    case Business => Success(BusinessRows(bs))
    case Client =>
      var tagged :- Gather(bs, ClientsListing(remote));
      Success(Rows(tagged, ClientRowOf))
    case Project =>
      var tagged :- Gather(bs, ProjectsListing(remote));
      Success(Rows(tagged, ProjectRowOf))
    case Task =>
      var tagged :- Gather(bs, TasksListing(remote));
      Success(Rows(tagged, TaskRowOf))
    case TimeEntry =>
      var tagged :- Gather(bs, TimeEntriesListing(remote));
      Success(Rows(tagged, TimeEntryRowOf))
  }

  /** Every client record on every page of every business's account yields
      exactly one row, in order, carrying that account. */
  lemma ClientRowsComplete(bs: seq<Api.BusinessInfo>, remote: Remote)
    requires RowsFor(Client, bs, remote).Success?
    ensures Gather(bs, ClientsListing(remote)).Success?
    ensures var tagged := Listed(bs, ClientsListing(remote));
      RowsFor(Client, bs, remote).value == Rows(tagged, ClientRowOf)
      && forall i :: 0 <= i < |tagged| ==>
        RowsFor(Client, bs, remote).value[i].account == tagged[i].0.accountId
  {
    GatherContents(bs, ClientsListing(remote));
  }

  /** The errors a model's pull can end in. */
  datatype PullError = FromApi(apiError: Api.ApiError) | FromStore(storeError: StoreError)

  /** `s'` is `s` with the batch `rows` written into the table of `m`:
      every key of the batch holds the batch's last row with that key, the
      other rows of the table are as they were, and so are the other
      tables. */
  ghost predicate Upserted(s: Cache, m: Model, rows: seq<Row>, s': Cache) {
    && s'.tables.Keys == s.tables.Keys
    && (forall u :: u in s.tables && u != m ==> s'.tables[u] == s.tables[u])
    && (m in s.tables ==>
          && s'.tables[m].Keys == s.tables[m].Keys + KeysOf(rows, Key)
          && (forall k :: k in KeysOf(rows, Key) ==> Some(s'.tables[m][k]) == LastWithKey(rows, Key, k))
          && (forall k :: k in s.tables[m] && k !in KeysOf(rows, Key) ==> s'.tables[m][k] == s.tables[m][k]))
  }

  /** One model's `pull`: fetch the memberships, walk the model's listings,
      transform, and upsert the rows into the model's table. */
  function Pull(m: Model, remote: Remote, s: Cache): (r: Result<Cache, PullError>)
    ensures remote.businesses.Failure? ==> r == Failure(FromApi(remote.businesses.error))
    ensures remote.businesses.Success? && RowsFor(m, remote.businesses.value, remote).Failure? ==>
      r == Failure(FromApi(RowsFor(m, remote.businesses.value, remote).error))
    ensures remote.businesses.Success? && RowsFor(m, remote.businesses.value, remote).Success? ==>
      (r.Failure? <==> RowsFor(m, remote.businesses.value, remote).value != [] && m !in s.tables)
    ensures r.Success? ==> r.value.tables.Keys == s.tables.Keys
    ensures r.Success? ==> Upserted(s, m, RowsFor(m, remote.businesses.value, remote).value, r.value)
  {
    match remote.businesses
    case Failure(e) => Failure(FromApi(e))
    case Success(bs) =>
      match RowsFor(m, bs, remote)
      case Failure(e) => Failure(FromApi(e))
      case Success(rows) =>
        match Upsert(s, m, rows, Key)
        case Failure(e) => Failure(FromStore(e))
        case Success(s') => Success(s')
  }

  /** A pull keeps every table holding only rows of its own model. */
  lemma PullWellTyped(m: Model, remote: Remote, s: Cache)
    requires WellTyped(s) && Pull(m, remote, s).Success?
    ensures WellTyped(Pull(m, remote, s).value)
  {
    var s' := Pull(m, remote, s).value;
    var rows := RowsFor(m, remote.businesses.value, remote).value;
    if rows != [] {
      forall t, k | t in s'.tables && k in s'.tables[t]
        ensures TableOf(s'.tables[t][k]) == t && Key(s'.tables[t][k]) == k
      {
        if t == m && k in KeysOf(rows, Key) {
          var w := LastWithKey(rows, Key, k).value;
          var i :| 0 <= i < |rows| && rows[i] == w;
        }
      }
    }
  }
}

=== FILE: report.dfy ===
/** freshtools/summary.py: how a report prints. `print_report` writes, for
    each result row, a bar of dashes, the title, the bar again, the formatted
    body and an empty line; the three reports differ in their titles and
    bodies. The day and week reports build their sections first, loading
    each result row's client and project, so a missing row stops them
    before anything prints; after that, a failing title or body (a missing
    row, a null project) raises and ends the report where it stands. */
module Report {
  import opened Wrappers
  import opened Date
  import opened Models
  import opened Log
  import opened Text
  import Entries
  import Summary
  import Util
  import Seqs

  /** A row of the client table. */
  type ClientRec = r: Row | r.ClientRow? witness ClientRow(0, 0, "", "", "", "")

  /** A row of the project table. */
  type ProjectRec = r: Row | r.ProjectRow? witness ProjectRow(0, 0, 0, "")

  /** What can go wrong while formatting: a foreign key naming a row the
      table lacks, a null project dereferenced, a `head` of an empty level,
      or a level of the wrong kind (a list where a map is expected). */
  datatype ReportError = MissingRow(model: Model, id: int) | NoProject | EmptyGroup | WrongShape

  // ---------------------------------------------------------------------
  // print_report

  /** The five lines one result row prints. */
  function SectionLines(header: string, body: string): (ls: seq<string>)
    ensures |ls| == 5 && ls[1] == header && ls[3] == body && ls[4] == ""
    ensures ls[0] == ls[2] && |ls[0]| == Utf8Length(header)
    ensures forall i :: 0 <= i < |ls[0]| ==> ls[0][i] == '-'
  {
    [Bar(header), header, Bar(header), body, ""]
  }

  /** The lines printed, and the error that ended the report early, if any. */
  datatype Printed = Printed(lines: seq<string>, error: Option<ReportError>)

  /** Both the title and the body of a result row format. */
  predicate Prints<R>(r: R, title: R -> Result<string, ReportError>, body: R -> Result<string, ReportError>) {
    title(r).Success? && body(r).Success?
  }

  /** The error a result row raises: its title's, or else its body's. */
  function RowError<R>(r: R, title: R -> Result<string, ReportError>, body: R -> Result<string, ReportError>): ReportError
    requires !Prints(r, title, body)
  {
    if title(r).Failure? then title(r).error else body(r).error
  }

  /** Row `i` is the first that does not format. */
  predicate FailsFirstAt<R>(rows: seq<R>, title: R -> Result<string, ReportError>, body: R -> Result<string, ReportError>, i: int) {
    && 0 <= i < |rows|
    && !Prints(rows[i], title, body)
    && forall k :: 0 <= k < i ==> Prints(rows[k], title, body)
  }

  /** The sections of the rows before `n`, all printed. */
  predicate PrintedSections<R>(lines: seq<string>, rows: seq<R>, n: int, title: R -> Result<string, ReportError>, body: R -> Result<string, ReportError>) {
    && 0 <= n <= |rows| && 5 * n <= |lines|
    && forall k :: 0 <= k < n ==>
         Prints(rows[k], title, body) && lines[5 * k..5 * k + 5] == SectionLines(title(rows[k]).value, body(rows[k]).value)
  }

  /** The report stopped at row `i`: the rows before printed their
      sections, row `i` printed its three header lines if its title formed,
      and the error is row `i`'s. */
  predicate StoppedAt<R>(p: Printed, rows: seq<R>, title: R -> Result<string, ReportError>, body: R -> Result<string, ReportError>, i: int) {
    && FailsFirstAt(rows, title, body, i)
    && p.error == Some(RowError(rows[i], title, body))
    && |p.lines| == 5 * i + (if title(rows[i]).Failure? then 0 else 3)
    && PrintedSections(p.lines, rows, i, title, body)
  }

  /** `Summary.print_report`. */
  function Print<R>(rows: seq<R>, title: R -> Result<string, ReportError>, body: R -> Result<string, ReportError>): (p: Printed)
    ensures p.error.None? <==> forall i :: 0 <= i < |rows| ==> Prints(rows[i], title, body)
    ensures p.error.None? ==> |p.lines| == 5 * |rows| && PrintedSections(p.lines, rows, |rows|, title, body)
    ensures p.error.Some? ==> exists i :: StoppedAt(p, rows, title, body, i)
    decreases |rows|
  {
    if rows == [] then Printed([], None)
    else
      match title(rows[0])
      case Failure(e) =>
        assert StoppedAt(Printed([], Some(e)), rows, title, body, 0);
        Printed([], Some(e))
      case Success(h) =>
        match body(rows[0])
        case Failure(e) =>
          assert StoppedAt(Printed([Bar(h), h, Bar(h)], Some(e)), rows, title, body, 0);
          Printed([Bar(h), h, Bar(h)], Some(e))
        case Success(b) =>
          var rest := Print(rows[1..], title, body);
          var p := Printed(SectionLines(h, b) + rest.lines, rest.error);
          PrintShift(rows, title, body, rest, p);
          p
  }

  /** The step of `Print`: the first row's section in front of the rest. */
  lemma PrintShift<R>(rows: seq<R>, title: R -> Result<string, ReportError>, body: R -> Result<string, ReportError>, rest: Printed, p: Printed)
    requires rows != [] && Prints(rows[0], title, body)
    requires p == Printed(SectionLines(title(rows[0]).value, body(rows[0]).value) + rest.lines, rest.error)
    requires rest.error.None? <==> forall i :: 0 <= i < |rows[1..]| ==> Prints(rows[1..][i], title, body)
    requires rest.error.None? ==> |rest.lines| == 5 * |rows[1..]| && PrintedSections(rest.lines, rows[1..], |rows[1..]|, title, body)
    requires rest.error.Some? ==> exists i :: StoppedAt(rest, rows[1..], title, body, i)
    ensures p.error.None? <==> forall i :: 0 <= i < |rows| ==> Prints(rows[i], title, body)
    ensures p.error.None? ==> |p.lines| == 5 * |rows| && PrintedSections(p.lines, rows, |rows|, title, body)
    ensures p.error.Some? ==> exists i :: StoppedAt(p, rows, title, body, i)
  {
    var first := SectionLines(title(rows[0]).value, body(rows[0]).value);
    assert forall k :: 1 <= k < |rows| ==> rows[k] == rows[1..][k - 1];
    if rest.error.None? {
      forall k | 0 <= k < |rows|
        ensures p.lines[5 * k..5 * k + 5] == SectionLines(title(rows[k]).value, body(rows[k]).value)
      {
        if k > 0 {
          assert p.lines[5 * k..5 * k + 5] == rest.lines[5 * (k - 1)..5 * (k - 1) + 5];
        }
      }
    } else {
      var i :| StoppedAt(rest, rows[1..], title, body, i);
      assert rows[1..][i] == rows[i + 1];
      assert FailsFirstAt(rows, title, body, i + 1);
      forall k | 0 <= k < i + 1
        ensures p.lines[5 * k..5 * k + 5] == SectionLines(title(rows[k]).value, body(rows[k]).value)
      {
        if k > 0 {
          assert p.lines[5 * k..5 * k + 5] == rest.lines[5 * (k - 1)..5 * (k - 1) + 5];
        }
      }
      assert StoppedAt(p, rows, title, body, i + 1);
    }
  }

  /** Printing two lists of rows one after the other is printing their
      concatenation, unless the first fails, which ends the report there. */
  lemma {:induction false} PrintAppend<R>(a: seq<R>, b: seq<R>, title: R -> Result<string, ReportError>, body: R -> Result<string, ReportError>)
    ensures Print(a + b, title, body)
      == if Print(a, title, body).error.Some? then Print(a, title, body)
         else Printed(Print(a, title, body).lines + Print(b, title, body).lines, Print(b, title, body).error)
    decreases |a|
  {
    if a == [] {
      assert a + b == b;
    } else {
      assert (a + b)[0] == a[0];
      assert (a + b)[1..] == a[1..] + b;
      PrintAppend(a[1..], b, title, body);
      if Prints(a[0], title, body) {
        var h := SectionLines(title(a[0]).value, body(a[0]).value);
        var ra := Print(a[1..], title, body);
        if ra.error.None? {
          Seqs.ConcatAssoc(h, ra.lines, Print(b, title, body).lines);
        }
      }
    }
  }

  // ---------------------------------------------------------------------
  // body lines

  /** The lines of a formatted body, with the hours left as seconds. */
  datatype BodyLine =
    | ClientHeading(organization: string)
    | ProjectHeading(title: string)
    | TaskBlock(task: string, seconds: int, billed: bool)
    | ProjectTotal(title: string, seconds: int)
    | TaskTotals(organization: string, seconds: int, first: DateTime, last: DateTime)

  /** `'Yes' if billed else 'No'`. */
  function BilledText(billed: bool): (s: string)
    ensures s == "Yes" || s == "No"
    ensures s == "Yes" <==> billed
  {
    if billed then "Yes" else "No"
  }

  /** The text of a body line; `hours` stands for the floating-point
      `%0.2f` rendering of seconds as hours. */
  function Render(l: BodyLine, hours: int -> string): (s: string)
  {
    match l
    case ClientHeading(o) => "  Client: " + o
    case ProjectHeading(t) => "    Project: " + t
    case TaskBlock(n, secs, billed) =>
      "      Task: " + n + "\n      Total Time: " + hours(secs) + " hours\n      Billed: " + BilledText(billed) + "\n"
    case ProjectTotal(t, secs) => "    Project: " + t + "\n      Total Time: " + hours(secs) + " hours\n"
    case TaskTotals(o, secs, first, last) =>
      "Client: " + o + "\nTotal Time: " + hours(secs) + " hours\nFirst Entered: " + DateTimeText(first)
        + "\nLast Entered: " + DateTimeText(last)
  }

  /** `os.linesep.join(...)` over rendered lines, with the POSIX separator. */
  function JoinLines(ls: seq<string>): (s: string)
    ensures ls == [] ==> s == ""
    ensures |ls| == 1 ==> s == ls[0]
  {
    if ls == [] then "" else if |ls| == 1 then ls[0] else ls[0] + "\n" + JoinLines(ls[1..])
  }

  function RenderAll(ls: seq<BodyLine>, hours: int -> string): seq<string> {
    seq(|ls|, i requires 0 <= i < |ls| => Render(ls[i], hours))
  }

  // ---------------------------------------------------------------------
  // lookups behind the foreign keys

  /** The tables a body reads through the entry's foreign keys. */
  datatype Tables = Tables(clients: map<int, ClientRec>, projects: map<int, ProjectRec>)

  /** `row.client`: the client row the entry names. */
  function ClientOf(tb: Tables, g: Summary.Group): (r: Result<ClientRec, ReportError>)
    ensures r.Success? <==> g.rep.entry.client in tb.clients
    ensures r.Success? ==> r.value == tb.clients[g.rep.entry.client]
    ensures r.Failure? ==> r.error == MissingRow(Client, g.rep.entry.client)
  {
    if g.rep.entry.client in tb.clients then Success(tb.clients[g.rep.entry.client])
    else Failure(MissingRow(Client, g.rep.entry.client))
  }

  /** `row.project`: the project row the entry names; a null project raises
      on the attribute access that follows. */
  function ProjectOf(tb: Tables, g: Summary.Group): (r: Result<ProjectRec, ReportError>)
    ensures r.Success? <==> g.rep.entry.project.Some? && g.rep.entry.project.value in tb.projects
    ensures r.Success? ==> r.value == tb.projects[g.rep.entry.project.value]
    ensures g.rep.entry.project.None? ==> r == Failure(NoProject)
  {
    match g.rep.entry.project
    case None => Failure(NoProject)
    case Some(p) => if p in tb.projects then Success(tb.projects[p]) else Failure(MissingRow(Project, p))
  }

  /** `head(...)` down to the first result row of a level. */
  function HeadRow(t: Util.Tree<Summary.Key, Summary.Group>): (r: Result<Summary.Group, ReportError>)
    ensures r.Success? ==> r.value in Util.Flatten(t)
    ensures r.Failure? ==> r.error == EmptyGroup
    ensures Util.Flatten(t) == [] ==> r.Failure?
    ensures t.Leaf? ==> (r.Success? <==> t.rows != [])
    ensures t.Leaf? && r.Success? ==> r.value == t.rows[0]
    ensures forall depth: nat :: Util.Filled(t, depth) ==> r.Success?
  {
    Util.FilledHeads(t);
    match Util.Head(t)
    case None => Failure(EmptyGroup)
    case Some(g) => Util.HeadInFlatten(t); Success(g)
  }

  // ---------------------------------------------------------------------
  // TasksByClient

  /** `TasksByClient.format_title`: the task's name. It reads no foreign
      key, so it never fails. */
  function TaskTitle(g: Summary.Group): (r: Result<string, ReportError>)
    ensures r.Success? && r.value == g.rep.task.name
  {
    Success(g.rep.task.name)
  }

  /** `TasksByClient.format_row`: the client, the total, and the first and
      last creation times. */
  function TaskBody(tb: Tables, g: Summary.Group): (r: Result<BodyLine, ReportError>)
    ensures r.Success? <==> g.rep.entry.client in tb.clients
    ensures r.Success? ==> r.value == TaskTotals(tb.clients[g.rep.entry.client].organization, g.total, g.first, g.last)
  {
    match ClientOf(tb, g)
    case Failure(e) => Failure(e)
    case Success(c) => Success(TaskTotals(c.organization, g.total, g.first, g.last))
  }

  // ---------------------------------------------------------------------
  // DaysByClientProjectTask

  /** `DaysByClientProjectTask.format_title`: the date of the section. */
  function DayTitle(t: Util.Tree<Summary.Key, Summary.Group>): (r: Result<string, ReportError>)
    ensures r.Success? <==> Util.Head(t).Some?
    ensures r.Success? ==> r.value == DateText(Util.Head(t).value.rep.entry.createdAtDate)
  {
    match HeadRow(t)
    case Failure(e) => Failure(e)
    case Success(g) => Success(DateText(g.rep.entry.createdAtDate))
  }

  /** One task row of a project: its task, total and billed flag. */
  function TaskBlocks(gs: seq<Summary.Group>): seq<BodyLine> {
    seq(|gs|, i requires 0 <= i < |gs| => TaskBlock(gs[i].rep.task.name, gs[i].total, gs[i].rep.entry.billed))
  }

  /** The projects of one client of a day: a heading per project, then its
      task rows. */
  function DayProjects(tb: Tables, es: seq<(Summary.Key, Util.Tree<Summary.Key, Summary.Group>)>): (r: Result<seq<BodyLine>, ReportError>)
    decreases |es|
  {
    if es == [] then Success([])
    else
      match HeadRow(es[0].1)
      case Failure(e) => Failure(e)
      case Success(g) =>
        match ProjectOf(tb, g)
        case Failure(e) => Failure(e)
        case Success(p) =>
          if !es[0].1.Leaf? then Failure(WrongShape)
          else
            match DayProjects(tb, es[1..])
            case Failure(e) => Failure(e)
            case Success(rest) => Success([ProjectHeading(p.title)] + TaskBlocks(es[0].1.rows) + rest)
  }

  /** The clients of a day: a heading per client, then its projects. */
  function DayClients(tb: Tables, es: seq<(Summary.Key, Util.Tree<Summary.Key, Summary.Group>)>): (r: Result<seq<BodyLine>, ReportError>)
    decreases |es|
  {
    if es == [] then Success([])
    else
      match HeadRow(es[0].1)
      case Failure(e) => Failure(e)
      case Success(g) =>
        match ClientOf(tb, g)
        case Failure(e) => Failure(e)
        case Success(c) =>
          if !es[0].1.Node? then Failure(WrongShape)
          else
            match DayProjects(tb, es[0].1.entries)
            case Failure(e) => Failure(e)
            case Success(ps) =>
              match DayClients(tb, es[1..])
              case Failure(e) => Failure(e)
              case Success(rest) => Success([ClientHeading(c.organization)] + ps + rest)
  }

  /** `DaysByClientProjectTask.format_row`. A day's body lists one task row
      per result row filed under the day, in the order they were filed. On
      a section the grouping builds, it fails only on a lookup: never on a
      missing client or project when every row's keys load, and never at
      all when every row's client and project exist. */
  function DayBody(tb: Tables, t: Util.Tree<Summary.Key, Summary.Group>): (r: Result<seq<BodyLine>, ReportError>)
    ensures r.Success? ==> TaskLines(r.value) == TaskBlocks(Util.Flatten(t))
    ensures Util.Filled(t, 2) && r.Failure? ==> LookupError(r.error)
    ensures Util.Filled(t, 2) && r.Failure? && (forall g :: g in Util.Flatten(t) ==> Loads(tb, g)) ==> r.error == NoProject
    ensures Util.Filled(t, 2) && (forall g :: g in Util.Flatten(t) ==> Resolvable(tb, g)) ==> r.Success?
  {
    if t.Node? then
      DayClientsOutcome(tb, t.entries);
      DayClients(tb, t.entries)
    else Failure(WrongShape)
  }

  // ---------------------------------------------------------------------
  // WeeksByClientProject

  /** `WeeksByClientProject.format_title`: the week-ending date of the
      section. */
  function WeekTitle(t: Util.Tree<Summary.Key, Summary.Group>): (r: Result<string, ReportError>)
    ensures r.Success? <==> Util.Head(t).Some?
    ensures r.Success? ==> r.value == "Week Ending: " + DateText(Summary.WeekEndingDay(Util.Head(t).value.rep.entry.createdAt))
  {
    match HeadRow(t)
    case Failure(e) => Failure(e)
    case Success(g) => Success("Week Ending: " + DateText(Summary.WeekEndingDay(g.rep.entry.createdAt)))
  }

  /** The projects of one client of a week: the title and the total of the
      project's first result row. */
  function WeekProjects(tb: Tables, es: seq<(Summary.Key, Util.Tree<Summary.Key, Summary.Group>)>): (r: Result<seq<BodyLine>, ReportError>)
    decreases |es|
  {
    if es == [] then Success([])
    else
      match HeadRow(es[0].1)
      case Failure(e) => Failure(e)
      case Success(g) =>
        match ProjectOf(tb, g)
        case Failure(e) => Failure(e)
        case Success(p) =>
          match WeekProjects(tb, es[1..])
          case Failure(e) => Failure(e)
          case Success(rest) => Success([ProjectTotal(p.title, g.total)] + rest)
  }

  /** The clients of a week: a heading per client, then its projects. */
  function WeekClients(tb: Tables, es: seq<(Summary.Key, Util.Tree<Summary.Key, Summary.Group>)>): (r: Result<seq<BodyLine>, ReportError>)
    decreases |es|
  {
    if es == [] then Success([])
    else
      match HeadRow(es[0].1)
      case Failure(e) => Failure(e)
      case Success(g) =>
        match ClientOf(tb, g)
        case Failure(e) => Failure(e)
        case Success(c) =>
          if !es[0].1.Node? then Failure(WrongShape)
          else
            match WeekProjects(tb, es[0].1.entries)
            case Failure(e) => Failure(e)
            case Success(ps) =>
              match WeekClients(tb, es[1..])
              case Failure(e) => Failure(e)
              case Success(rest) => Success([ClientHeading(c.organization)] + ps + rest)
  }

  /** `WeeksByClientProject.format_row`. On a section the grouping builds,
      it fails only on a lookup: never on a missing client or project when
      every row's keys load, and never at all when every row's client and
      project exist. */
  function WeekBody(tb: Tables, t: Util.Tree<Summary.Key, Summary.Group>): (r: Result<seq<BodyLine>, ReportError>)
    ensures Util.Filled(t, 2) && r.Failure? ==> LookupError(r.error)
    ensures Util.Filled(t, 2) && r.Failure? && (forall g :: g in Util.Flatten(t) ==> Loads(tb, g)) ==> r.error == NoProject
    ensures Util.Filled(t, 2) && (forall g :: g in Util.Flatten(t) ==> Resolvable(tb, g)) ==> r.Success?
  {
    if t.Node? then
      WeekClientsOutcome(tb, t.entries);
      WeekClients(tb, t.entries)
    else Failure(WrongShape)
  }

  // ---------------------------------------------------------------------
  // building the day and week sections

  /** A result row whose client, and project when it has one, the tables
      hold: reading its foreign-key columns raises nothing. */
  predicate Loads(tb: Tables, g: Summary.Group) {
    && g.rep.entry.client in tb.clients
    && (g.rep.entry.project.Some? ==> g.rep.entry.project.value in tb.projects)
  }

  /** Every result row of `q` loads. */
  predicate AllLoad(tb: Tables, q: seq<Summary.Group>) {
    forall g :: g in q ==> Loads(tb, g)
  }

  /** Every result row of `q` has its client and project in the tables. */
  predicate AllResolve(tb: Tables, q: seq<Summary.Group>) {
    forall g :: g in q ==> Resolvable(tb, g)
  }

  /** `getattr(row, key)` inside `coalate`: reading a foreign-key column
      loads the row it names and raises when the table lacks it; a null
      project reads as `None`, and the other columns load nothing. */
  function LoadField(tb: Tables, g: Summary.Group, d: Summary.Dim): (r: Option<ReportError>)
    ensures r.Some? ==> r.value.MissingRow?
    ensures d == Summary.ClientOf ==> (r.None? <==> g.rep.entry.client in tb.clients)
    ensures d == Summary.ProjectOf ==> (r.None? <==> (g.rep.entry.project.Some? ==> g.rep.entry.project.value in tb.projects))
    ensures d != Summary.ClientOf && d != Summary.ProjectOf ==> r.None?
  {
    match d
    case ClientOf =>
      if g.rep.entry.client in tb.clients then None else Some(MissingRow(Client, g.rep.entry.client))
    case ProjectOf =>
      if g.rep.entry.project.Some? && g.rep.entry.project.value !in tb.projects
      then Some(MissingRow(Project, g.rep.entry.project.value))
      else None
    case _ => None
  }

  /** The first error reading a row's grouping columns raises, column by
      column. */
  function LoadKeys(tb: Tables, g: Summary.Group, levels: seq<Summary.Dim>): (r: Option<ReportError>)
    ensures r.None? <==> forall j :: 0 <= j < |levels| ==> LoadField(tb, g, levels[j]).None?
    ensures r.Some? ==> r.value.MissingRow?
    decreases |levels|
  {
    if levels == [] then None
    else
      match LoadField(tb, g, levels[0])
      case Some(e) => Some(e)
      case None =>
        assert forall j :: 1 <= j < |levels| ==> levels[j] == levels[1..][j - 1];
        LoadKeys(tb, g, levels[1..])
  }

  /** The first error the `coalate` loop raises, row by row. */
  function LoadRows(tb: Tables, q: seq<Summary.Group>, levels: seq<Summary.Dim>): (r: Option<ReportError>)
    ensures r.None? <==> forall i :: 0 <= i < |q| ==> LoadKeys(tb, q[i], levels).None?
    ensures r.Some? ==> r.value.MissingRow?
    decreases |q|
  {
    if q == [] then None
    else
      match LoadKeys(tb, q[0], levels)
      case Some(e) => Some(e)
      case None =>
        assert forall i :: 1 <= i < |q| ==> q[i] == q[1..][i - 1];
        LoadRows(tb, q[1..], levels)
  }

  /** Reading the day or week levels of a row raises exactly when its
      client or its non-null project is missing. */
  lemma LevelsLoad(tb: Tables, g: Summary.Group, levels: seq<Summary.Dim>)
    requires levels == Summary.DayLevels || levels == Summary.WeekLevels
    ensures LoadKeys(tb, g, levels).None? <==> Loads(tb, g)
  {
    assert |levels| == 3 && levels[1] == Summary.ClientOf && levels[2] == Summary.ProjectOf;
    assert LoadField(tb, g, levels[0]).None?;
  }

  lemma RowsLoad(tb: Tables, q: seq<Summary.Group>, levels: seq<Summary.Dim>)
    requires levels == Summary.DayLevels || levels == Summary.WeekLevels
    ensures LoadRows(tb, q, levels).None? <==> AllLoad(tb, q)
  {
    forall i | 0 <= i < |q| ensures LoadKeys(tb, q[i], levels).None? <==> Loads(tb, q[i]) {
      LevelsLoad(tb, q[i], levels);
    }
  }

  /** `DaysByClientProjectTask.query_set()`: the sections, or the error the
      `coalate` loop raises on the first result row whose client or
      non-null project is missing. */
  function DaysQuery(rows: seq<EntryRow>, tasks: map<int, Summary.TaskRec>, tb: Tables, w: Entries.Window): (r: Result<seq<Util.Tree<Summary.Key, Summary.Group>>, ReportError>)
    ensures r.Success? <==> AllLoad(tb, Summary.Query(rows, tasks, w, Summary.DaysDims))
    ensures r.Success? ==> r.value == Summary.DaysByClientProjectTask(rows, tasks, w)
    ensures r.Failure? ==> r.error.MissingRow?
  {
    var q := Summary.Query(rows, tasks, w, Summary.DaysDims);
    RowsLoad(tb, q, Summary.DayLevels);
    match LoadRows(tb, q, Summary.DayLevels)
    case Some(e) => Failure(e)
    case None => Success(Summary.DaysByClientProjectTask(rows, tasks, w))
  }

  /** `WeeksByClientProject.query_set()`, likewise. */
  function WeeksQuery(rows: seq<EntryRow>, tasks: map<int, Summary.TaskRec>, tb: Tables, w: Entries.Window): (r: Result<seq<Util.Tree<Summary.Key, Summary.Group>>, ReportError>)
    ensures r.Success? <==> AllLoad(tb, Summary.Query(rows, tasks, Summary.WeekWindow(w), Summary.WeeksDims))
    ensures r.Success? ==> r.value == Summary.WeeksByClientProject(rows, tasks, w)
    ensures r.Failure? ==> r.error.MissingRow?
  {
    var q := Summary.Query(rows, tasks, Summary.WeekWindow(w), Summary.WeeksDims);
    RowsLoad(tb, q, Summary.WeekLevels);
    match LoadRows(tb, q, Summary.WeekLevels)
    case Some(e) => Failure(e)
    case None => Success(Summary.WeeksByClientProject(rows, tasks, w))
  }

  // ---------------------------------------------------------------------
  // the three reports

  /** A body's lines, rendered and joined. */
  function BodyText(r: Result<seq<BodyLine>, ReportError>, hours: int -> string): (b: Result<string, ReportError>)
    ensures b.Success? <==> r.Success?
  {
    match r
    case Failure(e) => Failure(e)
    case Success(ls) => Success(JoinLines(RenderAll(ls, hours)))
  }

  function TaskBodyText(tb: Tables, hours: int -> string, g: Summary.Group): Result<string, ReportError> {
    match TaskBody(tb, g)
    case Failure(e) => Failure(e)
    case Success(l) => Success(Render(l, hours))
  }

  function DayBodyText(tb: Tables, hours: int -> string, t: Util.Tree<Summary.Key, Summary.Group>): Result<string, ReportError> {
    BodyText(DayBody(tb, t), hours)
  }

  function WeekBodyText(tb: Tables, hours: int -> string, t: Util.Tree<Summary.Key, Summary.Group>): Result<string, ReportError> {
    BodyText(WeekBody(tb, t), hours)
  }

  /** The body formatters of the three reports, for given tables and hours. */
  function TaskBodies(tb: Tables, hours: int -> string): Summary.Group -> Result<string, ReportError> {
    g => TaskBodyText(tb, hours, g)
  }

  function DayBodies(tb: Tables, hours: int -> string): Util.Tree<Summary.Key, Summary.Group> -> Result<string, ReportError> {
    t => DayBodyText(tb, hours, t)
  }

  function WeekBodies(tb: Tables, hours: int -> string): Util.Tree<Summary.Key, Summary.Group> -> Result<string, ReportError> {
    t => WeekBodyText(tb, hours, t)
  }

  /** `TasksByClient(window).print_report()`. Its query loads no foreign
      key, so the report stops only in a body, on a missing client, and it
      prints in full exactly when every result row's client exists. */
  function TasksByClientReport(rows: seq<EntryRow>, tasks: map<int, Summary.TaskRec>, tb: Tables, w: Entries.Window, hours: int -> string): (p: Printed)
    ensures StopsOn(p, MissingClient)
    ensures p.error.None? <==> forall g :: g in Summary.TasksByClient(rows, tasks, w) ==> g.rep.entry.client in tb.clients
  {
    var q := Summary.TasksByClient(rows, tasks, w);
    TaskSectionsPrint(q, tb, hours);
    Print(q, TaskTitle, TaskBodies(tb, hours))
  }

  /** `DaysByClientProjectTask(window).print_report()`. Building the sections
      loads every result row's client and project, so a missing one stops the
      report before it prints anything; once the sections are built, only a
      null project stops it; and it prints in full when every result row's
      client and project exist. */
  function DaysReport(rows: seq<EntryRow>, tasks: map<int, Summary.TaskRec>, tb: Tables, w: Entries.Window, hours: int -> string): (p: Printed)
    ensures StopsOn(p, LookupError)
    ensures !AllLoad(tb, Summary.Query(rows, tasks, w, Summary.DaysDims)) ==>
      p.lines == [] && p.error.Some? && p.error.value.MissingRow?
    ensures AllLoad(tb, Summary.Query(rows, tasks, w, Summary.DaysDims)) ==> StopsOn(p, NullProject)
    ensures AllResolve(tb, Summary.Query(rows, tasks, w, Summary.DaysDims)) ==> p.error.None?
  {
    DaysReportEnds(rows, tasks, tb, w, hours);
    PrintSections(DaysQuery(rows, tasks, tb, w), DayTitle, DayBodies(tb, hours))
  }

  lemma DaysReportEnds(rows: seq<EntryRow>, tasks: map<int, Summary.TaskRec>, tb: Tables, w: Entries.Window, hours: int -> string)
    ensures var p := PrintSections(DaysQuery(rows, tasks, tb, w), DayTitle, DayBodies(tb, hours));
      var q := Summary.Query(rows, tasks, w, Summary.DaysDims);
      && StopsOn(p, LookupError)
      && (!AllLoad(tb, q) ==> p.lines == [] && p.error.Some? && p.error.value.MissingRow?)
      && (AllLoad(tb, q) ==> StopsOn(p, NullProject))
      && (AllResolve(tb, q) ==> p.error.None?)
  {
    var q := Summary.Query(rows, tasks, w, Summary.DaysDims);
    var qr := DaysQuery(rows, tasks, tb, w);
    DaySectionsBuilt(rows, tasks, tb, w, hours);
    SectionsReportEnds(qr, q, tb, DayTitle, DayBodies(tb, hours));
  }

  /** `WeeksByClientProject(window).print_report()`, which ends the same way
      as the day report. */
  function WeeksReport(rows: seq<EntryRow>, tasks: map<int, Summary.TaskRec>, tb: Tables, w: Entries.Window, hours: int -> string): (p: Printed)
    ensures StopsOn(p, LookupError)
    ensures !AllLoad(tb, Summary.Query(rows, tasks, Summary.WeekWindow(w), Summary.WeeksDims)) ==>
      p.lines == [] && p.error.Some? && p.error.value.MissingRow?
    ensures AllLoad(tb, Summary.Query(rows, tasks, Summary.WeekWindow(w), Summary.WeeksDims)) ==> StopsOn(p, NullProject)
    ensures AllResolve(tb, Summary.Query(rows, tasks, Summary.WeekWindow(w), Summary.WeeksDims)) ==> p.error.None?
  {
    WeeksReportEnds(rows, tasks, tb, w, hours);
    PrintSections(WeeksQuery(rows, tasks, tb, w), WeekTitle, WeekBodies(tb, hours))
  }

  lemma WeeksReportEnds(rows: seq<EntryRow>, tasks: map<int, Summary.TaskRec>, tb: Tables, w: Entries.Window, hours: int -> string)
    ensures var p := PrintSections(WeeksQuery(rows, tasks, tb, w), WeekTitle, WeekBodies(tb, hours));
      var q := Summary.Query(rows, tasks, Summary.WeekWindow(w), Summary.WeeksDims);
      && StopsOn(p, LookupError)
      && (!AllLoad(tb, q) ==> p.lines == [] && p.error.Some? && p.error.value.MissingRow?)
      && (AllLoad(tb, q) ==> StopsOn(p, NullProject))
      && (AllResolve(tb, q) ==> p.error.None?)
  {
    var q := Summary.Query(rows, tasks, Summary.WeekWindow(w), Summary.WeeksDims);
    var qr := WeeksQuery(rows, tasks, tb, w);
    WeekSectionsBuilt(rows, tasks, tb, w, hours);
    SectionsReportEnds(qr, q, tb, WeekTitle, WeekBodies(tb, hours));
  }

  /** Printing the day sections ends as `DaySectionsPrint` says. */
  lemma DaySectionsBuilt(rows: seq<EntryRow>, tasks: map<int, Summary.TaskRec>, tb: Tables, w: Entries.Window, hours: int -> string)
    ensures var r := Summary.DaysByClientProjectTask(rows, tasks, w);
      var q := Summary.Query(rows, tasks, w, Summary.DaysDims);
      && StopsOn(Print(r, DayTitle, DayBodies(tb, hours)), LookupError)
      && (AllLoad(tb, q) ==> StopsOn(Print(r, DayTitle, DayBodies(tb, hours)), NullProject))
      && (AllResolve(tb, q) ==> Print(r, DayTitle, DayBodies(tb, hours)).error.None?)
  {
    var r := Summary.DaysByClientProjectTask(rows, tasks, w);
    var q := Summary.Query(rows, tasks, w, Summary.DaysDims);
    Summary.SectionRowsIn(q, r, Summary.CreatedAtDate);
    DaySectionsPrint(r, q, tb, hours);
  }

  /** Printing the week sections ends as `WeekSectionsPrint` says. */
  lemma WeekSectionsBuilt(rows: seq<EntryRow>, tasks: map<int, Summary.TaskRec>, tb: Tables, w: Entries.Window, hours: int -> string)
    ensures var r := Summary.WeeksByClientProject(rows, tasks, w);
      var q := Summary.Query(rows, tasks, Summary.WeekWindow(w), Summary.WeeksDims);
      && StopsOn(Print(r, WeekTitle, WeekBodies(tb, hours)), LookupError)
      && (AllLoad(tb, q) ==> StopsOn(Print(r, WeekTitle, WeekBodies(tb, hours)), NullProject))
      && (AllResolve(tb, q) ==> Print(r, WeekTitle, WeekBodies(tb, hours)).error.None?)
  {
    var r := Summary.WeeksByClientProject(rows, tasks, w);
    var q := Summary.Query(rows, tasks, Summary.WeekWindow(w), Summary.WeeksDims);
    Summary.SectionRowsIn(q, r, Summary.CreatedAtWeekEndingDate);
    WeekSectionsPrint(r, q, tb, hours);
  }

  /** Prints the sections, or nothing when building them raised. */
  function PrintSections<R>(qr: Result<seq<R>, ReportError>, title: R -> Result<string, ReportError>, body: R -> Result<string, ReportError>): Printed {
    match qr
    case Failure(e) => Printed([], Some(e))
    case Success(r) => Print(r, title, body)
  }

  /** How a day or week report ends, given how building its sections from
      the result rows `q` ends and how printing built sections ends. */
  lemma SectionsReportEnds<R>(qr: Result<seq<R>, ReportError>, q: seq<Summary.Group>, tb: Tables,
                              title: R -> Result<string, ReportError>, body: R -> Result<string, ReportError>)
    requires qr.Success? <==> AllLoad(tb, q)
    requires qr.Failure? ==> qr.error.MissingRow?
    requires qr.Success? ==> StopsOn(Print(qr.value, title, body), LookupError)
    requires qr.Success? && AllLoad(tb, q) ==> StopsOn(Print(qr.value, title, body), NullProject)
    requires qr.Success? && AllResolve(tb, q) ==> Print(qr.value, title, body).error.None?
    ensures StopsOn(PrintSections(qr, title, body), LookupError)
    ensures !AllLoad(tb, q) ==>
      (PrintSections(qr, title, body).lines == [] &&
       PrintSections(qr, title, body).error.Some? && PrintSections(qr, title, body).error.value.MissingRow?)
    ensures AllLoad(tb, q) ==> StopsOn(PrintSections(qr, title, body), NullProject)
    ensures AllResolve(tb, q) ==> PrintSections(qr, title, body).error.None?
  {
  }

  /** With no time entries every report prints nothing. */
  lemma NoEntriesNoOutput(tasks: map<int, Summary.TaskRec>, tb: Tables, w: Entries.Window, hours: int -> string)
    ensures TasksByClientReport([], tasks, tb, w, hours) == Printed([], None)
    ensures DaysReport([], tasks, tb, w, hours) == Printed([], None)
    ensures WeeksReport([], tasks, tb, w, hours) == Printed([], None)
  {
    NoSections(tasks, w);
  }

  /** No time entries leave every report without sections. */
  lemma NoSections(tasks: map<int, Summary.TaskRec>, w: Entries.Window)
    ensures Summary.TasksByClient([], tasks, w) == []
    ensures Summary.DaysByClientProjectTask([], tasks, w) == []
    ensures Summary.WeeksByClientProject([], tasks, w) == []
  {
    EmptyQuery(tasks, w, Summary.TasksByClientDims);
    EmptyQuery(tasks, w, Summary.DaysDims);
    EmptyQuery(tasks, Summary.WeekWindow(w), Summary.WeeksDims);
  }

  lemma EmptyQuery(tasks: map<int, Summary.TaskRec>, w: Entries.Window, dims: seq<Summary.Dim>)
    ensures Summary.Query([], tasks, w, dims) == []
  {
  }

  // ---------------------------------------------------------------------
  // what the day and week bodies list

  /** The task rows among body lines, in order. */
  function TaskLines(ls: seq<BodyLine>): (r: seq<BodyLine>)
    ensures forall l :: l in r ==> l in ls && l.TaskBlock?
  {
    if ls == [] then [] else (if ls[0].TaskBlock? then [ls[0]] else []) + TaskLines(ls[1..])
  }

  lemma {:induction false} TaskLinesAppend(a: seq<BodyLine>, b: seq<BodyLine>)
    ensures TaskLines(a + b) == TaskLines(a) + TaskLines(b)
  {
    if a == [] {
      assert a + b == b;
    } else {
      assert (a + b)[0] == a[0];
      assert (a + b)[1..] == a[1..] + b;
      TaskLinesAppend(a[1..], b);
      var h := if a[0].TaskBlock? then [a[0]] else [];
      Seqs.ConcatAssoc(h, TaskLines(a[1..]), TaskLines(b));
    }
  }

  lemma {:induction false} TaskLinesOfBlocks(gs: seq<Summary.Group>)
    ensures TaskLines(TaskBlocks(gs)) == TaskBlocks(gs)
  {
    if gs != [] {
      TaskLinesOfBlocks(gs[1..]);
      assert TaskBlocks(gs)[1..] == TaskBlocks(gs[1..]);
    }
  }

  lemma TaskBlocksAppend(a: seq<Summary.Group>, b: seq<Summary.Group>)
    ensures TaskBlocks(a + b) == TaskBlocks(a) + TaskBlocks(b)
  {
  }

  /** A heading, then lines listing the task rows of `a`, then lines
      listing those of `b`, list the task rows of `a + b`. */
  lemma TaskLinesJoin(h: seq<BodyLine>, ls: seq<BodyLine>, rest: seq<BodyLine>, a: seq<Summary.Group>, b: seq<Summary.Group>)
    requires TaskLines(h) == []
    requires TaskLines(ls) == TaskBlocks(a) && TaskLines(rest) == TaskBlocks(b)
    ensures TaskLines(h + ls + rest) == TaskBlocks(a + b)
  {
    TaskLinesAppend(h, ls);
    assert TaskLines(h + ls) == TaskLines(ls) by {
      assert TaskLines(h) + TaskLines(ls) == TaskLines(ls);
    }
    TaskLinesAppend(h + ls, rest);
    TaskBlocksAppend(a, b);
  }

  lemma {:induction false} DayProjectsTasks(tb: Tables, es: seq<(Summary.Key, Util.Tree<Summary.Key, Summary.Group>)>)
    requires DayProjects(tb, es).Success?
    ensures TaskLines(DayProjects(tb, es).value) == TaskBlocks(Util.Flatten(Util.Node(es)))
    decreases |es|
  {
    if es != [] {
      var rest := DayProjects(tb, es[1..]).value;
      var p := ProjectOf(tb, HeadRow(es[0].1).value).value;
      var rows := es[0].1.rows;
      var h := [ProjectHeading(p.title)];
      assert DayProjects(tb, es).value == h + TaskBlocks(rows) + rest;
      assert TaskLines(h) == [];
      DayProjectsTasks(tb, es[1..]);
      TaskLinesOfBlocks(rows);
      Util.FlattenCons(es);
      TaskLinesJoin(h, TaskBlocks(rows), rest, rows, Util.Flatten(Util.Node(es[1..])));
    }
  }

  lemma {:induction false} DayClientsTasks(tb: Tables, es: seq<(Summary.Key, Util.Tree<Summary.Key, Summary.Group>)>)
    requires DayClients(tb, es).Success?
    ensures TaskLines(DayClients(tb, es).value) == TaskBlocks(Util.Flatten(Util.Node(es)))
    decreases |es|
  {
    if es != [] {
      var rest := DayClients(tb, es[1..]).value;
      var c := ClientOf(tb, HeadRow(es[0].1).value).value;
      var ps := DayProjects(tb, es[0].1.entries).value;
      var h := [ClientHeading(c.organization)];
      assert DayClients(tb, es).value == h + ps + rest;
      assert TaskLines(h) == [];
      DayProjectsTasks(tb, es[0].1.entries);
      DayClientsTasks(tb, es[1..]);
      Util.FlattenCons(es);
      TaskLinesJoin(h, ps, rest, Util.Flatten(es[0].1), Util.Flatten(Util.Node(es[1..])));
    }
  }

  /** A result row whose client and project the tables hold. */
  predicate Resolvable(tb: Tables, g: Summary.Group) {
    g.rep.entry.client in tb.clients && g.rep.entry.project.Some? && g.rep.entry.project.value in tb.projects
  }

  /** Only lookups fail. */
  predicate LookupError(e: ReportError) {
    e.MissingRow? || e == NoProject
  }

  /** The error of a null project dereferenced. */
  predicate NullProject(e: ReportError) {
    e == NoProject
  }

  /** A printout that, if it stopped, stopped on an error of kind `ok`. */
  predicate StopsOn(p: Printed, ok: ReportError -> bool) {
    p.error.Some? ==> ok(p.error.value)
  }

  lemma {:induction false} DayProjectsFail(tb: Tables, es: seq<(Summary.Key, Util.Tree<Summary.Key, Summary.Group>)>)
    requires forall i :: 0 <= i < |es| ==> Util.Filled(es[i].1, 0)
    ensures DayProjects(tb, es).Failure? ==> LookupError(DayProjects(tb, es).error)
    ensures DayProjects(tb, es).Failure? && (forall g :: g in Util.Flatten(Util.Node(es)) ==> Loads(tb, g)) ==>
      DayProjects(tb, es).error == NoProject
    ensures (forall g :: g in Util.Flatten(Util.Node(es)) ==> Resolvable(tb, g)) ==> DayProjects(tb, es).Success?
    decreases |es|
  {
    if es != [] {
      DayProjectsFail(tb, es[1..]);
      Util.FlattenCons(es);
      Util.HeadInFlatten(es[0].1);
      var all := Util.Flatten(Util.Node(es));
      assert forall g :: g in Util.Flatten(Util.Node(es[1..])) ==> g in all;
      assert forall g :: g in Util.Flatten(es[0].1) ==> g in all;
    }
  }

  lemma {:induction false} DayClientsFail(tb: Tables, es: seq<(Summary.Key, Util.Tree<Summary.Key, Summary.Group>)>)
    requires forall i :: 0 <= i < |es| ==> Util.Filled(es[i].1, 1)
    ensures DayClients(tb, es).Failure? ==> LookupError(DayClients(tb, es).error)
    ensures DayClients(tb, es).Failure? && (forall g :: g in Util.Flatten(Util.Node(es)) ==> Loads(tb, g)) ==>
      DayClients(tb, es).error == NoProject
    ensures (forall g :: g in Util.Flatten(Util.Node(es)) ==> Resolvable(tb, g)) ==> DayClients(tb, es).Success?
    decreases |es|
  {
    if es != [] {
      DayClientsFail(tb, es[1..]);
      DayProjectsFail(tb, es[0].1.entries);
      Util.FlattenCons(es);
      Util.HeadInFlatten(es[0].1);
      var all := Util.Flatten(Util.Node(es));
      assert forall g :: g in Util.Flatten(Util.Node(es[1..])) ==> g in all;
      assert forall g :: g in Util.Flatten(es[0].1) ==> g in all;
    }
  }

  /** What `DayBody` promises, stated on the clients of the day. */
  lemma DayClientsOutcome(tb: Tables, es: seq<(Summary.Key, Util.Tree<Summary.Key, Summary.Group>)>)
    ensures DayClients(tb, es).Success? ==> TaskLines(DayClients(tb, es).value) == TaskBlocks(Util.Flatten(Util.Node(es)))
    ensures Util.Filled(Util.Node(es), 2) ==>
      && (DayClients(tb, es).Failure? ==> LookupError(DayClients(tb, es).error))
      && (DayClients(tb, es).Failure? && (forall g :: g in Util.Flatten(Util.Node(es)) ==> Loads(tb, g)) ==>
            DayClients(tb, es).error == NoProject)
      && ((forall g :: g in Util.Flatten(Util.Node(es)) ==> Resolvable(tb, g)) ==> DayClients(tb, es).Success?)
  {
    if DayClients(tb, es).Success? {
      DayClientsTasks(tb, es);
    }
    if Util.Filled(Util.Node(es), 2) {
      DayClientsFail(tb, es);
    }
  }

  lemma {:induction false} WeekProjectsFail(tb: Tables, es: seq<(Summary.Key, Util.Tree<Summary.Key, Summary.Group>)>)
    requires forall i :: 0 <= i < |es| ==> Util.Filled(es[i].1, 0)
    ensures WeekProjects(tb, es).Failure? ==> LookupError(WeekProjects(tb, es).error)
    ensures WeekProjects(tb, es).Failure? && (forall g :: g in Util.Flatten(Util.Node(es)) ==> Loads(tb, g)) ==>
      WeekProjects(tb, es).error == NoProject
    ensures (forall g :: g in Util.Flatten(Util.Node(es)) ==> Resolvable(tb, g)) ==> WeekProjects(tb, es).Success?
    ensures WeekProjects(tb, es).Success? ==> |WeekProjects(tb, es).value| == |es|
    decreases |es|
  {
    if es != [] {
      WeekProjectsFail(tb, es[1..]);
      Util.FlattenCons(es);
      Util.HeadInFlatten(es[0].1);
      var all := Util.Flatten(Util.Node(es));
      assert forall g :: g in Util.Flatten(Util.Node(es[1..])) ==> g in all;
      assert forall g :: g in Util.Flatten(es[0].1) ==> g in all;
    }
  }

  lemma {:induction false} WeekClientsFail(tb: Tables, es: seq<(Summary.Key, Util.Tree<Summary.Key, Summary.Group>)>)
    requires forall i :: 0 <= i < |es| ==> Util.Filled(es[i].1, 1)
    ensures WeekClients(tb, es).Failure? ==> LookupError(WeekClients(tb, es).error)
    ensures WeekClients(tb, es).Failure? && (forall g :: g in Util.Flatten(Util.Node(es)) ==> Loads(tb, g)) ==>
      WeekClients(tb, es).error == NoProject
    ensures (forall g :: g in Util.Flatten(Util.Node(es)) ==> Resolvable(tb, g)) ==> WeekClients(tb, es).Success?
    decreases |es|
  {
    if es != [] {
      WeekClientsFail(tb, es[1..]);
      WeekProjectsFail(tb, es[0].1.entries);
      Util.FlattenCons(es);
      Util.HeadInFlatten(es[0].1);
      var all := Util.Flatten(Util.Node(es));
      assert forall g :: g in Util.Flatten(Util.Node(es[1..])) ==> g in all;
      assert forall g :: g in Util.Flatten(es[0].1) ==> g in all;
    }
  }

  /** What `WeekBody` promises, stated on the clients of the week. */
  lemma WeekClientsOutcome(tb: Tables, es: seq<(Summary.Key, Util.Tree<Summary.Key, Summary.Group>)>)
    ensures Util.Filled(Util.Node(es), 2) ==>
      && (WeekClients(tb, es).Failure? ==> LookupError(WeekClients(tb, es).error))
      && (WeekClients(tb, es).Failure? && (forall g :: g in Util.Flatten(Util.Node(es)) ==> Loads(tb, g)) ==>
            WeekClients(tb, es).error == NoProject)
      && ((forall g :: g in Util.Flatten(Util.Node(es)) ==> Resolvable(tb, g)) ==> WeekClients(tb, es).Success?)
  {
    if Util.Filled(Util.Node(es), 2) {
      WeekClientsFail(tb, es);
    }
  }

  // ---------------------------------------------------------------------
  // how the reports end

  /** A report ends with an error of a kind every failing title and body
      raises. */
  lemma PrintStops<R>(rows: seq<R>, title: R -> Result<string, ReportError>, body: R -> Result<string, ReportError>, ok: ReportError -> bool)
    requires forall i :: 0 <= i < |rows| && title(rows[i]).Failure? ==> ok(title(rows[i]).error)
    requires forall i :: 0 <= i < |rows| && body(rows[i]).Failure? ==> ok(body(rows[i]).error)
    ensures Print(rows, title, body).error.Some? ==> ok(Print(rows, title, body).error.value)
  {
    var p := Print(rows, title, body);
    if p.error.Some? {
      var i :| StoppedAt(p, rows, title, body, i);
    }
  }

  /** Sections filled from the rows `q`: the day report stops only on a
      lookup, only on a null project when every row loads, and prints in
      full when every row resolves. */
  lemma DaySectionsPrint(r: seq<Util.Tree<Summary.Key, Summary.Group>>, q: seq<Summary.Group>, tb: Tables, hours: int -> string)
    requires forall i :: 0 <= i < |r| ==> Util.Filled(r[i], 2)
    requires forall i, g :: 0 <= i < |r| && g in Util.Flatten(r[i]) ==> g in q
    ensures StopsOn(Print(r, DayTitle, DayBodies(tb, hours)), LookupError)
    ensures AllLoad(tb, q) ==> StopsOn(Print(r, DayTitle, DayBodies(tb, hours)), NullProject)
    ensures AllResolve(tb, q) ==> Print(r, DayTitle, DayBodies(tb, hours)).error.None?
  {
    var body := DayBodies(tb, hours);
    forall i | 0 <= i < |r|
      ensures DayTitle(r[i]).Success?
      ensures body(r[i]).Failure? ==> LookupError(body(r[i]).error)
      ensures AllLoad(tb, q) && body(r[i]).Failure? ==> NullProject(body(r[i]).error)
      ensures AllResolve(tb, q) ==> body(r[i]).Success?
    {
      Util.FilledHead(r[i], 2);
      DaySectionEnds(r[i], q, tb, hours);
    }
    PrintStops(r, DayTitle, body, LookupError);
    if AllLoad(tb, q) {
      PrintStops(r, DayTitle, body, NullProject);
    }
  }

  /** One filled day section with rows from `q`: its body fails only as
      the report may. */
  lemma DaySectionEnds(t: Util.Tree<Summary.Key, Summary.Group>, q: seq<Summary.Group>, tb: Tables, hours: int -> string)
    requires Util.Filled(t, 2)
    requires forall g :: g in Util.Flatten(t) ==> g in q
    ensures DayBodies(tb, hours)(t).Failure? ==> LookupError(DayBodies(tb, hours)(t).error)
    ensures AllLoad(tb, q) && DayBodies(tb, hours)(t).Failure? ==> NullProject(DayBodies(tb, hours)(t).error)
    ensures AllResolve(tb, q) ==> DayBodies(tb, hours)(t).Success?
  {
    var b := DayBody(tb, t);
    assert DayBodies(tb, hours)(t) == BodyText(b, hours);
    if AllLoad(tb, q) {
      assert forall g :: g in Util.Flatten(t) ==> Loads(tb, g);
    }
    if AllResolve(tb, q) {
      assert forall g :: g in Util.Flatten(t) ==> Resolvable(tb, g);
    }
  }

  /** The same for the week report. */
  lemma WeekSectionsPrint(r: seq<Util.Tree<Summary.Key, Summary.Group>>, q: seq<Summary.Group>, tb: Tables, hours: int -> string)
    requires forall i :: 0 <= i < |r| ==> Util.Filled(r[i], 2)
    requires forall i, g :: 0 <= i < |r| && g in Util.Flatten(r[i]) ==> g in q
    ensures StopsOn(Print(r, WeekTitle, WeekBodies(tb, hours)), LookupError)
    ensures AllLoad(tb, q) ==> StopsOn(Print(r, WeekTitle, WeekBodies(tb, hours)), NullProject)
    ensures AllResolve(tb, q) ==> Print(r, WeekTitle, WeekBodies(tb, hours)).error.None?
  {
    var body := WeekBodies(tb, hours);
    forall i | 0 <= i < |r|
      ensures WeekTitle(r[i]).Success?
      ensures body(r[i]).Failure? ==> LookupError(body(r[i]).error)
      ensures AllLoad(tb, q) && body(r[i]).Failure? ==> NullProject(body(r[i]).error)
      ensures AllResolve(tb, q) ==> body(r[i]).Success?
    {
      Util.FilledHead(r[i], 2);
      WeekSectionEnds(r[i], q, tb, hours);
    }
    PrintStops(r, WeekTitle, body, LookupError);
    if AllLoad(tb, q) {
      PrintStops(r, WeekTitle, body, NullProject);
    }
  }

  /** One filled week section with rows from `q`: its body fails only as
      the report may. */
  lemma WeekSectionEnds(t: Util.Tree<Summary.Key, Summary.Group>, q: seq<Summary.Group>, tb: Tables, hours: int -> string)
    requires Util.Filled(t, 2)
    requires forall g :: g in Util.Flatten(t) ==> g in q
    ensures WeekBodies(tb, hours)(t).Failure? ==> LookupError(WeekBodies(tb, hours)(t).error)
    ensures AllLoad(tb, q) && WeekBodies(tb, hours)(t).Failure? ==> NullProject(WeekBodies(tb, hours)(t).error)
    ensures AllResolve(tb, q) ==> WeekBodies(tb, hours)(t).Success?
  {
    var b := WeekBody(tb, t);
    assert WeekBodies(tb, hours)(t) == BodyText(b, hours);
    if AllLoad(tb, q) {
      assert forall g :: g in Util.Flatten(t) ==> Loads(tb, g);
    }
    if AllResolve(tb, q) {
      assert forall g :: g in Util.Flatten(t) ==> Resolvable(tb, g);
    }
  }

  /** A missing client is the only way the task report stops. */
  predicate MissingClient(e: ReportError) {
    e.MissingRow? && e.model == Client
  }

  lemma TaskSectionsPrint(q: seq<Summary.Group>, tb: Tables, hours: int -> string)
    ensures StopsOn(Print(q, TaskTitle, TaskBodies(tb, hours)), MissingClient)
    ensures Print(q, TaskTitle, TaskBodies(tb, hours)).error.None? <==>
      forall g :: g in q ==> g.rep.entry.client in tb.clients
  {
    var body := TaskBodies(tb, hours);
    assert forall i :: 0 <= i < |q| ==> (body(q[i]).Success? <==> q[i].rep.entry.client in tb.clients);
    PrintStops(q, TaskTitle, body, MissingClient);
  }
}

=== FILE: seqs.dfy ===
/** Generic sequence and string helpers shared by the grouping, paging, lookup and report code. */
module Seqs {

  /** No element occurs twice. */
  ghost predicate Distinct<T>(s: seq<T>) {
    forall i, j :: 0 <= i < j < |s| ==> s[i] != s[j]
  }

  /** The set of elements of a sequence. */
  function Elems<T>(s: seq<T>): set<T> {
    set x | x in s
  }

  /** The pieces joined end to end, in order. */
  function Concat<T>(ss: seq<seq<T>>): (r: seq<T>)
    ensures |ss| == 0 ==> r == []
  {
    if ss == [] then [] else ss[0] + Concat(ss[1..])
  }

  lemma {:induction false} ConcatSnoc<T>(ss: seq<seq<T>>, s: seq<T>)
    ensures Concat(ss + [s]) == Concat(ss) + s
  {
    if ss == [] {
      assert ss + [s] == [s];
    } else {
      assert (ss + [s])[1..] == ss[1..] + [s];
      ConcatSnoc(ss[1..], s);
    }
  }

  lemma {:induction false} ConcatAppend<T>(a: seq<seq<T>>, b: seq<seq<T>>)
    ensures Concat(a + b) == Concat(a) + Concat(b)
  {
    if a == [] {
      assert a + b == b;
    } else {
      assert (a + b)[1..] == a[1..] + b;
      ConcatAppend(a[1..], b);
    }
  }

  /** Pieces that are all empty join to nothing. */
  lemma {:induction false} ConcatAllEmpty<T>(ss: seq<seq<T>>)
    requires forall i :: 0 <= i < |ss| ==> ss[i] == []
    ensures Concat(ss) == []
  {
    if ss != [] {
      ConcatAllEmpty(ss[1..]);
    }
  }

  /** Appending `x` to one piece adds exactly one `x` to the joined elements. */
  lemma {:induction false} ConcatUpdate<T>(ss: seq<seq<T>>, j: nat, x: T)
    requires j < |ss|
    ensures multiset(Concat(ss[j := ss[j] + [x]])) == multiset(Concat(ss)) + multiset{x}
  {
    var ts := ss[j := ss[j] + [x]];
    if j == 0 {
      assert ts[1..] == ss[1..];
      assert Concat(ts) == ss[0] + [x] + Concat(ss[1..]);
    } else {
      ConcatUpdate(ss[1..], j - 1, x);
      assert ts[1..] == ss[1..][j - 1 := ss[j] + [x]];
      assert Concat(ts) == ss[0] + Concat(ts[1..]);
    }
  }

  /** Index of the first occurrence of `x` in `s`. */
  function FirstIndex<T(==)>(s: seq<T>, x: T): (i: nat)
    requires x in s
    ensures i < |s| && s[i] == x
    ensures forall j :: 0 <= j < i ==> s[j] != x
  {
    if s[0] == x then 0 else 1 + FirstIndex(s[1..], x)
  }

  /** Appending after `s` does not move the first occurrence of anything in `s`. */
  lemma FirstIndexPrefix<T>(s: seq<T>, t: seq<T>, x: T)
    requires x in s
    ensures FirstIndex(s + t, x) == FirstIndex(s, x)
  {
    var i := FirstIndex(s, x);
    assert (s + t)[i] == x;
  }

  /** The elements of `s` without repetitions, each kept at its first
      occurrence: first-encounter order, not sorted order. */
  function Dedup<T(==)>(s: seq<T>): (r: seq<T>)
    ensures Distinct(r)
    ensures forall i :: 0 <= i < |r| ==> r[i] in s
    ensures forall i :: 0 <= i < |s| ==> s[i] in r
    decreases |s|
  {
    if s == [] then []
    else
      var d := Dedup(s[..|s| - 1]);
      if s[|s| - 1] in d then d else d + [s[|s| - 1]]
  }

  /** A non-empty sequence is its front followed by its last element. */
  lemma InitLast<T>(s: seq<T>)
    requires s != []
    ensures s[..|s| - 1] + [s[|s| - 1]] == s
  {
  }

  lemma ConcatAssoc<T>(a: seq<T>, b: seq<T>, c: seq<T>)
    ensures a + (b + c) == (a + b) + c
  {
  }

  /** Two runs without repeats, joined around `m`, repeat nothing when the
      first and `m` lie in `s` and the second lies outside it. */
  lemma DistinctJoin<T>(a: seq<T>, m: T, b: seq<T>, s: set<T>)
    requires Distinct(a) && Distinct(b) && m in s
    requires forall k :: 0 <= k < |a| ==> a[k] in s && a[k] != m
    requires forall k :: 0 <= k < |b| ==> b[k] !in s
    ensures Distinct(a + [m] + b)
  {
    var r := a + [m] + b;
    forall i, j | 0 <= i < j < |r| ensures r[i] != r[j] {
      if j < |a| {
        assert r[i] == a[i] && r[j] == a[j];
      } else if j == |a| {
        assert r[i] == a[i];
      } else if i > |a| {
        assert r[i] == b[i - |a| - 1] && r[j] == b[j - |a| - 1];
      } else {
        assert r[j] == b[j - |a| - 1];
        if i < |a| { assert r[i] == a[i]; }
      }
    }
  }

  lemma DedupSnoc<T>(s: seq<T>, x: T)
    ensures Dedup(s + [x]) == if x in Dedup(s) then Dedup(s) else Dedup(s) + [x]
  {
    assert (s + [x])[..|s|] == s;
  }

  /** Dedup lists the values in the order in which they are first met in `s`. */
  lemma {:induction false} DedupFirstEncounter<T>(s: seq<T>)
    ensures InFirstEncounterOrder(s, Dedup(s))
  {
    if s != [] {
      var init := s[..|s| - 1];
      InitLast(s);
      DedupFirstEncounter(init);
      DedupFirstEncounterStep(init, s[|s| - 1]);
    }
  }

  /** `d` lists its values in the order in which they are first met in `s`. */
  ghost predicate InFirstEncounterOrder<T>(s: seq<T>, d: seq<T>) {
    && (forall k :: 0 <= k < |d| ==> d[k] in s)
    && (forall i, j :: 0 <= i < j < |d| ==> FirstIndex(s, d[i]) < FirstIndex(s, d[j]))
  }

  lemma DedupFirstEncounterStep<T>(init: seq<T>, x: T)
    requires InFirstEncounterOrder(init, Dedup(init))
    ensures InFirstEncounterOrder(init + [x], Dedup(init + [x]))
  {
    var s := init + [x];
    DedupSnoc(init, x);
    var d := Dedup(s);
    var d0 := Dedup(init);
    forall i, j | 0 <= i < j < |d|
      ensures FirstIndex(s, d[i]) < FirstIndex(s, d[j])
    {
      assert d[i] in d0;
      FirstIndexPrefix(init, [x], d[i]);
      if j < |d0| {
        assert d[j] in d0;
        FirstIndexPrefix(init, [x], d[j]);
      } else {
        assert d[j] == x && x !in init;
        assert FirstIndex(s, d[j]) == |init|;
      }
    }
  }

  /** ASCII lower case. */
  function Lower(s: string): (r: string)
    ensures |r| == |s|
    ensures forall i :: 0 <= i < |s| ==> r[i] == LowerChar(s[i])
  {
    if s == [] then [] else [LowerChar(s[0])] + Lower(s[1..])
  }

  function LowerChar(c: char): (d: char)
    ensures 'A' <= c <= 'Z' ==> 'a' <= d <= 'z'
    ensures !('A' <= c <= 'Z') ==> d == c
  {
    if 'A' <= c <= 'Z' then (c as int - 'A' as int + 'a' as int) as char else c
  }

  /** Lowering twice is lowering once. */
  lemma LowerIdempotent(s: string)
    ensures Lower(Lower(s)) == Lower(s)
  {
  }
}

=== FILE: summary.dfy ===
/** freshtools/summary.py: the report queries. Time entries in a window are
    joined with their tasks, grouped by a tuple of columns with the total
    duration and the first and last creation time of each group, ordered by
    the last creation time, and for the day and week reports filed into a
    nested grouping by date, client and project. */
module Summary {
  import opened Wrappers
  import opened Seqs
  import opened Date
  import opened Entries
  import opened Models
  import opened Log
  import Util

  // ---------------------------------------------------------------------
  // the join

  /** A row of the task table. */
  type TaskRec = r: Row | r.TaskRow? witness TaskRow(0, "", "")

  /** A time entry together with its task row. */
  datatype Joined = Joined(entry: EntryRow, task: TaskRec)

  /** The entry belongs to the inner join with the task table: it names a
      task the table holds, and that task row is the one joined to it. */
  predicate JoinedFrom(es: seq<EntryRow>, tasks: map<int, TaskRec>, j: Joined) {
    j.entry in es && j.entry.task.Some? && j.entry.task.value in tasks && j.task == tasks[j.entry.task.value]
  }

  /** `.join(Task)`: the inner join, so entries without a task, or whose task
      is not in the table, drop out; the others keep their order. */
  function Join(es: seq<EntryRow>, tasks: map<int, TaskRec>): (r: seq<Joined>)
    ensures |r| <= |es|
    ensures forall j :: j in r <==> JoinedFrom(es, tasks, j)
    decreases |es|
  {
    if es == [] then []
    else
      var init, e := es[..|es| - 1], es[|es| - 1];
      assert es == init + [e];
      Join(init, tasks) + (if e.task.Some? && e.task.value in tasks then [Joined(e, tasks[e.task.value])] else [])
  }

  // ---------------------------------------------------------------------
  // grouping columns

  /** The columns the reports group and file by. */
  datatype Dim = TaskId | ClientOf | ProjectOf | CreatedAtDate | CreatedAtWeekEndingDate

  /** A column value: an id, a missing (null) reference, or a day. */
  datatype Key = Ref(id: int) | Null | Day(day: int)

  /** The day on which the week of a creation time ends. */
  function WeekEndingDay(t: DateTime): (d: int)
    ensures Weekday(d) == 6 && t.day <= d <= t.day + 6
  {
    WeekEnding(Some(OfDateTime(t))).value.day
  }

  /** The value of a column for a joined entry. */
  function Field(j: Joined, d: Dim): Key {
    match d
    case TaskId => Ref(j.task.id)
    case ClientOf => Ref(j.entry.client)
    case ProjectOf => if j.entry.project.Some? then Ref(j.entry.project.value) else Null
    case CreatedAtDate => Day(j.entry.createdAtDate)
    case CreatedAtWeekEndingDate => Day(WeekEndingDay(j.entry.createdAt))
  }

  /** The group key of a joined entry: its values along the `aggregate_by` columns. */
  function KeyOf(j: Joined, dims: seq<Dim>): seq<Key> {
    Util.Path(j, dims, Field)
  }

  // ---------------------------------------------------------------------
  // aggregation

  /** One result row of the grouped query: the columns of a representative
      entry of the group (the first one), with the group's aggregates. */
  datatype Group = Group(rep: Joined, total: int, first: DateTime, last: DateTime)

  /** `fn.Sum(TimeEntry.duration)`. */
  function TotalDuration(ms: seq<Joined>): int {
    if ms == [] then 0 else TotalDuration(ms[..|ms| - 1]) + ms[|ms| - 1].entry.duration
  }

  /** `fn.Min(TimeEntry.created_at)`. */
  function Earliest(ms: seq<Joined>): (t: DateTime)
    requires ms != []
    ensures exists i :: 0 <= i < |ms| && ms[i].entry.createdAt == t
    ensures forall i :: 0 <= i < |ms| ==> Le(t, ms[i].entry.createdAt)
  {
    if |ms| == 1 then ms[0].entry.createdAt
    else
      var t := Earliest(ms[1..]);
      assert forall i :: 1 <= i < |ms| ==> ms[i] == ms[1..][i - 1];
      if Le(ms[0].entry.createdAt, t) then ms[0].entry.createdAt else t
  }

  /** `fn.Max(TimeEntry.created_at)`. */
  function Latest(ms: seq<Joined>): (t: DateTime)
    requires ms != []
    ensures exists i :: 0 <= i < |ms| && ms[i].entry.createdAt == t
    ensures forall i :: 0 <= i < |ms| ==> Le(ms[i].entry.createdAt, t)
  {
    if |ms| == 1 then ms[0].entry.createdAt
    else
      var t := Latest(ms[1..]);
      assert forall i :: 1 <= i < |ms| ==> ms[i] == ms[1..][i - 1];
      if Le(t, ms[0].entry.createdAt) then ms[0].entry.createdAt else t
  }

  /** The rows of one group: the joined entries with the given key, in order. */
  function Members(js: seq<Joined>, dims: seq<Dim>, k: seq<Key>): seq<Joined> {
    Util.Having(js, KeyOf, dims, k)
  }

  /** The distinct group keys, in first-encounter order. */
  function GroupKeys(js: seq<Joined>, dims: seq<Dim>): seq<seq<Key>> {
    Util.FirstSeen(js, KeyOf, dims)
  }

  lemma SeenHasMembers(js: seq<Joined>, dims: seq<Dim>, k: seq<Key>)
    requires k in GroupKeys(js, dims)
    ensures Members(js, dims, k) != []
  {
    var vs := Util.ValuesOf(js, KeyOf, dims);
    Util.HavingContains(js, KeyOf, dims, k, FirstIndex(vs, k));
  }

  function Aggregate(ms: seq<Joined>): Group
    requires ms != []
  {
    Group(ms[0], TotalDuration(ms), Earliest(ms), Latest(ms))
  }

  /** `group_by(*aggregate_by)` with the three aggregates: one result row
      per distinct key. */
  function GroupBy(js: seq<Joined>, dims: seq<Dim>): (r: seq<Group>)
    ensures |r| == |GroupKeys(js, dims)|
    ensures forall i :: 0 <= i < |r| ==> r[i].rep in js && KeyOf(r[i].rep, dims) == GroupKeys(js, dims)[i]
    ensures forall i :: 0 <= i < |r| ==> Summarises(r[i], Members(js, dims, KeyOf(r[i].rep, dims)))
  {
    var ks := GroupKeys(js, dims);
    seq(|ks|, i requires 0 <= i < |ks| =>
      SeenHasMembers(js, dims, ks[i]);
      Aggregate(Members(js, dims, ks[i])))
  }

  /** A result row summarises a non-empty list of rows: its total is their
      summed duration, and its first and last times are their earliest and
      latest creation times. */
  ghost predicate Summarises(g: Group, ms: seq<Joined>) {
    && ms != [] && g.rep == ms[0]
    && g.total == TotalDuration(ms)
    && (exists i :: 0 <= i < |ms| && ms[i].entry.createdAt == g.first)
    && (exists i :: 0 <= i < |ms| && ms[i].entry.createdAt == g.last)
    && (forall i :: 0 <= i < |ms| ==> Le(g.first, ms[i].entry.createdAt) && Le(ms[i].entry.createdAt, g.last))
  }

  /** Different result rows have different keys, and every joined entry
      falls in one of them. */
  lemma GroupByCovers(js: seq<Joined>, dims: seq<Dim>)
    ensures forall i, j :: 0 <= i < j < |GroupBy(js, dims)| ==>
      KeyOf(GroupBy(js, dims)[i].rep, dims) != KeyOf(GroupBy(js, dims)[j].rep, dims)
    ensures forall x :: x in js ==> KeyOf(x, dims) in GroupKeys(js, dims)
  {
    var vs := Util.ValuesOf(js, KeyOf, dims);
    forall x | x in js ensures KeyOf(x, dims) in GroupKeys(js, dims) {
      var n :| 0 <= n < |js| && js[n] == x;
      assert vs[n] == KeyOf(x, dims);
    }
  }

  // ---------------------------------------------------------------------
  // the conservation of total time

  /** The summed totals of a list of groups. */
  function SumTotals(ss: seq<seq<Joined>>): int {
    if ss == [] then 0 else TotalDuration(ss[0]) + SumTotals(ss[1..])
  }

  lemma {:induction false} TotalDurationSnoc(ms: seq<Joined>, x: Joined)
    ensures TotalDuration(ms + [x]) == TotalDuration(ms) + x.entry.duration
  {
    assert (ms + [x])[..|ms|] == ms;
  }

  lemma {:induction false} SumTotalsUpdate(ss: seq<seq<Joined>>, j: nat, x: Joined)
    requires j < |ss|
    ensures SumTotals(ss[j := ss[j] + [x]]) == SumTotals(ss) + x.entry.duration
  {
    TotalDurationSnoc(ss[j], x);
    if j > 0 {
      SumTotalsUpdate(ss[1..], j - 1, x);
      assert ss[j := ss[j] + [x]][1..] == ss[1..][j - 1 := ss[j] + [x]];
    }
  }

  lemma {:induction false} SumTotalsEmpty(ss: seq<seq<Joined>>)
    requires forall i :: 0 <= i < |ss| ==> ss[i] == []
    ensures SumTotals(ss) == 0
  {
    if ss != [] {
      SumTotalsEmpty(ss[1..]);
    }
  }

  /** The lists of rows carrying each of `ks`. */
  function Buckets(js: seq<Joined>, dims: seq<Dim>, ks: seq<seq<Key>>): seq<seq<Joined>> {
    seq(|ks|, i requires 0 <= i < |ks| => Members(js, dims, ks[i]))
  }

  /** Distinct keys that cover every row partition the rows: the buckets
      together hold each row exactly as often as the input does. */
  lemma {:induction false} BucketsPartition(js: seq<Joined>, dims: seq<Dim>, ks: seq<seq<Key>>)
    requires Distinct(ks)
    requires forall x :: x in js ==> KeyOf(x, dims) in ks
    ensures multiset(Concat(Buckets(js, dims, ks))) == multiset(js)
    decreases |js|
  {
    var bs := Buckets(js, dims, ks);
    if js == [] {
      ConcatAllEmpty(bs);
    } else {
      var init, x := js[..|js| - 1], js[|js| - 1];
      assert init + [x] == js;
      BucketsPartition(init, dims, ks);
      var bs0 := Buckets(init, dims, ks);
      var j := FirstIndex(ks, KeyOf(x, dims));
      forall i | 0 <= i < |ks| ensures bs[i] == bs0[j := bs0[j] + [x]][i] {
        Util.HavingSnoc(init, x, KeyOf, dims, ks[i]);
      }
      assert bs == bs0[j := bs0[j] + [x]];
      ConcatUpdate(bs0, j, x);
    }
  }

  /** Distinct keys that cover every row split the total duration among
      their buckets. */
  lemma {:induction false} BucketsSplitTotal(js: seq<Joined>, dims: seq<Dim>, ks: seq<seq<Key>>)
    requires Distinct(ks)
    requires forall x :: x in js ==> KeyOf(x, dims) in ks
    ensures SumTotals(Buckets(js, dims, ks)) == TotalDuration(js)
    decreases |js|
  {
    var bs := Buckets(js, dims, ks);
    if js == [] {
      SumTotalsEmpty(bs);
    } else {
      var init, x := js[..|js| - 1], js[|js| - 1];
      assert init + [x] == js;
      BucketsSplitTotal(init, dims, ks);
      var bs0 := Buckets(init, dims, ks);
      var j := FirstIndex(ks, KeyOf(x, dims));
      forall i | 0 <= i < |ks| ensures bs[i] == bs0[j := bs0[j] + [x]][i] {
        Util.HavingSnoc(init, x, KeyOf, dims, ks[i]);
      }
      assert bs == bs0[j := bs0[j] + [x]];
      SumTotalsUpdate(bs0, j, x);
    }
  }

  /** The group totals add up to the total duration of the joined entries:
      grouping loses and doubles no time. */
  lemma GroupTotalsAddUp(js: seq<Joined>, dims: seq<Dim>)
    ensures SumOfTotals(GroupBy(js, dims)) == TotalDuration(js)
  {
    var ks := GroupKeys(js, dims);
    GroupByCovers(js, dims);
    BucketsSplitTotal(js, dims, ks);
    GroupTotalsPerKey(js, dims);
    GroupTotalsAre(GroupBy(js, dims), Buckets(js, dims, ks));
  }

  /** Each result row's total is the total of its key's bucket. */
  lemma GroupTotalsPerKey(js: seq<Joined>, dims: seq<Dim>)
    ensures |GroupBy(js, dims)| == |Buckets(js, dims, GroupKeys(js, dims))|
    ensures forall i :: 0 <= i < |GroupBy(js, dims)| ==>
      GroupBy(js, dims)[i].total == TotalDuration(Buckets(js, dims, GroupKeys(js, dims))[i])
  {
    var gs := GroupBy(js, dims);
    var bs := Buckets(js, dims, GroupKeys(js, dims));
    forall i | 0 <= i < |gs| ensures gs[i].total == TotalDuration(bs[i]) {
      assert Summarises(gs[i], Members(js, dims, KeyOf(gs[i].rep, dims)));
    }
  }

  /** The summed `total` column of a list of result rows. */
  function SumOfTotals(gs: seq<Group>): int {
    if gs == [] then 0 else gs[0].total + SumOfTotals(gs[1..])
  }

  lemma {:induction false} GroupTotalsAre(gs: seq<Group>, ss: seq<seq<Joined>>)
    requires |gs| == |ss|
    requires forall i :: 0 <= i < |gs| ==> gs[i].total == TotalDuration(ss[i])
    ensures SumOfTotals(gs) == SumTotals(ss)
  {
    if gs != [] {
      GroupTotalsAre(gs[1..], ss[1..]);
    }
  }

  // ---------------------------------------------------------------------
  // ordering by the last creation time

  ghost predicate SortedByLast(gs: seq<Group>) {
    forall i, j :: 0 <= i < j < |gs| ==> Le(gs[i].last, gs[j].last)
  }

  function InsertByLast(g: Group, gs: seq<Group>): (r: seq<Group>)
    requires SortedByLast(gs)
    ensures SortedByLast(r)
    ensures multiset(r) == multiset(gs) + multiset{g}
    ensures forall x :: x in r ==> x == g || x in gs
  {
    if gs == [] then [g]
    else if Le(g.last, gs[0].last) then
      assert forall x :: x in gs ==> Le(g.last, x.last);
      ConsSorted(g, gs);
      [g] + gs
    else
      var rest := InsertByLast(g, gs[1..]);
      assert gs == [gs[0]] + gs[1..];
      ConsSorted(gs[0], rest);
      [gs[0]] + rest
  }

  lemma ConsSorted(h: Group, rest: seq<Group>)
    requires SortedByLast(rest)
    requires forall x :: x in rest ==> Le(h.last, x.last)
    ensures SortedByLast([h] + rest)
  {
    forall i, j | 0 <= i < j < |[h] + rest| ensures Le(([h] + rest)[i].last, ([h] + rest)[j].last) {
      assert ([h] + rest)[j] == rest[j - 1];
      if i > 0 {
        assert ([h] + rest)[i] == rest[i - 1];
      }
    }
  }

  /** `order_by(SQL('last_date'))`: the groups, ascending by their last
      creation time. */
  function SortByLast(gs: seq<Group>): (r: seq<Group>)
    ensures SortedByLast(r)
    ensures multiset(r) == multiset(gs)
  {
    if gs == [] then []
    else
      assert gs == [gs[0]] + gs[1..];
      InsertByLast(gs[0], SortByLast(gs[1..]))
  }

  // ---------------------------------------------------------------------
  // the query

  /** The window's client as the id the query compares with. */
  function ClientId(w: Window): Option<int> {
    match w.client
    case None => None
    case Some(c) => Some(c.id)
  }

  /** `TaskTimeEntrySummaryMixin.query_set`: the window's entries, joined
      with their tasks, grouped by `dims`, ordered by last creation time. */
  function Query(rows: seq<EntryRow>, tasks: map<int, TaskRec>, w: Window, dims: seq<Dim>): (r: seq<Group>)
    ensures SortedByLast(r)
    ensures forall i, j :: 0 <= i < |r| && 0 <= j < |r| && KeyOf(r[i].rep, dims) == KeyOf(r[j].rep, dims) ==> r[i] == r[j]
  {
    var js := Join(TimeEntries(rows, ClientId(w), w.start, w.end), tasks);
    var gs := GroupBy(js, dims);
    GroupByCovers(js, dims);
    KeysIdentify(gs, SortByLast(gs), dims);
    SortByLast(gs)
  }

  /** The query's rows come sorted by last date and are exactly the groups
      of the joined entries of the window. */
  lemma QueryOrdered(rows: seq<EntryRow>, tasks: map<int, TaskRec>, w: Window, dims: seq<Dim>)
    ensures SortedByLast(Query(rows, tasks, w, dims))
    ensures multiset(Query(rows, tasks, w, dims)) == multiset(GroupBy(Join(TimeEntries(rows, ClientId(w), w.start, w.end), tasks), dims))
  {
  }

  /** Every result row stands for entries inside the window that have a
      task: the summary uses the same filter as the time-entry log, and the
      join drops the entries without a task. */
  lemma QueryRowsInWindow(rows: seq<EntryRow>, tasks: map<int, TaskRec>, w: Window, dims: seq<Dim>)
    ensures forall g :: g in Query(rows, tasks, w, dims) ==>
      && g.rep.entry in rows
      && InWindow(ClientId(w), w.start, w.end, g.rep.entry)
      && g.rep.entry.task.Some? && g.rep.entry.task.value in tasks
      && g.rep.task == tasks[g.rep.entry.task.value]
  {
    var q := Query(rows, tasks, w, dims);
    var es := TimeEntries(rows, ClientId(w), w.start, w.end);
    var gs := GroupBy(Join(es, tasks), dims);
    forall g | g in q
      ensures JoinedFrom(es, tasks, g.rep)
    {
      assert g in multiset(q);
      GroupRepJoined(es, tasks, dims, g);
    }
  }

  /** A group's representative row is one of the joined rows. */
  lemma GroupRepJoined(es: seq<EntryRow>, tasks: map<int, TaskRec>, dims: seq<Dim>, g: Group)
    requires g in GroupBy(Join(es, tasks), dims)
    ensures JoinedFrom(es, tasks, g.rep)
  {
    var gs := GroupBy(Join(es, tasks), dims);
    var i :| 0 <= i < |gs| && gs[i] == g;
  }

  // ---------------------------------------------------------------------
  // the three reports

  const TasksByClientDims: seq<Dim> := [TaskId, ClientOf]
  const DaysDims: seq<Dim> := [TaskId, ProjectOf, ClientOf, CreatedAtDate]
  const WeeksDims: seq<Dim> := [ClientOf, ProjectOf, CreatedAtWeekEndingDate]

  /** The levels the day and week reports file their result rows under. */
  const DayLevels: seq<Dim> := [CreatedAtDate, ClientOf, ProjectOf]
  const WeekLevels: seq<Dim> := [CreatedAtWeekEndingDate, ClientOf, ProjectOf]

  /** `getattr(row, column)` on a result row: the representative's value. */
  function GroupField(g: Group, d: Dim): Key {
    Field(g.rep, d)
  }

  /** `TasksByClient.query_set`: one row per task and client. */
  function TasksByClient(rows: seq<EntryRow>, tasks: map<int, TaskRec>, w: Window): (r: seq<Group>)
    ensures SortedByLast(r)
    ensures forall i, j :: 0 <= i < |r| && 0 <= j < |r| && KeyOf(r[i].rep, TasksByClientDims) == KeyOf(r[j].rep, TasksByClientDims) ==> r[i] == r[j]
  {
    Query(rows, tasks, w, TasksByClientDims)
  }

  /** A list whose keys are distinct identifies its rows by key, and so does
      every permutation of it. */
  lemma KeysIdentify(gs: seq<Group>, q: seq<Group>, dims: seq<Dim>)
    requires forall i, j :: 0 <= i < j < |gs| ==> KeyOf(gs[i].rep, dims) != KeyOf(gs[j].rep, dims)
    requires multiset(q) == multiset(gs)
    ensures forall i, j :: 0 <= i < |q| && 0 <= j < |q| && KeyOf(q[i].rep, dims) == KeyOf(q[j].rep, dims) ==> q[i] == q[j]
  {
    forall i, j | 0 <= i < |q| && 0 <= j < |q| && KeyOf(q[i].rep, dims) == KeyOf(q[j].rep, dims)
      ensures q[i] == q[j]
    {
      assert q[i] in multiset(gs) && q[j] in multiset(gs);
      var a :| 0 <= a < |gs| && gs[a] == q[i];
      var b :| 0 <= b < |gs| && gs[b] == q[j];
    }
  }

  /** The values of the outermost ordered map of a nesting. */
  function TopValues(t: Util.Tree<Key, Group>): (r: seq<Util.Tree<Key, Group>>)
    ensures t.Node? ==> |r| == |t.entries| && forall i :: 0 <= i < |r| ==> r[i] == t.entries[i].1
    ensures t.Node? ==> Concat(seq(|r|, i requires 0 <= i < |r| => Util.Flatten(r[i]))) == Util.Flatten(t)
    ensures t.Leaf? ==> r == []
  {
    if t.Leaf? then []
    else
      var r := seq(|t.entries|, i requires 0 <= i < |t.entries| => t.entries[i].1);
      assert seq(|r|, i requires 0 <= i < |r| => Util.Flatten(r[i]))
        == seq(|t.entries|, i requires 0 <= i < |t.entries| => Util.Flatten(t.entries[i].1));
      r
  }

  /** `DaysByClientProjectTask.query_set`: the task rows of each day, filed
      by client and project, one section per day. */
  function DaysByClientProjectTask(rows: seq<EntryRow>, tasks: map<int, TaskRec>, w: Window): (r: seq<Util.Tree<Key, Group>>)
    ensures Sectioned(Query(rows, tasks, w, DaysDims), r, CreatedAtDate)
    ensures forall i :: 0 <= i < |r| ==> Util.Filled(r[i], 2)
  {
    var q := Query(rows, tasks, w, DaysDims);
    assert DayLevels[0] == CreatedAtDate;
    Sections(q, DayLevels);
    SectionsFilled(q, DayLevels);
    TopValues(Util.Coalate(q, DayLevels, GroupField))
  }

  /** A lookup that is never consulted: aligning a window never resolves a
      client name. */
  function NoLookup(name: string): Result<int, LookupError> {
    Failure(ClientNotFound)
  }

  /** The window `WeeksByClientProject` queries: the given one aligned to
      week boundaries. */
  function WeekWindow(w: Window): (a: Window)
    ensures WellFormed(w) ==> a.client == w.client
    ensures a.start.Some? <==> w.start.Some?
    ensures a.end.Some? <==> w.end.Some?
    ensures a.start.Some? ==> Weekday(DayOf(a.start.value)) == 0
    ensures a.end.Some? ==> Weekday(DayOf(a.end.value)) == 6
  {
    WeekAlignmentCovers(w, NoLookup);
    AlignedToWeekBoundaries(w, NoLookup).value
  }

  /** `WeeksByClientProject.query_set`: the totals per client, project and
      week, one section per week. */
  function WeeksByClientProject(rows: seq<EntryRow>, tasks: map<int, TaskRec>, w: Window): (r: seq<Util.Tree<Key, Group>>)
    ensures Sectioned(Query(rows, tasks, WeekWindow(w), WeeksDims), r, CreatedAtWeekEndingDate)
    ensures forall i :: 0 <= i < |r| ==> Util.Filled(r[i], 2)
  {
    var q := Query(rows, tasks, WeekWindow(w), WeeksDims);
    assert WeekLevels[0] == CreatedAtWeekEndingDate;
    Sections(q, WeekLevels);
    SectionsFilled(q, WeekLevels);
    TopValues(Util.Coalate(q, WeekLevels, GroupField))
  }

  /** Building the week report from an already aligned window changes
      nothing. */
  lemma WeeksAlignOnce(rows: seq<EntryRow>, tasks: map<int, TaskRec>, w: Window)
    requires WellFormed(w)
    ensures WeeksByClientProject(rows, tasks, WeekWindow(w)) == WeeksByClientProject(rows, tasks, w)
  {
    WeekAlignmentIdempotent(w, NoLookup);
  }

  /** One section of a nesting by `levels`: the `i`-th distinct value of
      the outermost level, the rows filed under it, which are exactly the
      rows with that value, and its head row, which carries that value. */
  lemma {:induction false} Section(q: seq<Group>, levels: seq<Dim>, i: nat)
    requires levels != [] && i < |Util.FirstSeen(q, GroupField, levels[0])|
    ensures var r := TopValues(Util.Coalate(q, levels, GroupField));
      var d := Util.FirstSeen(q, GroupField, levels[0])[i];
      && i < |r|
      && (forall g :: g in Util.Flatten(r[i]) <==> g in q && GroupField(g, levels[0]) == d)
      && Util.Head(r[i]).Some? && GroupField(Util.Head(r[i]).value, levels[0]) == d
  {
    var d := Util.FirstSeen(q, GroupField, levels[0])[i];
    Util.GroupedSection(q, levels, GroupField, i);
    var t := Util.Grouped(q, levels, GroupField);
    var hs := Util.Having(q, GroupField, levels[0], d);
    assert multiset(Util.Flatten(t.entries[i].1)) == multiset(hs);
    forall g ensures g in Util.Flatten(t.entries[i].1) <==> g in q && GroupField(g, levels[0]) == d {
      assert g in Util.Flatten(t.entries[i].1) <==> g in multiset(hs);
      if g in q && GroupField(g, levels[0]) == d {
        var n :| 0 <= n < |q| && q[n] == g;
        Util.HavingContains(q, GroupField, levels[0], d, n);
      }
    }
  }

  /** `r` files the result rows `q` into sections by level `d`: one
      section per distinct value of `d`, in the order of the result rows,
      every result row in the section of its value and in no other, and the
      head row of each section, which titles it, carrying the value. */
  ghost predicate Sectioned(q: seq<Group>, r: seq<Util.Tree<Key, Group>>, d: Dim) {
    SectionedBy(q, r, d, Util.FirstSeen(q, GroupField, d))
  }

  /** `Sectioned` with the section keys `ds` named. */
  ghost predicate SectionedBy(q: seq<Group>, r: seq<Util.Tree<Key, Group>>, d: Dim, ds: seq<Key>) {
    && |r| == |ds| && Distinct(ds)
    && (forall g :: g in q ==> GroupField(g, d) in ds)
    && (forall i, g :: 0 <= i < |r| ==> (g in Util.Flatten(r[i]) <==> g in q && GroupField(g, d) == ds[i]))
    && (forall i :: 0 <= i < |r| ==> Util.Head(r[i]).Some? && GroupField(Util.Head(r[i]).value, d) == ds[i])
  }

  /** The rows of every section are result rows. */
  lemma SectionRowsIn(q: seq<Group>, r: seq<Util.Tree<Key, Group>>, d: Dim)
    requires Sectioned(q, r, d)
    ensures forall i, g :: 0 <= i < |r| && g in Util.Flatten(r[i]) ==> g in q
  {
    SectionedRows(q, r, d, Util.FirstSeen(q, GroupField, d));
  }

  lemma SectionedRows(q: seq<Group>, r: seq<Util.Tree<Key, Group>>, d: Dim, ds: seq<Key>)
    requires SectionedBy(q, r, d, ds)
    ensures forall i, g :: 0 <= i < |r| && g in Util.Flatten(r[i]) ==> g in q
  {
  }

  /** Nesting by levels files the result rows into sections by the
      outermost level. */
  lemma {:induction false} Sections(q: seq<Group>, levels: seq<Dim>)
    requires levels != []
    ensures Sectioned(q, TopValues(Util.Coalate(q, levels, GroupField)), levels[0])
  {
    var ds := Util.FirstSeen(q, GroupField, levels[0]);
    Util.GroupedKeys(q, levels, GroupField);
    forall i | 0 <= i < |ds| {
      Section(q, levels, i);
    }
  }

  /** Every section of a nesting by three levels is filled: a map of
      clients, each a map of projects, each a non-empty list of rows. */
  lemma SectionsFilled(q: seq<Group>, levels: seq<Dim>)
    requires |levels| == 3
    ensures var r := TopValues(Util.Coalate(q, levels, GroupField));
      forall i :: 0 <= i < |r| ==> Util.Filled(r[i], 2)
  {
    Util.GroupedShape(q, levels, GroupField);
    if q != [] {
      Util.GroupedFilled(q, levels, GroupField);
    }
  }
}

=== FILE: table_store.dfy ===
/** The relational store underneath the cache: a set of tables, each a map
    from primary key to row. A table exists exactly when it is a key of
    `tables`. Statements run in their own transaction, so an operation that
    fails leaves the store as it was (a `Failure` carries no new store). */
module TableStore {
  import opened Wrappers

  datatype StoreError = NoSuchTable | IntegrityError

  datatype Store<T, K, R> = Store(tables: map<T, map<K, R>>)

  /** Primary keys of a batch of rows. */
  function KeysOf<K, R>(rows: seq<R>, pk: R -> K): set<K> {
    set i | 0 <= i < |rows| :: pk(rows[i])
  }

  /** The last row of the batch with primary key `k`, if any: the row that
      wins when a batch holds the same key twice. */
  function LastWithKey<K(==), R>(rows: seq<R>, pk: R -> K, k: K): (r: Option<R>)
    ensures r.None? <==> k !in KeysOf(rows, pk)
    ensures r.Some? ==> r.value in rows && pk(r.value) == k
    ensures r.Some? ==> exists i :: 0 <= i < |rows| && rows[i] == r.value && pk(rows[i]) == k
                          && forall j :: i < j < |rows| ==> pk(rows[j]) != k
  {
    if rows == [] then None
    else
      match LastWithKey(rows[1..], pk, k)
      case Some(x) => Some(x)
      case None => if pk(rows[0]) == k then Some(rows[0]) else None
  }

  /** Writes the batch in order, each row replacing whatever row had its key. */
  function Replace<K, R>(table: map<K, R>, rows: seq<R>, pk: R -> K): (r: map<K, R>)
    ensures r.Keys == table.Keys + KeysOf(rows, pk)
    ensures forall k :: k in r ==>
      r[k] == (match LastWithKey(rows, pk, k) case Some(x) => x case None => table[k])
    decreases |rows|
  {
    if rows == [] then table
    else
      var r := Replace(table[pk(rows[0]) := rows[0]], rows[1..], pk);
      assert KeysOf(rows, pk) == {pk(rows[0])} + KeysOf(rows[1..], pk) by {
        forall k | k in KeysOf(rows, pk) ensures k in {pk(rows[0])} + KeysOf(rows[1..], pk) {
          var i :| 0 <= i < |rows| && pk(rows[i]) == k;
          if i > 0 { assert pk(rows[1..][i - 1]) == k; }
        }
        forall k | k in KeysOf(rows[1..], pk) ensures k in KeysOf(rows, pk) {
          var i :| 0 <= i < |rows[1..]| && pk(rows[1..][i]) == k;
          assert pk(rows[i + 1]) == k;
        }
      }
      r
  }

  /** Insert-or-replace keyed by primary key, as one transaction. An empty
      batch touches nothing, not even the table's existence check. */
  function Upsert<T, K, R>(s: Store<T, K, R>, t: T, rows: seq<R>, pk: R -> K): (r: Result<Store<T, K, R>, StoreError>)
    ensures rows == [] ==> r == Success(s)
    ensures rows != [] ==> (r.Failure? <==> t !in s.tables)
    ensures r.Failure? ==> r.error == NoSuchTable
    ensures r.Success? ==> r.value.tables.Keys == s.tables.Keys
    ensures r.Success? ==> forall u :: u in s.tables && u != t ==> r.value.tables[u] == s.tables[u]
    ensures r.Success? && t in s.tables ==>
      && r.value.tables[t].Keys == s.tables[t].Keys + KeysOf(rows, pk)
      && (forall k :: k in KeysOf(rows, pk) ==> Some(r.value.tables[t][k]) == LastWithKey(rows, pk, k))
      && (forall k :: k in s.tables[t] && k !in KeysOf(rows, pk) ==> r.value.tables[t][k] == s.tables[t][k])
  {
    if |rows| == 0 then Success(s)
    else if t !in s.tables then Failure(NoSuchTable)
    else Success(Store(s.tables[t := Replace(s.tables[t], rows, pk)]))
  }

  /** Some row of the batch collides with a stored row or with another row of the batch. */
  predicate Conflicts<K(==), R>(table: map<K, R>, rows: seq<R>, pk: R -> K) {
    || (exists i :: 0 <= i < |rows| && pk(rows[i]) in table)
    || (exists i, j :: 0 <= i < j < |rows| && pk(rows[i]) == pk(rows[j]))
  }

  /** Plain insert, as one transaction: a key collision aborts the whole batch. */
  function Insert<T, K, R>(s: Store<T, K, R>, t: T, rows: seq<R>, pk: R -> K): (r: Result<Store<T, K, R>, StoreError>)
    ensures rows == [] ==> r == Success(s)
    ensures rows != [] && t !in s.tables ==> r == Failure(NoSuchTable)
    ensures rows != [] && t in s.tables ==>
      (r.Failure? <==> Conflicts(s.tables[t], rows, pk))
    ensures r.Failure? ==> rows != []
    ensures r.Success? && rows != [] ==>
      && t in s.tables
      && r.value.tables.Keys == s.tables.Keys
      && (forall u :: u in s.tables && u != t ==> r.value.tables[u] == s.tables[u])
      && r.value.tables[t].Keys == s.tables[t].Keys + KeysOf(rows, pk)
      && (forall k :: k in s.tables[t] ==> r.value.tables[t][k] == s.tables[t][k])
      && (forall i :: 0 <= i < |rows| ==> r.value.tables[t][pk(rows[i])] == rows[i])
  {
    if |rows| == 0 then Success(s)
    else if t !in s.tables then Failure(NoSuchTable)
    else if Conflicts(s.tables[t], rows, pk) then Failure(IntegrityError)
    else
      var table' := Replace(s.tables[t], rows, pk);
      assert forall i :: 0 <= i < |rows| ==> table'[pk(rows[i])] == rows[i] by {
        forall i | 0 <= i < |rows| ensures table'[pk(rows[i])] == rows[i] {
          var k := pk(rows[i]);
          assert k in KeysOf(rows, pk);
          var w := LastWithKey(rows, pk, k).value;
          var j :| 0 <= j < |rows| && rows[j] == w;
          assert i == j;
        }
      }
      Success(Store(s.tables[t := table']))
  }

  /** Row count of a table, as `SELECT COUNT(*)`: a missing table is an error. */
  function Count<T, K, R>(s: Store<T, K, R>, t: T): (r: Result<nat, StoreError>)
    ensures r.Success? <==> t in s.tables
    ensures r.Success? ==> r.value == |s.tables[t]|
  {
    if t in s.tables then Success(|s.tables[t]|) else Failure(NoSuchTable)
  }

  /** Upserting the same batch twice leaves the store as upserting it once. */
  lemma UpsertIdempotent<T, K, R>(s: Store<T, K, R>, t: T, rows: seq<R>, pk: R -> K)
    requires Upsert(s, t, rows, pk).Success?
    ensures Upsert(Upsert(s, t, rows, pk).value, t, rows, pk) == Upsert(s, t, rows, pk)
  {
    if rows != [] {
      var s1 := Upsert(s, t, rows, pk).value;
      var s2 := Upsert(s1, t, rows, pk).value;
      assert s2.tables[t] == s1.tables[t];
      assert s2.tables == s1.tables;
    }
  }

  /** Upsert is additive: rows already stored under other keys survive. */
  lemma UpsertKeepsOtherRows<T, K, R>(s: Store<T, K, R>, t: T, rows: seq<R>, pk: R -> K, k: K)
    requires t in s.tables && k in s.tables[t]
    requires forall i :: 0 <= i < |rows| ==> pk(rows[i]) != k
    ensures Upsert(s, t, rows, pk).Success?
    ensures k in Upsert(s, t, rows, pk).value.tables[t]
    ensures Upsert(s, t, rows, pk).value.tables[t][k] == s.tables[t][k]
  {
  }
}

=== FILE: text.dfy ===
/** The text a report prints that is not floating point: the byte length of
    a UTF-8 encoded header, the dash bar drawn to that length, Python's
    `%0Nd` integer formatting and `str(date)`, the ISO form YYYY-MM-DD. */
module Text {
  import opened Wrappers
  import opened Date

  // ---------------------------------------------------------------------
  // UTF-8 length and the header bar

  /** Bytes UTF-8 spends on one Unicode scalar value. */
  function Utf8Width(c: char): (n: nat)
    ensures 1 <= n <= 4
    ensures n == 1 <==> (c as int) < 0x80
  {
    if (c as int) < 0x80 then 1
    else if (c as int) < 0x800 then 2
    else if (c as int) < 0x1_0000 then 3
    else 4
  }

  /** `len(s.encode('utf8'))`. */
  function Utf8Length(s: string): (n: nat)
    ensures |s| <= n <= 4 * |s|
  {
    if s == [] then 0 else Utf8Width(s[0]) + Utf8Length(s[1..])
  }

  predicate Ascii(s: string) {
    forall i :: 0 <= i < |s| ==> (s[i] as int) < 0x80
  }

  /** An encoded header is exactly as long as its text when the text is
      ASCII, and strictly longer as soon as one character is not. */
  lemma {:induction false} Utf8LengthAscii(s: string)
    ensures Utf8Length(s) == |s| <==> Ascii(s)
  {
    if s != [] {
      Utf8LengthAscii(s[1..]);
      if Ascii(s) {
        assert Ascii(s[1..]) by {
          forall i | 0 <= i < |s[1..]| ensures (s[1..][i] as int) < 0x80 {
            assert s[1..][i] == s[i + 1];
          }
        }
      } else if Ascii(s[1..]) {
        assert (s[0] as int) >= 0x80 by {
          forall i | 1 <= i < |s| ensures (s[i] as int) < 0x80 {
            assert s[i] == s[1..][i - 1];
          }
        }
      }
    }
  }

  lemma {:induction false} Utf8LengthAppend(a: string, b: string)
    ensures Utf8Length(a + b) == Utf8Length(a) + Utf8Length(b)
  {
    if a == [] {
      assert a + b == b;
    } else {
      assert (a + b)[0] == a[0];
      assert (a + b)[1..] == a[1..] + b;
      Utf8LengthAppend(a[1..], b);
    }
  }

  /** `'-' * n`. */
  function Dashes(n: nat): (b: string)
    ensures |b| == n
    ensures forall i :: 0 <= i < n ==> b[i] == '-'
  {
    if n == 0 then "" else Dashes(n - 1) + "-"
  }

  /** The bar above and below a header: as many dashes as the encoded header
      has bytes. */
  function Bar(header: string): (b: string)
    ensures |b| == Utf8Length(header)
    ensures forall i :: 0 <= i < |b| ==> b[i] == '-'
  {
    Dashes(Utf8Length(header))
  }

  // ---------------------------------------------------------------------
  // decimal digits

  function Pow10(n: nat): (p: nat)
    ensures p >= 1
  {
    if n == 0 then 1 else 10 * Pow10(n - 1)
  }

  function DigitChar(d: nat): (c: char)
    requires d < 10
  {
    "0123456789"[d]
  }

  /** The value of a digit, or nothing for any other character. */
  function DigitValue(c: char): (r: Option<nat>)
    ensures r.Some? ==> r.value < 10
    ensures r.Some? <==> '0' <= c <= '9'
  {
    if '0' <= c <= '9' then Some(c as int - '0' as int) else None
  }

  /** A digit reads back as its value. */
  lemma DigitRoundTrip(d: nat)
    requires d < 10
    ensures DigitValue(DigitChar(d)) == Some(d)
  {
  }

  /** The last `w` decimal digits of `n`, most significant first. */
  function Fixed(n: nat, w: nat): (s: string)
    ensures |s| == w
  {
    if w == 0 then "" else Fixed(n / 10, w - 1) + [DigitChar(n % 10)]
  }

  /** Number of digits Python prints for `n`: one for 0. */
  function NumDigits(n: nat): (k: nat)
    ensures k >= 1
    ensures n < Pow10(k)
    ensures k > 1 ==> Pow10(k - 1) <= n
  {
    if n < 10 then 1 else 1 + NumDigits(n / 10)
  }

  /** Python's `'%0*d' % (w, n)`: at least `w` characters, zero padded, a
      minus sign in front of a negative number counted in the width. */
  function PadInt(n: int, w: nat): (s: string)
    ensures 0 <= n < Pow10(w) && w >= 1 ==> s == Fixed(n, w)
    ensures |s| >= w
  {
    FitsWidth(n, w);
    if n < 0 then
      var k := if w >= 1 then w - 1 else 0;
      "-" + Fixed(-n, Max(k, NumDigits(-n)))
    else Fixed(n, Max(w, NumDigits(n)))
  }

  /** A number below 10^w needs no more than w digits. */
  lemma FitsWidth(n: int, w: nat)
    ensures 0 <= n < Pow10(w) && w >= 1 ==> NumDigits(n) <= w
  {
    if 0 <= n < Pow10(w) && w >= 1 {
      var k := NumDigits(n);
      if k > w {
        Pow10Monotone(w, k - 1);
      }
    }
  }

  lemma {:induction false} Pow10Monotone(a: nat, b: nat)
    requires a <= b
    ensures Pow10(a) <= Pow10(b)
    decreases b
  {
    if a < b {
      Pow10Monotone(a, b - 1);
    }
  }

  function Max(a: nat, b: nat): nat {
    if a >= b then a else b
  }

  /** The number a string of digits spells, or nothing when a character is
      not a digit. */
  function Value(s: string): (r: Option<nat>)
  {
    if s == [] then Some(0)
    else match (Value(s[..|s| - 1]), DigitValue(s[|s| - 1]))
      case (Some(init), Some(d)) => Some(init * 10 + d)
      case _ => None
  }

  /** Reading back `w` fixed digits gives the number when it fits. */
  lemma {:induction false} ValueFixed(n: nat, w: nat)
    requires n < Pow10(w)
    ensures Value(Fixed(n, w)) == Some(n)
  {
    if w > 0 {
      var s := Fixed(n, w);
      assert s[..|s| - 1] == Fixed(n / 10, w - 1);
      assert n / 10 < Pow10(w - 1);
      ValueFixed(n / 10, w - 1);
      DigitRoundTrip(n % 10);
    }
  }

  // ---------------------------------------------------------------------
  // dates

  /** `str(date)`: the year, month and day as `%04d-%02d-%02d`. */
  function DateText(day: int): (s: string)
    ensures 1 <= CivilFromDays(day).year <= 9999 ==> |s| == 10 && s[4] == '-' && s[7] == '-'
  {
    var c := CivilFromDays(day);
    PadInt(c.year, 4) + "-" + PadInt(c.month, 2) + "-" + PadInt(c.dom, 2)
  }

  /** `str(datetime)`: the date, a space, `%02d:%02d:%02d` for the time of
      day, and `.%06d` microseconds only when there are any. */
  function DateTimeText(t: DateTime): (s: string)
    ensures 1 <= CivilFromDays(t.day).year <= 9999 ==>
      && |s| == (if t.micros % 1_000_000 == 0 then 19 else 26)
      && s[..10] == DateText(t.day) && s[10] == ' ' && s[13] == ':' && s[16] == ':'
  {
    var secs := t.micros / 1_000_000;
    var us := t.micros % 1_000_000;
    var clock := PadInt(secs / 3600, 2) + ":" + PadInt(secs / 60 % 60, 2) + ":" + PadInt(secs % 60, 2);
    DateText(t.day) + " " + clock + (if us == 0 then "" else "." + PadInt(us, 6))
  }

  /** Reads YYYY-MM-DD back into a day number. */
  function ParseDateText(s: string): (r: Option<int>)
  {
    if |s| != 10 || s[4] != '-' || s[7] != '-' then None
    else
      match (Value(s[..4]), Value(s[5..7]), Value(s[8..]))
      case (Some(y), Some(m), Some(d)) =>
        var c := Civil(y, m, d);
        if ValidCivil(c) then Some(DaysFromCivil(c)) else None
      case _ => None
  }

  /** A date of Python's range reads back as itself. */
  lemma DateTextRoundTrip(day: int)
    requires 1 <= CivilFromDays(day).year <= 9999
    ensures ParseDateText(DateText(day)) == Some(day)
  {
    var c := CivilFromDays(day);
    DateTextFixed(day);
    DateTextFields(Fixed(c.year, 4), Fixed(c.month, 2), Fixed(c.dom, 2));
    ValueFixed(c.year, 4);
    ValueFixed(c.month, 2);
    ValueFixed(c.dom, 2);
  }

  /** Every field of a date of Python's range fits its width, so no field
      is widened. */
  lemma DateTextFixed(day: int)
    requires 1 <= CivilFromDays(day).year <= 9999
    ensures var c := CivilFromDays(day);
      && c.year < Pow10(4) && c.month < Pow10(2) && c.dom < Pow10(2)
      && DateText(day) == Fixed(c.year, 4) + "-" + Fixed(c.month, 2) + "-" + Fixed(c.dom, 2)
  {
    assert Pow10(2) == 100;
    assert Pow10(4) == 10000;
  }

  lemma DateTextFields(y: string, m: string, d: string)
    requires |y| == 4 && |m| == 2 && |d| == 2
    ensures var s := y + "-" + m + "-" + d;
      && |s| == 10 && s[4] == '-' && s[7] == '-'
      && s[..4] == y && s[5..7] == m && s[8..] == d
  {
    var s := y + "-" + m + "-" + d;
    assert s[..4] == y;
    assert s[5..7] == m;
    assert s[8..] == d;
  }
}

=== FILE: util.dfy ===
/** freshtools/util.py: the lookahead iterator, `coalate` (stable nested
    grouping of a flat row sequence), the foreign-key dependency order and
    the idempotent table create/drop loops. */
module Util {
  import opened Wrappers
  import opened Seqs
  import opened TableStore

  // ---------------------------------------------------------------------
  // lookahead

  /** Pairs every element with whether another element follows it; an
      empty input yields nothing. */
  function Lookahead<T>(xs: seq<T>): (r: seq<(T, bool)>)
    ensures |r| == |xs|
    ensures forall i :: 0 <= i < |r| ==> r[i].0 == xs[i]
    ensures forall i :: 0 <= i < |r| ==> (r[i].1 <==> i < |xs| - 1)
  {
    if xs == [] then [] else LookaheadFrom(xs[0], xs[1..])
  }

  /** The generator's loop: `last` is held back until the next value shows
      that it was not the final one. */
  function LookaheadFrom<T>(last: T, rest: seq<T>): (r: seq<(T, bool)>)
    ensures |r| == |rest| + 1
    ensures forall i :: 0 <= i < |r| ==> r[i].0 == ([last] + rest)[i]
    ensures forall i :: 0 <= i < |r| ==> (r[i].1 <==> i < |rest|)
    decreases |rest|
  {
    if rest == [] then [(last, false)]
    else [(last, true)] + LookaheadFrom(rest[0], rest[1..])
  }

  // ---------------------------------------------------------------------
  // coalate: the reference grouping

  /** The value of dimension `f` for each row, in row order. */
  function ValuesOf<R, F, K>(rows: seq<R>, field: (R, F) -> K, f: F): (vs: seq<K>)
    ensures |vs| == |rows|
    ensures forall i :: 0 <= i < |rows| ==> vs[i] == field(rows[i], f)
  {
    seq(|rows|, i requires 0 <= i < |rows| => field(rows[i], f))
  }

  /** The distinct values of dimension `f`, in first-encounter order. */
  function FirstSeen<R, F, K(==)>(rows: seq<R>, field: (R, F) -> K, f: F): seq<K> {
    Dedup(ValuesOf(rows, field, f))
  }

  /** The rows whose dimension `f` equals `k`, in their input order. */
  function Having<R, F, K(==)>(rows: seq<R>, field: (R, F) -> K, f: F, k: K): (r: seq<R>)
    ensures |r| <= |rows|
    ensures forall i :: 0 <= i < |r| ==> r[i] in rows && field(r[i], f) == k
    decreases |rows|
  {
    if rows == [] then []
    else
      Having(rows[..|rows| - 1], field, f, k)
        + (if field(rows[|rows| - 1], f) == k then [rows[|rows| - 1]] else [])
  }

  /** The key values of a row along the grouping dimensions. */
  function Path<R, F, K>(row: R, dims: seq<F>, field: (R, F) -> K): (p: seq<K>)
    ensures |p| == |dims|
    ensures forall i :: 0 <= i < |dims| ==> p[i] == field(row, dims[i])
  {
    if dims == [] then [] else [field(row, dims[0])] + Path(row, dims[1..], field)
  }

  /** A nested ordered map: `Node` is an ordered dictionary from key to
      subtree, `Leaf` the innermost list of rows. */
  datatype Tree<K, R> = Leaf(rows: seq<R>) | Node(entries: seq<(K, Tree<K, R>)>)

  /** Reference definition of grouping: one level per dimension; at each
      level the keys in first-encounter order, each mapped to the grouping
      of the rows that carry that key. */
  function Grouped<R, F, K(==)>(rows: seq<R>, dims: seq<F>, field: (R, F) -> K): Tree<K, R>
    decreases |dims|
  {
    if dims == [] then Leaf(rows)
    else
      var ks := FirstSeen(rows, field, dims[0]);
      Node(seq(|ks|, i requires 0 <= i < |ks| =>
        (ks[i], Grouped(Having(rows, field, dims[0], ks[i]), dims[1..], field))))
  }

  /** A tree nested exactly `depth` levels of ordered maps above its leaves. */
  ghost predicate Shaped<K, R>(t: Tree<K, R>, depth: nat)
    decreases depth
  {
    if depth == 0 then t.Leaf?
    else t.Node? && forall i :: 0 <= i < |t.entries| ==> Shaped(t.entries[i].1, depth - 1)
  }

  /** The keys of one level of the tree, in order. */
  function KeysOfLevel<K, R>(es: seq<(K, Tree<K, R>)>): (ks: seq<K>)
    ensures |ks| == |es|
    ensures forall i :: 0 <= i < |es| ==> ks[i] == es[i].0
  {
    seq(|es|, i requires 0 <= i < |es| => es[i].0)
  }

  /** The rows of all leaves, left to right. */
  function Flatten<K, R>(t: Tree<K, R>): seq<R>
    decreases t
  {
    match t
    case Leaf(rs) => rs
    case Node(es) => Concat(seq(|es|, i requires 0 <= i < |es| => Flatten(es[i].1)))
  }

  /** Index of the entry with key `k` at one level of the tree. */
  function Lookup<K(==), R>(es: seq<(K, Tree<K, R>)>, k: K): (r: Option<nat>)
    ensures r.Some? ==> r.value < |es| && es[r.value].0 == k
    ensures r.None? ==> forall i :: 0 <= i < |es| ==> es[i].0 != k
  {
    if es == [] then None
    else if es[0].0 == k then Some(0)
    else match Lookup(es[1..], k)
      case None => None
      case Some(i) => Some(i + 1)
  }

  /** The list at the end of `path`, if the tree has one there. */
  function LeafAt<K(==), R>(t: Tree<K, R>, path: seq<K>): Option<seq<R>>
    decreases |path|
  {
    match t
    case Leaf(rs) => if path == [] then Some(rs) else None
    case Node(es) =>
      if path == [] then None
      else match Lookup(es, path[0])
        case None => None
        case Some(i) => LeafAt(es[i].1, path[1..])
  }

  /** The rows whose key values along `dims` are exactly `path`, in input order. */
  function Matching<R, F, K(==)>(rows: seq<R>, dims: seq<F>, field: (R, F) -> K, path: seq<K>): seq<R>
    decreases |rows|
  {
    if rows == [] then []
    else
      Matching(rows[..|rows| - 1], dims, field, path)
        + (if Path(rows[|rows| - 1], dims, field) == path then [rows[|rows| - 1]] else [])
  }

  // ---------------------------------------------------------------------
  // coalate: the loop of the source

  /** What a new key is bound to: an ordered map while dimensions remain
      below it, otherwise an empty list. */
  function Fresh<K, R>(depth: nat): Tree<K, R> {
    if depth == 0 then Leaf([]) else Node([])
  }

  /** Walks `path` down from the root, adding missing keys at the end of
      their level, and appends the row to the list it reaches. A path that
      does not fit the tree's depth leaves it alone; `coalate` never builds one. */
  function Insert<K(==), R>(t: Tree<K, R>, path: seq<K>, row: R): Tree<K, R>
    decreases |path|, 1, 0
  {
    match t
    case Leaf(rs) => if path == [] then Leaf(rs + [row]) else t
    case Node(es) => if path == [] then t else Node(InsertEntry(es, path, row))
  }

  function InsertEntry<K(==), R>(es: seq<(K, Tree<K, R>)>, path: seq<K>, row: R): seq<(K, Tree<K, R>)>
    requires path != []
    decreases |path|, 0, |es|
  {
    if es == [] then [(path[0], Insert(Fresh(|path| - 1), path[1..], row))]
    else if es[0].0 == path[0] then [(es[0].0, Insert(es[0].1, path[1..], row))] + es[1..]
    else [es[0]] + InsertEntry(es[1..], path, row)
  }

  /** `coalate(rows, dims)`: with no dimensions the rows come back unchanged;
      otherwise every row is filed in turn under its key path. The result is
      the reference grouping. */
  function Coalate<R, F, K(==)>(rows: seq<R>, dims: seq<F>, field: (R, F) -> K): (t: Tree<K, R>)
    ensures t == Grouped(rows, dims, field)
  {
    if dims == [] then Leaf(rows) else CoalateRows(rows, dims, field)
  }

  function CoalateRows<R, F, K(==)>(rows: seq<R>, dims: seq<F>, field: (R, F) -> K): (t: Tree<K, R>)
    requires dims != []
    ensures t == Grouped(rows, dims, field)
    decreases |rows|
  {
    if rows == [] then
      GroupedEmpty(dims, field);
      Node([])
    else
      var init := rows[..|rows| - 1];
      var last := rows[|rows| - 1];
      var t0 := CoalateRows(init, dims, field);
      InsertGrouped(init, last, dims, field);
      InitLast(rows);
      Insert(t0, Path(last, dims, field), last)
  }

  // ---------------------------------------------------------------------
  // coalate: proofs

  lemma HavingSnoc<R, F, K>(rows: seq<R>, x: R, field: (R, F) -> K, f: F, k: K)
    ensures Having(rows + [x], field, f, k)
      == Having(rows, field, f, k) + (if field(x, f) == k then [x] else [])
  {
    assert (rows + [x])[..|rows|] == rows;
  }

  lemma FirstSeenSnoc<R, F, K>(rows: seq<R>, x: R, field: (R, F) -> K, f: F)
    ensures FirstSeen(rows + [x], field, f)
      == if field(x, f) in FirstSeen(rows, field, f) then FirstSeen(rows, field, f)
         else FirstSeen(rows, field, f) + [field(x, f)]
  {
    assert ValuesOf(rows + [x], field, f) == ValuesOf(rows, field, f) + [field(x, f)];
    DedupSnoc(ValuesOf(rows, field, f), field(x, f));
  }

  /** A key that no row carries selects no rows. */
  lemma HavingUnseen<R, F, K>(rows: seq<R>, field: (R, F) -> K, f: F, k: K)
    requires k !in FirstSeen(rows, field, f)
    ensures Having(rows, field, f, k) == []
  {
  }

  lemma GroupedEmpty<R, F, K>(dims: seq<F>, field: (R, F) -> K)
    ensures Grouped([], dims, field) == Fresh(|dims|)
  {
  }

  lemma InsertEntryFound<K, R>(es: seq<(K, Tree<K, R>)>, path: seq<K>, row: R, j: nat)
    requires path != [] && j < |es| && es[j].0 == path[0]
    requires forall i :: 0 <= i < j ==> es[i].0 != path[0]
    ensures InsertEntry(es, path, row) == es[j := (path[0], Insert(es[j].1, path[1..], row))]
    decreases j
  {
    if j > 0 {
      InsertEntryFound(es[1..], path, row, j - 1);
      assert [es[0]] + es[1..][j - 1 := (path[0], Insert(es[j].1, path[1..], row))]
        == es[j := (path[0], Insert(es[j].1, path[1..], row))];
    }
  }

  lemma InsertEntryNew<K, R>(es: seq<(K, Tree<K, R>)>, path: seq<K>, row: R)
    requires path != []
    requires forall i :: 0 <= i < |es| ==> es[i].0 != path[0]
    ensures InsertEntry(es, path, row) == es + [(path[0], Insert(Fresh(|path| - 1), path[1..], row))]
    decreases |es|
  {
    if es != [] {
      InsertEntryNew(es[1..], path, row);
      assert [es[0]] + es[1..] == es;
    }
  }

  /** Filing one more row into the grouping of `rows` gives the grouping of
      `rows` followed by that row: the step of the source's loop. */
  lemma {:induction false} InsertGrouped<R, F, K>(rows: seq<R>, x: R, dims: seq<F>, field: (R, F) -> K)
    ensures Insert(Grouped(rows, dims, field), Path(x, dims, field), x) == Grouped(rows + [x], dims, field)
    decreases |dims|
  {
    if dims != [] {
      var k := field(x, dims[0]);
      var ks := FirstSeen(rows, field, dims[0]);
      if k in ks {
        InsertGrouped(Having(rows, field, dims[0], k), x, dims[1..], field);
        InsertGroupedSeen(rows, x, dims, field, FirstIndex(ks, k));
      } else {
        InsertGrouped([], x, dims[1..], field);
        InsertGroupedUnseen(rows, x, dims, field);
      }
    }
  }

  lemma InsertGroupedSeen<R, F, K>(rows: seq<R>, x: R, dims: seq<F>, field: (R, F) -> K, j: nat)
    requires dims != []
    requires j < |FirstSeen(rows, field, dims[0])|
    requires FirstSeen(rows, field, dims[0])[j] == field(x, dims[0])
    requires Insert(Grouped(Having(rows, field, dims[0], field(x, dims[0])), dims[1..], field), Path(x, dims[1..], field), x)
      == Grouped(Having(rows, field, dims[0], field(x, dims[0])) + [x], dims[1..], field)
    ensures Insert(Grouped(rows, dims, field), Path(x, dims, field), x) == Grouped(rows + [x], dims, field)
  {
    SeenFound(rows, x, dims, field, j);
    SeenEntryHit(rows, x, dims, field, j);
    SeenSnoc(rows, x, dims, field, j);
    NodeUpdate(Grouped(rows, dims, field), Grouped(rows + [x], dims, field), Path(x, dims, field), x, j);
  }

  /** Filing a row that changes only entry `j` of a level, into what entry
      `j` of `t'` holds, gives `t'`. */
  lemma NodeUpdate<K, R>(t: Tree<K, R>, t': Tree<K, R>, p: seq<K>, x: R, j: nat)
    requires t.Node? && t'.Node? && p != [] && j < |t.entries| == |t'.entries|
    requires Insert(t, p, x) == Node(t.entries[j := (p[0], Insert(t.entries[j].1, p[1..], x))])
    requires (p[0], Insert(t.entries[j].1, p[1..], x)) == t'.entries[j]
    requires forall i :: 0 <= i < |t.entries| && i != j ==> t.entries[i] == t'.entries[i]
    ensures Insert(t, p, x) == t'
  {
    assert t.entries[j := t'.entries[j]] == t'.entries;
  }

  lemma SeenFound<R, F, K>(rows: seq<R>, x: R, dims: seq<F>, field: (R, F) -> K, j: nat)
    requires dims != []
    requires j < |FirstSeen(rows, field, dims[0])|
    requires FirstSeen(rows, field, dims[0])[j] == field(x, dims[0])
    ensures Grouped(rows, dims, field).Node?
    ensures var es := Grouped(rows, dims, field).entries;
      var p := Path(x, dims, field);
      j < |es| && p != [] && Insert(Grouped(rows, dims, field), p, x) == Node(es[j := (p[0], Insert(es[j].1, p[1..], x))])
  {
    var ks := FirstSeen(rows, field, dims[0]);
    var es := Grouped(rows, dims, field).entries;
    var p := Path(x, dims, field);
    assert p[0] == field(x, dims[0]);
    assert Distinct(ks);
    forall i | 0 <= i < j ensures es[i].0 != p[0] {
      GroupedEntry(rows, dims, field, i);
    }
    GroupedEntry(rows, dims, field, j);
    InsertEntryFound(es, p, x, j);
  }

  lemma SeenEntryHit<R, F, K>(rows: seq<R>, x: R, dims: seq<F>, field: (R, F) -> K, j: nat)
    requires dims != []
    requires j < |FirstSeen(rows, field, dims[0])|
    requires FirstSeen(rows, field, dims[0])[j] == field(x, dims[0])
    requires Insert(Grouped(Having(rows, field, dims[0], field(x, dims[0])), dims[1..], field), Path(x, dims[1..], field), x)
      == Grouped(Having(rows, field, dims[0], field(x, dims[0])) + [x], dims[1..], field)
    ensures Grouped(rows, dims, field).Node?
    ensures var es := Grouped(rows, dims, field).entries;
      var p := Path(x, dims, field);
      j < |es| && p != [] && (p[0], Insert(es[j].1, p[1..], x)) == (field(x, dims[0]), Grouped(Having(rows, field, dims[0], field(x, dims[0])) + [x], dims[1..], field))
  {
    var p := Path(x, dims, field);
    assert p[0] == field(x, dims[0]) && p[1..] == Path(x, dims[1..], field);
    GroupedEntry(rows, dims, field, j);
  }

  /** Appending a row whose key is already present changes only that key's entry. */
  lemma SeenSnoc<R, F, K>(rows: seq<R>, x: R, dims: seq<F>, field: (R, F) -> K, j: nat)
    requires dims != []
    requires j < |FirstSeen(rows, field, dims[0])|
    requires FirstSeen(rows, field, dims[0])[j] == field(x, dims[0])
    ensures Grouped(rows, dims, field).Node? && Grouped(rows + [x], dims, field).Node?
    ensures var es := Grouped(rows, dims, field).entries;
      var es' := Grouped(rows + [x], dims, field).entries;
      && j < |es| == |es'|
      && es'[j] == (field(x, dims[0]), Grouped(Having(rows, field, dims[0], field(x, dims[0])) + [x], dims[1..], field))
      && forall i :: 0 <= i < |es| && i != j ==> es[i] == es'[i]
  {
    var f := dims[0];
    FirstSeenSnoc(rows, x, field, f);
    GroupedEntry(rows + [x], dims, field, j);
    HavingSnoc(rows, x, field, f, field(x, f));
    var es := Grouped(rows, dims, field).entries;
    var es' := Grouped(rows + [x], dims, field).entries;
    forall i | 0 <= i < |es| && i != j ensures es[i] == es'[i] {
      SeenOther(rows, x, dims, field, j, i);
    }
  }

  lemma SeenOther<R, F, K>(rows: seq<R>, x: R, dims: seq<F>, field: (R, F) -> K, j: nat, i: nat)
    requires dims != []
    requires j < |FirstSeen(rows, field, dims[0])|
    requires FirstSeen(rows, field, dims[0])[j] == field(x, dims[0])
    requires i < |FirstSeen(rows, field, dims[0])| && i != j
    ensures Grouped(rows, dims, field).Node? && Grouped(rows + [x], dims, field).Node?
    ensures i < |Grouped(rows, dims, field).entries| && i < |Grouped(rows + [x], dims, field).entries|
    ensures Grouped(rows, dims, field).entries[i] == Grouped(rows + [x], dims, field).entries[i]
  {
    var f := dims[0];
    var ks := FirstSeen(rows, field, f);
    FirstSeenSnoc(rows, x, field, f);
    assert ks[i] != ks[j];
    HavingSnoc(rows, x, field, f, ks[i]);
    var h := Having(rows, field, f, ks[i]);
    assert Having(rows + [x], field, f, ks[i]) == h + [];
    assert h + [] == h;
    GroupedEntry(rows, dims, field, i);
    GroupedEntry(rows + [x], dims, field, i);
  }

  lemma GroupedEntry<R, F, K>(rows: seq<R>, dims: seq<F>, field: (R, F) -> K, i: nat)
    requires dims != [] && i < |FirstSeen(rows, field, dims[0])|
    ensures Grouped(rows, dims, field).Node?
    ensures |Grouped(rows, dims, field).entries| == |FirstSeen(rows, field, dims[0])|
    ensures Grouped(rows, dims, field).entries[i]
      == (FirstSeen(rows, field, dims[0])[i],
          Grouped(Having(rows, field, dims[0], FirstSeen(rows, field, dims[0])[i]), dims[1..], field))
  {
  }

  lemma InsertGroupedUnseen<R, F, K>(rows: seq<R>, x: R, dims: seq<F>, field: (R, F) -> K)
    requires dims != []
    requires field(x, dims[0]) !in FirstSeen(rows, field, dims[0])
    requires Insert(Grouped([], dims[1..], field), Path(x, dims[1..], field), x) == Grouped([] + [x], dims[1..], field)
    ensures Insert(Grouped(rows, dims, field), Path(x, dims, field), x) == Grouped(rows + [x], dims, field)
  {
    UnseenFound(rows, x, dims, field);
    UnseenHit(x, dims, field);
    UnseenSnoc(rows, x, dims, field);
    NodeAppend(Grouped(rows, dims, field), Grouped(rows + [x], dims, field), Path(x, dims, field), x);
  }

  /** Filing a row under a new key appends one entry, holding what the last
      entry of `t'` holds, to the level. */
  lemma NodeAppend<K, R>(t: Tree<K, R>, t': Tree<K, R>, p: seq<K>, x: R)
    requires t.Node? && t'.Node? && p != [] && |t'.entries| == |t.entries| + 1
    requires Insert(t, p, x) == Node(t.entries + [(p[0], Insert(Fresh(|p| - 1), p[1..], x))])
    requires (p[0], Insert(Fresh(|p| - 1), p[1..], x)) == t'.entries[|t.entries|]
    requires forall i :: 0 <= i < |t.entries| ==> t.entries[i] == t'.entries[i]
    ensures Insert(t, p, x) == t'
  {
    assert t.entries + [t'.entries[|t.entries|]] == t'.entries;
  }

  lemma UnseenFound<R, F, K>(rows: seq<R>, x: R, dims: seq<F>, field: (R, F) -> K)
    requires dims != []
    requires field(x, dims[0]) !in FirstSeen(rows, field, dims[0])
    ensures Grouped(rows, dims, field).Node?
    ensures var es := Grouped(rows, dims, field).entries;
      var p := Path(x, dims, field);
      p != [] && Insert(Grouped(rows, dims, field), p, x) == Node(es + [(p[0], Insert(Fresh(|p| - 1), p[1..], x))])
  {
    var es := Grouped(rows, dims, field).entries;
    var p := Path(x, dims, field);
    assert p[0] == field(x, dims[0]);
    forall i | 0 <= i < |es| ensures es[i].0 != p[0] {
      GroupedEntry(rows, dims, field, i);
    }
    InsertEntryNew(es, p, x);
  }

  lemma UnseenHit<R, F, K>(x: R, dims: seq<F>, field: (R, F) -> K)
    requires dims != []
    requires Insert(Grouped([], dims[1..], field), Path(x, dims[1..], field), x) == Grouped([] + [x], dims[1..], field)
    ensures var p := Path(x, dims, field);
      p != [] && (p[0], Insert(Fresh(|p| - 1), p[1..], x)) == (field(x, dims[0]), Grouped([x], dims[1..], field))
  {
    var p := Path(x, dims, field);
    assert p[0] == field(x, dims[0]) && p[1..] == Path(x, dims[1..], field);
    GroupedEmpty(dims[1..], field);
    assert [] + [x] == [x];
  }

  /** Appending a row with a new key adds one entry at the end of the level
      and leaves the others alone. */
  lemma UnseenSnoc<R, F, K>(rows: seq<R>, x: R, dims: seq<F>, field: (R, F) -> K)
    requires dims != []
    requires field(x, dims[0]) !in FirstSeen(rows, field, dims[0])
    ensures Grouped(rows, dims, field).Node? && Grouped(rows + [x], dims, field).Node?
    ensures var es := Grouped(rows, dims, field).entries;
      var es' := Grouped(rows + [x], dims, field).entries;
      && |es'| == |es| + 1
      && es'[|es|] == (field(x, dims[0]), Grouped([x], dims[1..], field))
      && forall i :: 0 <= i < |es| ==> es[i] == es'[i]
  {
    var f := dims[0];
    var k := field(x, f);
    var ks := FirstSeen(rows, field, f);
    FirstSeenSnoc(rows, x, field, f);
    assert FirstSeen(rows + [x], field, f) == ks + [k];
    GroupedEntry(rows + [x], dims, field, |ks|);
    HavingUnseen(rows, field, f, k);
    HavingSnoc(rows, x, field, f, k);
    assert Having(rows + [x], field, f, k) == [x];
    var es := Grouped(rows, dims, field).entries;
    var es' := Grouped(rows + [x], dims, field).entries;
    forall i | 0 <= i < |es| ensures es[i] == es'[i] {
      UnseenOther(rows, x, dims, field, i);
    }
  }

  lemma UnseenOther<R, F, K>(rows: seq<R>, x: R, dims: seq<F>, field: (R, F) -> K, i: nat)
    requires dims != []
    requires field(x, dims[0]) !in FirstSeen(rows, field, dims[0])
    requires i < |FirstSeen(rows, field, dims[0])|
    ensures Grouped(rows, dims, field).Node? && Grouped(rows + [x], dims, field).Node?
    ensures i < |Grouped(rows, dims, field).entries| && i < |Grouped(rows + [x], dims, field).entries|
    ensures Grouped(rows, dims, field).entries[i] == Grouped(rows + [x], dims, field).entries[i]
  {
    var f := dims[0];
    var ks := FirstSeen(rows, field, f);
    FirstSeenSnoc(rows, x, field, f);
    assert FirstSeen(rows + [x], field, f) == ks + [field(x, f)];
    assert ks[i] != field(x, f);
    HavingSnoc(rows, x, field, f, ks[i]);
    var h := Having(rows, field, f, ks[i]);
    assert Having(rows + [x], field, f, ks[i]) == h + [];
    assert h + [] == h;
    GroupedEntry(rows, dims, field, i);
    GroupedEntry(rows + [x], dims, field, i);
  }

  /** `coalate` nests exactly one level per dimension: ordered maps above,
      lists of rows at the bottom. */
  lemma {:induction false} GroupedShape<R, F, K>(rows: seq<R>, dims: seq<F>, field: (R, F) -> K)
    ensures Shaped(Grouped(rows, dims, field), |dims|)
    decreases |dims|
  {
    if dims != [] {
      var ks := FirstSeen(rows, field, dims[0]);
      forall i | 0 <= i < |ks|
        ensures Shaped(Grouped(rows, dims, field).entries[i].1, |dims| - 1)
      {
        GroupedShape(Having(rows, field, dims[0], ks[i]), dims[1..], field);
      }
    }
  }

  /** At each level the keys are distinct, they are exactly the values the
      rows carry, they come in first-encounter order, and each key holds the
      grouping of exactly the rows that carry it. */
  lemma GroupedLevel<R, F, K>(rows: seq<R>, dims: seq<F>, field: (R, F) -> K)
    requires dims != []
    ensures Grouped(rows, dims, field).Node?
    ensures Distinct(KeysOfLevel(Grouped(rows, dims, field).entries))
    ensures forall r :: r in rows ==> field(r, dims[0]) in KeysOfLevel(Grouped(rows, dims, field).entries)
    ensures forall i :: 0 <= i < |Grouped(rows, dims, field).entries| ==>
      field(rows[FirstIndex(ValuesOf(rows, field, dims[0]), Grouped(rows, dims, field).entries[i].0)], dims[0])
        == Grouped(rows, dims, field).entries[i].0
    ensures forall i, j :: 0 <= i < j < |Grouped(rows, dims, field).entries| ==>
      FirstIndex(ValuesOf(rows, field, dims[0]), Grouped(rows, dims, field).entries[i].0)
        < FirstIndex(ValuesOf(rows, field, dims[0]), Grouped(rows, dims, field).entries[j].0)
    ensures forall i :: 0 <= i < |Grouped(rows, dims, field).entries| ==>
      Grouped(rows, dims, field).entries[i].1
        == Grouped(Having(rows, field, dims[0], Grouped(rows, dims, field).entries[i].0), dims[1..], field)
  {
    var vs := ValuesOf(rows, field, dims[0]);
    var es := Grouped(rows, dims, field).entries;
    assert KeysOfLevel(es) == Dedup(vs);
    DedupFirstEncounter(vs);
    forall r | r in rows ensures field(r, dims[0]) in KeysOfLevel(es) {
      var i :| 0 <= i < |rows| && rows[i] == r;
      assert vs[i] == field(r, dims[0]);
    }
  }

  /** The keys of the outermost level are the values of the first
      dimension in first-encounter order, and every row's value is one. */
  lemma GroupedKeys<R, F, K>(rows: seq<R>, dims: seq<F>, field: (R, F) -> K)
    requires dims != []
    ensures Grouped(rows, dims, field).Node?
    ensures KeysOfLevel(Grouped(rows, dims, field).entries) == FirstSeen(rows, field, dims[0])
    ensures forall r :: r in rows ==> field(r, dims[0]) in FirstSeen(rows, field, dims[0])
  {
    var vs := ValuesOf(rows, field, dims[0]);
    forall r | r in rows ensures field(r, dims[0]) in Dedup(vs) {
      var i :| 0 <= i < |rows| && rows[i] == r;
      assert vs[i] == field(r, dims[0]);
    }
  }

  lemma MatchingSnoc<R, F, K>(rows: seq<R>, x: R, dims: seq<F>, field: (R, F) -> K, path: seq<K>)
    ensures Matching(rows + [x], dims, field, path)
      == Matching(rows, dims, field, path) + (if Path(x, dims, field) == path then [x] else [])
  {
    assert (rows + [x])[..|rows|] == rows;
  }

  /** Having, then Matching the remaining dimensions, is Matching them all. */
  lemma {:induction false} MatchingHaving<R, F, K>(rows: seq<R>, dims: seq<F>, field: (R, F) -> K, path: seq<K>)
    requires dims != [] && |path| == |dims|
    ensures Matching(Having(rows, field, dims[0], path[0]), dims[1..], field, path[1..]) == Matching(rows, dims, field, path)
    decreases |rows|
  {
    if rows != [] {
      var init := rows[..|rows| - 1];
      var x := rows[|rows| - 1];
      assert init + [x] == rows;
      MatchingHaving(init, dims, field, path);
      MatchingHavingStep(init, x, dims, field, path);
    }
  }

  lemma MatchingHavingStep<R, F, K>(init: seq<R>, x: R, dims: seq<F>, field: (R, F) -> K, path: seq<K>)
    requires dims != [] && |path| == |dims|
    requires Matching(Having(init, field, dims[0], path[0]), dims[1..], field, path[1..]) == Matching(init, dims, field, path)
    ensures Matching(Having(init + [x], field, dims[0], path[0]), dims[1..], field, path[1..]) == Matching(init + [x], dims, field, path)
  {
    HavingSnoc(init, x, field, dims[0], path[0]);
    MatchingSnoc(init, x, dims, field, path);
    PathSplit(x, dims, field, path);
    var h := Having(init, field, dims[0], path[0]);
    if field(x, dims[0]) == path[0] {
      MatchingHavingHit(init, x, dims, field, path);
    } else {
      assert h + [] == h;
      assert Matching(init, dims, field, path) + [] == Matching(init, dims, field, path);
    }
  }

  lemma MatchingHavingHit<R, F, K>(init: seq<R>, x: R, dims: seq<F>, field: (R, F) -> K, path: seq<K>)
    requires dims != [] && |path| == |dims| && field(x, dims[0]) == path[0]
    requires Matching(Having(init, field, dims[0], path[0]), dims[1..], field, path[1..]) == Matching(init, dims, field, path)
    ensures Matching(Having(init, field, dims[0], path[0]) + [x], dims[1..], field, path[1..])
      == Matching(init, dims, field, path) + (if Path(x, dims, field) == path then [x] else [])
  {
    PathSplit(x, dims, field, path);
    MatchingSnoc(Having(init, field, dims[0], path[0]), x, dims[1..], field, path[1..]);
  }

  /** A row's key path is the path when its first key is the path's first
      and the rest of its keys are the rest of the path. */
  lemma PathSplit<R, F, K>(x: R, dims: seq<F>, field: (R, F) -> K, path: seq<K>)
    requires dims != [] && |path| == |dims|
    ensures (Path(x, dims, field) == path) <==> (field(x, dims[0]) == path[0] && Path(x, dims[1..], field) == path[1..])
  {
    var px := Path(x, dims, field);
    assert px == [field(x, dims[0])] + Path(x, dims[1..], field);
    assert path == [path[0]] + path[1..];
    if px == path {
      assert px[1..] == path[1..];
    }
  }

  lemma MatchingOneLevel<R, F, K>(rows: seq<R>, f: F, field: (R, F) -> K, k: K)
    ensures Matching(rows, [f], field, [k]) == Having(rows, field, f, k)
    decreases |rows|
  {
    if rows != [] {
      MatchingOneLevel(rows[..|rows| - 1], f, field, k);
      assert Path(rows[|rows| - 1], [f], field) == [field(rows[|rows| - 1], f)];
    }
  }

  lemma MatchingSubsetOfHaving<R, F, K>(rows: seq<R>, dims: seq<F>, field: (R, F) -> K, path: seq<K>)
    requires dims != [] && |path| == |dims|
    requires Having(rows, field, dims[0], path[0]) == []
    ensures Matching(rows, dims, field, path) == []
  {
    MatchingHaving(rows, dims, field, path);
  }

  /** Every row is filed once, under the path of its own key values, and
      each list keeps the input's relative order: the list at `path` is
      exactly the rows whose keys are `path`, and a path no row has is absent. */
  lemma {:induction false} GroupedLeaves<R, F, K>(rows: seq<R>, dims: seq<F>, field: (R, F) -> K, path: seq<K>)
    requires dims != [] && |path| == |dims|
    ensures LeafAt(Grouped(rows, dims, field), path)
      == if Matching(rows, dims, field, path) == [] then None else Some(Matching(rows, dims, field, path))
    decreases |dims|
  {
    var es := Grouped(rows, dims, field).entries;
    match Lookup(es, path[0])
    case None =>
      LeavesAbsent(rows, dims, field, path);
    case Some(i) =>
      var h := Having(rows, field, dims[0], path[0]);
      LeavesPresent(rows, dims, field, path, i);
      if |dims| > 1 {
        GroupedLeaves(h, dims[1..], field, path[1..]);
      }
  }

  /** A first key no row has: nothing is filed under the path. */
  lemma LeavesAbsent<R, F, K>(rows: seq<R>, dims: seq<F>, field: (R, F) -> K, path: seq<K>)
    requires dims != [] && |path| == |dims|
    requires Lookup(Grouped(rows, dims, field).entries, path[0]).None?
    ensures LeafAt(Grouped(rows, dims, field), path) == None
    ensures Matching(rows, dims, field, path) == []
  {
    var ks := FirstSeen(rows, field, dims[0]);
    var es := Grouped(rows, dims, field).entries;
    var k := path[0];
    forall i | 0 <= i < |ks| ensures ks[i] != k {
      GroupedEntry(rows, dims, field, i);
    }
    HavingUnseen(rows, field, dims[0], k);
    MatchingSubsetOfHaving(rows, dims, field, path);
  }

  /** A first key some row has: the path continues into that key's subtree,
      which is built from exactly the rows with that key. */
  lemma LeavesPresent<R, F, K>(rows: seq<R>, dims: seq<F>, field: (R, F) -> K, path: seq<K>, i: nat)
    requires dims != [] && |path| == |dims|
    requires Lookup(Grouped(rows, dims, field).entries, path[0]) == Some(i)
    ensures Having(rows, field, dims[0], path[0]) != []
    ensures |dims| == 1 ==>
      LeafAt(Grouped(rows, dims, field), path) == Some(Having(rows, field, dims[0], path[0]))
      && Matching(rows, dims, field, path) == Having(rows, field, dims[0], path[0])
    ensures |dims| > 1 ==>
      LeafAt(Grouped(rows, dims, field), path)
        == LeafAt(Grouped(Having(rows, field, dims[0], path[0]), dims[1..], field), path[1..])
      && Matching(rows, dims, field, path)
        == Matching(Having(rows, field, dims[0], path[0]), dims[1..], field, path[1..])
  {
    GroupedEntry(rows, dims, field, i);
    SeenKeyHasRows(rows, field, dims[0], i);
    MatchingHaving(rows, dims, field, path);
    if |dims| == 1 {
      LeavesPresentOne(rows, dims, field, path, i);
    }
  }

  /** Every key listed at a level is carried by at least one row. */
  lemma SeenKeyHasRows<R, F, K>(rows: seq<R>, field: (R, F) -> K, f: F, i: nat)
    requires i < |FirstSeen(rows, field, f)|
    ensures Having(rows, field, f, FirstSeen(rows, field, f)[i]) != []
  {
    var k := FirstSeen(rows, field, f)[i];
    var vs := ValuesOf(rows, field, f);
    assert k in vs;
    HavingContains(rows, field, f, k, FirstIndex(vs, k));
  }

  lemma LeavesPresentOne<R, F, K>(rows: seq<R>, dims: seq<F>, field: (R, F) -> K, path: seq<K>, i: nat)
    requires |dims| == 1 && |path| == 1
    requires Lookup(Grouped(rows, dims, field).entries, path[0]) == Some(i)
    ensures LeafAt(Grouped(rows, dims, field), path) == Some(Having(rows, field, dims[0], path[0]))
    ensures Matching(rows, dims, field, path) == Having(rows, field, dims[0], path[0])
  {
    LeafOne(rows, dims, field, path, i);
    assert path == [path[0]];
    assert dims == [dims[0]];
    MatchingOneLevel(rows, dims[0], field, path[0]);
  }

  lemma LeafOne<R, F, K>(rows: seq<R>, dims: seq<F>, field: (R, F) -> K, path: seq<K>, i: nat)
    requires |dims| == 1 && |path| == 1
    requires Lookup(Grouped(rows, dims, field).entries, path[0]) == Some(i)
    ensures LeafAt(Grouped(rows, dims, field), path) == Some(Having(rows, field, dims[0], path[0]))
  {
    GroupedEntry(rows, dims, field, i);
  }

  lemma HavingContains<R, F, K>(rows: seq<R>, field: (R, F) -> K, f: F, k: K, n: nat)
    requires n < |rows| && field(rows[n], f) == k
    ensures rows[n] in Having(rows, field, f, k)
    decreases |rows|
  {
    if n < |rows| - 1 {
      HavingContains(rows[..|rows| - 1], field, f, k, n);
    }
  }

  /** `head` applied until a row comes out: the first row of the first
      list, through the first entry of every ordered map on the way, or
      nothing when a map or list on the way is empty. */
  function Head<K, R>(t: Tree<K, R>): Option<R>
    decreases t
  {
    match t
    case Leaf(rs) => if rs == [] then None else Some(rs[0])
    case Node(es) => if es == [] then None else Head(es[0].1)
  }

  lemma {:induction false} DedupHead<T>(s: seq<T>)
    requires s != []
    ensures Dedup(s) != [] && Dedup(s)[0] == s[0]
    decreases |s|
  {
    if |s| > 1 {
      var init := s[..|s| - 1];
      DedupHead(init);
      assert init[0] == s[0];
    }
  }

  lemma {:induction false} HavingHead<R, F, K>(rows: seq<R>, field: (R, F) -> K, f: F)
    requires rows != []
    ensures Having(rows, field, f, field(rows[0], f)) != []
    ensures Having(rows, field, f, field(rows[0], f))[0] == rows[0]
    decreases |rows|
  {
    if |rows| > 1 {
      var init := rows[..|rows| - 1];
      HavingHead(init, field, f);
      assert init[0] == rows[0];
    }
  }

  /** The head of a grouping is the first input row. */
  lemma {:induction false} GroupedHead<R, F, K>(rows: seq<R>, dims: seq<F>, field: (R, F) -> K)
    requires rows != []
    ensures Head(Grouped(rows, dims, field)) == Some(rows[0])
    decreases |dims|
  {
    if dims != [] {
      var f := dims[0];
      var ks := FirstSeen(rows, field, f);
      DedupHead(ValuesOf(rows, field, f));
      assert ks[0] == field(rows[0], f);
      HavingHead(rows, field, f);
      GroupedEntry(rows, dims, field, 0);
      GroupedHead(Having(rows, field, f, ks[0]), dims[1..], field);
    }
  }

  /** One top-level section of a grouping holds exactly the rows that carry
      its key, and the head of the section carries that key. */
  lemma GroupedSection<R, F, K>(rows: seq<R>, dims: seq<F>, field: (R, F) -> K, i: nat)
    requires dims != [] && i < |FirstSeen(rows, field, dims[0])|
    ensures Grouped(rows, dims, field).Node? && i < |Grouped(rows, dims, field).entries|
    ensures Grouped(rows, dims, field).entries[i].0 == FirstSeen(rows, field, dims[0])[i]
    ensures multiset(Flatten(Grouped(rows, dims, field).entries[i].1))
      == multiset(Having(rows, field, dims[0], FirstSeen(rows, field, dims[0])[i]))
    ensures Head(Grouped(rows, dims, field).entries[i].1).Some?
    ensures field(Head(Grouped(rows, dims, field).entries[i].1).value, dims[0]) == FirstSeen(rows, field, dims[0])[i]
  {
    var ks := FirstSeen(rows, field, dims[0]);
    var k := ks[i];
    var h := Having(rows, field, dims[0], k);
    GroupedEntry(rows, dims, field, i);
    GroupedPermutation(h, dims[1..], field);
    assert h != [] by {
      var vs := ValuesOf(rows, field, dims[0]);
      HavingContains(rows, field, dims[0], k, FirstIndex(vs, k));
    }
    GroupedHead(h, dims[1..], field);
  }

  /** Every ordered map and every list of the tree, down `depth` levels,
      is non-empty: `head` finds something at every level. */
  ghost predicate Filled<K, R>(t: Tree<K, R>, depth: nat)
    decreases depth
  {
    if depth == 0 then t.Leaf? && t.rows != []
    else t.Node? && t.entries != [] && forall i :: 0 <= i < |t.entries| ==> Filled(t.entries[i].1, depth - 1)
  }

  /** `head` finds a row in a filled tree. */
  lemma {:induction false} FilledHead<K, R>(t: Tree<K, R>, depth: nat)
    requires Filled(t, depth)
    ensures Head(t).Some?
    decreases depth
  {
    if depth > 0 {
      FilledHead(t.entries[0].1, depth - 1);
    }
  }

  /** `head` finds a row in a tree filled to any depth. */
  lemma FilledHeads<K, R>(t: Tree<K, R>)
    ensures forall depth: nat :: Filled(t, depth) ==> Head(t).Some?
  {
    forall depth: nat | Filled(t, depth) ensures Head(t).Some? {
      FilledHead(t, depth);
    }
  }

  /** Grouping a non-empty list fills the tree: no level is empty. */
  lemma {:induction false} GroupedFilled<R, F, K>(rows: seq<R>, dims: seq<F>, field: (R, F) -> K)
    requires rows != []
    ensures Filled(Grouped(rows, dims, field), |dims|)
    decreases |dims|
  {
    if dims != [] {
      var vs := ValuesOf(rows, field, dims[0]);
      var ks := FirstSeen(rows, field, dims[0]);
      DedupHead(vs);
      forall i | 0 <= i < |ks|
        ensures Filled(Grouped(rows, dims, field).entries[i].1, |dims| - 1)
      {
        SeenKeyHasRows(rows, field, dims[0], i);
        GroupedFilled(Having(rows, field, dims[0], ks[i]), dims[1..], field);
        FilledEntry(rows, dims, field, i);
      }
    }
  }

  lemma FilledEntry<R, F, K>(rows: seq<R>, dims: seq<F>, field: (R, F) -> K, i: nat)
    requires dims != [] && i < |FirstSeen(rows, field, dims[0])|
    requires Filled(Grouped(Having(rows, field, dims[0], FirstSeen(rows, field, dims[0])[i]), dims[1..], field), |dims[1..]|)
    ensures Grouped(rows, dims, field).Node? && i < |Grouped(rows, dims, field).entries|
    ensures Filled(Grouped(rows, dims, field).entries[i].1, |dims| - 1)
  {
    GroupedEntry(rows, dims, field, i);
  }

  /** Flattening a level is flattening its first entry, then the rest. */
  lemma FlattenCons<K, R>(es: seq<(K, Tree<K, R>)>)
    requires es != []
    ensures Flatten(Node(es)) == Flatten(es[0].1) + Flatten(Node(es[1..]))
  {
    var ss := seq(|es|, i requires 0 <= i < |es| => Flatten(es[i].1));
    assert ss[1..] == seq(|es[1..]|, i requires 0 <= i < |es[1..]| => Flatten(es[1..][i].1));
  }

  /** What `head` finds is one of the tree's rows. */
  lemma {:induction false} HeadInFlatten<K, R>(t: Tree<K, R>)
    requires Head(t).Some?
    ensures Head(t).value in Flatten(t)
    decreases t
  {
    if t.Node? {
      HeadInFlatten(t.entries[0].1);
      FlattenCons(t.entries);
    }
  }

  /** Sum of the multisets of a sequence of row lists. */
  function MSum<T>(ss: seq<seq<T>>): multiset<T> {
    if ss == [] then multiset{} else multiset(ss[0]) + MSum(ss[1..])
  }

  lemma {:induction false} MSumConcat<T>(ss: seq<seq<T>>)
    ensures multiset(Concat(ss)) == MSum(ss)
  {
    if ss != [] {
      MSumConcat(ss[1..]);
    }
  }

  lemma {:induction false} MSumPointwise<T>(ss: seq<seq<T>>, tt: seq<seq<T>>)
    requires |ss| == |tt|
    requires forall i :: 0 <= i < |ss| ==> multiset(ss[i]) == multiset(tt[i])
    ensures MSum(ss) == MSum(tt)
  {
    if ss != [] {
      MSumPointwise(ss[1..], tt[1..]);
    }
  }

  lemma {:induction false} MSumUpdate<T>(ss: seq<seq<T>>, j: nat, x: T)
    requires j < |ss|
    ensures MSum(ss[j := ss[j] + [x]]) == MSum(ss) + multiset{x}
  {
    if j == 0 {
      assert ss[j := ss[j] + [x]][1..] == ss[1..];
    } else {
      MSumUpdate(ss[1..], j - 1, x);
      assert ss[j := ss[j] + [x]][1..] == ss[1..][j - 1 := ss[j] + [x]];
    }
  }

  /** The buckets of distinct keys that cover every row partition the rows. */
  lemma {:induction false} HavingPartition<R, F, K>(rows: seq<R>, field: (R, F) -> K, f: F, ks: seq<K>)
    requires Distinct(ks)
    requires forall r :: r in rows ==> field(r, f) in ks
    ensures MSum(seq(|ks|, i requires 0 <= i < |ks| => Having(rows, field, f, ks[i]))) == multiset(rows)
    decreases |rows|
  {
    var hs := seq(|ks|, i requires 0 <= i < |ks| => Having(rows, field, f, ks[i]));
    if rows == [] {
      EmptyMSum(hs);
    } else {
      var init := rows[..|rows| - 1];
      var x := rows[|rows| - 1];
      assert init + [x] == rows;
      HavingPartition(init, field, f, ks);
      var hs0 := seq(|ks|, i requires 0 <= i < |ks| => Having(init, field, f, ks[i]));
      var j := FirstIndex(ks, field(x, f));
      forall i | 0 <= i < |ks| ensures hs[i] == hs0[j := hs0[j] + [x]][i] {
        HavingSnoc(init, x, field, f, ks[i]);
      }
      assert hs == hs0[j := hs0[j] + [x]];
      MSumUpdate(hs0, j, x);
    }
  }

  lemma {:induction false} EmptyMSum<T>(ss: seq<seq<T>>)
    requires forall i :: 0 <= i < |ss| ==> ss[i] == []
    ensures MSum(ss) == multiset{}
  {
    if ss != [] {
      EmptyMSum(ss[1..]);
    }
  }

  /** Flattening the grouped tree gives back a permutation of the input. */
  lemma {:induction false} GroupedPermutation<R, F, K>(rows: seq<R>, dims: seq<F>, field: (R, F) -> K)
    ensures multiset(Flatten(Grouped(rows, dims, field))) == multiset(rows)
    decreases |dims|
  {
    if dims != [] {
      var f := dims[0];
      var ks := FirstSeen(rows, field, f);
      var es := Grouped(rows, dims, field).entries;
      var flat := seq(|es|, i requires 0 <= i < |es| => Flatten(es[i].1));
      var hs := seq(|ks|, i requires 0 <= i < |ks| => Having(rows, field, f, ks[i]));
      forall i | 0 <= i < |ks| ensures multiset(flat[i]) == multiset(hs[i]) {
        GroupedPermutation(hs[i], dims[1..], field);
      }
      MSumConcat(flat);
      MSumPointwise(flat, hs);
      GroupedLevel(rows, dims, field);
      HavingPartition(rows, field, f, ks);
    }
  }

  // ---------------------------------------------------------------------
  // dependency order

  /** Every foreign-key target is itself a registered model. */
  ghost predicate Closed<T>(g: map<T, seq<T>>) {
    forall t, i :: t in g && 0 <= i < |g[t]| ==> g[t][i] in g
  }

  /** A rank that every foreign key strictly decreases: the graph is acyclic. */
  ghost predicate Ranked<T>(g: map<T, seq<T>>, rank: T -> nat) {
    forall t, i :: t in g && 0 <= i < |g[t]| ==> rank(g[t][i]) < rank(t)
  }

  /** A set that holds the targets of each of its members. */
  ghost predicate DepClosed<T>(g: map<T, seq<T>>, s: set<T>) {
    forall t, i :: t in s && t in g && 0 <= i < |g[t]| ==> g[t][i] in s
  }

  datatype Visit<T> = Visit(order: seq<T>, visited: set<T>)

  lemma SubsetCard<T>(a: set<T>, b: set<T>)
    requires a <= b
    ensures |a| <= |b|
  {
    assert b == a + (b - a);
    assert a * (b - a) == {};
  }

  lemma CardShrinks<T>(u: set<T>, v: set<T>, w: set<T>, m: T)
    requires m in u && m !in v && v + {m} <= w
    ensures |u - w| < |u - v|
  {
    var d := (u - v) - {m};
    SubsetCard(u - w, d);
    assert u - v == d + {m};
  }

  /** What a walk from `visited` over the requested `ms` delivers: `visited`
      only grows, by exactly the models emitted; every requested model ends
      up visited; nothing is emitted twice or was visited before; and every
      newly visited model has its targets visited too. */
  ghost predicate WalkFacts<T>(g: map<T, seq<T>>, ms: seq<T>, visited: set<T>, r: Visit<T>) {
    && visited <= r.visited
    && (forall i :: 0 <= i < |ms| ==> ms[i] in r.visited)
    && r.visited == visited + Elems(r.order)
    && (forall i :: 0 <= i < |r.order| ==> r.order[i] !in visited && r.order[i] in g)
    && Distinct(r.order)
    && (forall x :: x in r.visited && x !in visited && x in g ==>
         forall i :: 0 <= i < |g[x]| ==> g[x][i] in r.visited)
  }

  /** The depth-first walk of `topo_sort`: each unvisited model is marked,
      its targets are walked, then it is emitted. `visited` is shared and
      grows, which makes the walk finish on any graph, cyclic or not. */
  function TopoSort<T>(g: map<T, seq<T>>, ms: seq<T>, visited: set<T>): (r: Visit<T>)
    requires Closed(g)
    requires forall i :: 0 <= i < |ms| ==> ms[i] in g
    ensures WalkFacts(g, ms, visited, r)
    decreases |g.Keys - visited|, |ms|
  {
    if ms == [] then Visit([], visited)
    else if ms[0] in visited then
      var r := TopoSort(g, ms[1..], visited);
      WalkSkip(g, ms, visited, r);
      r
    else
      var m := ms[0];
      CardShrinks(g.Keys, visited, visited + {m}, m);
      var sub := TopoSort(g, g[m], visited + {m});
      CardShrinks(g.Keys, visited, sub.visited, m);
      var rest := TopoSort(g, ms[1..], sub.visited);
      WalkCombine(g, ms, visited, sub, rest);
      Visit(sub.order + [m] + rest.order, rest.visited)
  }

  lemma WalkSkip<T>(g: map<T, seq<T>>, ms: seq<T>, visited: set<T>, r: Visit<T>)
    requires ms != [] && ms[0] in visited
    requires WalkFacts(g, ms[1..], visited, r)
    ensures WalkFacts(g, ms, visited, r)
  {
    forall i | 0 <= i < |ms| ensures ms[i] in r.visited {
      if i > 0 { assert ms[i] == ms[1..][i - 1]; }
    }
  }

  lemma WalkCombine<T>(g: map<T, seq<T>>, ms: seq<T>, visited: set<T>, sub: Visit<T>, rest: Visit<T>)
    requires ms != [] && ms[0] !in visited && ms[0] in g
    requires WalkFacts(g, g[ms[0]], visited + {ms[0]}, sub)
    requires WalkFacts(g, ms[1..], sub.visited, rest)
    ensures WalkFacts(g, ms, visited, Visit(sub.order + [ms[0]] + rest.order, rest.visited))
  {
    var m := ms[0];
    var order := sub.order + [m] + rest.order;
    assert Elems(order) == Elems(sub.order) + {m} + Elems(rest.order);
    forall i | 0 <= i < |ms| ensures ms[i] in rest.visited {
      if i > 0 { assert ms[i] == ms[1..][i - 1]; }
    }
    forall i | 0 <= i < |order| ensures order[i] !in visited && order[i] in g {
      if i < |sub.order| {
        assert order[i] == sub.order[i];
      } else if i > |sub.order| {
        assert order[i] == rest.order[i - |sub.order| - 1];
      }
    }
    forall k | 0 <= k < |sub.order| ensures sub.order[k] in sub.visited && sub.order[k] != m {
      assert sub.order[k] in Elems(sub.order);
    }
    DistinctJoin(sub.order, m, rest.order, sub.visited);
  }

  /** The three equations of the walk, one per branch. */
  lemma TopoSortNil<T>(g: map<T, seq<T>>, visited: set<T>)
    requires Closed(g)
    ensures TopoSort(g, [], visited) == Visit([], visited)
  {
  }

  lemma TopoSortSkip<T>(g: map<T, seq<T>>, ms: seq<T>, visited: set<T>, rest: Visit<T>)
    requires Closed(g) && forall i :: 0 <= i < |ms| ==> ms[i] in g
    requires ms != [] && ms[0] in visited && TopoSort(g, ms[1..], visited) == rest
    ensures TopoSort(g, ms, visited) == rest
  {
  }

  lemma TopoSortVisit<T>(g: map<T, seq<T>>, ms: seq<T>, visited: set<T>, sub: Visit<T>, rest: Visit<T>)
    requires Closed(g) && forall i :: 0 <= i < |ms| ==> ms[i] in g
    requires ms != [] && ms[0] !in visited
    requires TopoSort(g, g[ms[0]], visited + {ms[0]}) == sub
    requires TopoSort(g, ms[1..], sub.visited) == rest
    ensures TopoSort(g, ms, visited) == Visit(sub.order + [ms[0]] + rest.order, rest.visited)
  {
  }

  /** A single unvisited model: its targets are walked, then it is emitted. */
  lemma TopoSortSingle<T>(g: map<T, seq<T>>, m: T, visited: set<T>, sub: Visit<T>)
    requires Closed(g) && m in g && m !in visited
    requires TopoSort(g, g[m], visited + {m}) == sub
    ensures TopoSort(g, [m], visited) == Visit(sub.order + [m], sub.visited)
  {
    TopoSortNil(g, sub.visited);
    TopoSortVisit(g, [m], visited, sub, Visit([], sub.visited));
    assert sub.order + [m] + [] == sub.order + [m];
  }

  /** An unvisited model with no foreign keys is emitted alone. */
  lemma TopoSortLeaf<T>(g: map<T, seq<T>>, m: T, visited: set<T>)
    requires Closed(g) && m in g && m !in visited && g[m] == []
    ensures TopoSort(g, [m], visited) == Visit([m], visited + {m})
  {
    TopoSortNil(g, visited + {m});
    TopoSortSingle(g, m, visited, Visit([], visited + {m}));
    assert [] + [m] == [m];
  }

  /** `model_dependency_order`: the requested models and, before each, the
      models its foreign keys refer to; no model twice. */
  function DependencyOrder<T>(g: map<T, seq<T>>, ms: seq<T>): (r: seq<T>)
    requires Closed(g)
    requires forall i :: 0 <= i < |ms| ==> ms[i] in g
    ensures Distinct(r)
    ensures forall i :: 0 <= i < |ms| ==> ms[i] in r
    ensures forall i :: 0 <= i < |r| ==> r[i] in g
    ensures DepClosed(g, Elems(r))
  {
    TopoSort(g, ms, {}).order
  }

  /** Every model of `order` has rank below `bound`. */
  ghost predicate RanksBelow<T>(order: seq<T>, rank: T -> nat, bound: nat) {
    forall i :: 0 <= i < |order| ==> rank(order[i]) < bound
  }

  /** Every model emitted has rank below `bound` when every requested one does. */
  lemma {:induction false} TopoSortRankBound<T>(g: map<T, seq<T>>, rank: T -> nat, ms: seq<T>, visited: set<T>, bound: nat)
    requires Closed(g) && Ranked(g, rank)
    requires forall i :: 0 <= i < |ms| ==> ms[i] in g && rank(ms[i]) < bound
    ensures RanksBelow(TopoSort(g, ms, visited).order, rank, bound)
    decreases |g.Keys - visited|, |ms|
  {
    if ms != [] {
      if ms[0] in visited {
        TopoSortRankBound(g, rank, ms[1..], visited, bound);
      } else {
        var m := ms[0];
        CardShrinks(g.Keys, visited, visited + {m}, m);
        TopoSortRankBound(g, rank, g[m], visited + {m}, rank(m));
        var sub := TopoSort(g, g[m], visited + {m});
        CardShrinks(g.Keys, visited, sub.visited, m);
        TopoSortRankBound(g, rank, ms[1..], sub.visited, bound);
        RanksBelowCombine(sub.order, m, TopoSort(g, ms[1..], sub.visited).order, rank, bound);
      }
    }
  }

  lemma RanksBelowCombine<T>(a: seq<T>, m: T, b: seq<T>, rank: T -> nat, bound: nat)
    requires RanksBelow(a, rank, rank(m)) && rank(m) < bound && RanksBelow(b, rank, bound)
    ensures RanksBelow(a + [m] + b, rank, bound)
  {
  }

  /** Each target of an emitted model was emitted earlier or was visited before the walk. */
  ghost predicate TargetsBefore<T>(g: map<T, seq<T>>, visited: set<T>, order: seq<T>) {
    forall i, j :: 0 <= i < |order| && order[i] in g && 0 <= j < |g[order[i]]| ==>
      g[order[i]][j] in visited || g[order[i]][j] in order[..i]
  }

  lemma {:induction false} TopoSortRespectsDependencies<T>(g: map<T, seq<T>>, rank: T -> nat, ms: seq<T>, visited: set<T>)
    requires Closed(g) && Ranked(g, rank)
    requires forall i :: 0 <= i < |ms| ==> ms[i] in g
    ensures TargetsBefore(g, visited, TopoSort(g, ms, visited).order)
    decreases |g.Keys - visited|, |ms|
  {
    if ms != [] {
      if ms[0] in visited {
        TopoSortRespectsDependencies(g, rank, ms[1..], visited);
      } else {
        var m := ms[0];
        CardShrinks(g.Keys, visited, visited + {m}, m);
        var sub := TopoSort(g, g[m], visited + {m});
        TopoSortRespectsDependencies(g, rank, g[m], visited + {m});
        TopoSortRankBound(g, rank, g[m], visited + {m}, rank(m));
        CardShrinks(g.Keys, visited, sub.visited, m);
        var rest := TopoSort(g, ms[1..], sub.visited);
        TopoSortRespectsDependencies(g, rank, ms[1..], sub.visited);
        TargetsCombine(g, rank, m, visited, sub, rest);
      }
    }
  }

  lemma TargetsCombine<T>(g: map<T, seq<T>>, rank: T -> nat, m: T, visited: set<T>, sub: Visit<T>, rest: Visit<T>)
    requires Ranked(g, rank) && m in g
    requires forall i :: 0 <= i < |g[m]| ==> g[m][i] in sub.visited
    requires sub.visited == visited + {m} + Elems(sub.order)
    requires RanksBelow(sub.order, rank, rank(m))
    requires TargetsBefore(g, visited + {m}, sub.order)
    requires TargetsBefore(g, sub.visited, rest.order)
    ensures TargetsBefore(g, visited, sub.order + [m] + rest.order)
  {
    var order := sub.order + [m] + rest.order;
    var n := |sub.order|;
    forall i, j | 0 <= i < |order| && order[i] in g && 0 <= j < |g[order[i]]|
      ensures g[order[i]][j] in visited || g[order[i]][j] in order[..i]
    {
      var d := g[order[i]][j];
      if i < n {
        TargetInSub(g, rank, m, visited, sub, order, i, j);
      } else if i == n {
        assert d in sub.visited && rank(d) < rank(m);
        if d in sub.order {
          var k :| 0 <= k < n && sub.order[k] == d;
          assert order[..i][k] == d;
        }
      } else {
        var i' := i - n - 1;
        assert order[i] == rest.order[i'];
        assert d in sub.visited || d in rest.order[..i'];
        if d in rest.order[..i'] {
          var k :| 0 <= k < i' && rest.order[k] == d;
          assert order[..i][n + 1 + k] == d;
        } else if d == m {
          assert order[..i][n] == d;
        } else if d !in visited {
          var k :| 0 <= k < n && sub.order[k] == d;
          assert order[..i][k] == d;
        }
      }
    }
  }

  lemma TargetInSub<T>(g: map<T, seq<T>>, rank: T -> nat, m: T, visited: set<T>, sub: Visit<T>, order: seq<T>, i: nat, j: nat)
    requires Ranked(g, rank)
    requires RanksBelow(sub.order, rank, rank(m))
    requires TargetsBefore(g, visited + {m}, sub.order)
    requires sub.order <= order
    requires i < |sub.order| && sub.order[i] in g && j < |g[sub.order[i]]|
    ensures g[sub.order[i]][j] in visited || g[sub.order[i]][j] in order[..i]
  {
    assert rank(g[sub.order[i]][j]) < rank(sub.order[i]);
    assert sub.order[..i] == order[..i];
  }

  /** For an acyclic foreign-key graph, every model in the dependency order
      has all its foreign-key targets at strictly smaller indices. */
  lemma DependencyOrderRespectsForeignKeys<T>(g: map<T, seq<T>>, rank: T -> nat, ms: seq<T>)
    requires Closed(g) && Ranked(g, rank)
    requires forall i :: 0 <= i < |ms| ==> ms[i] in g
    ensures forall i, j :: 0 <= i < |DependencyOrder(g, ms)| && 0 <= j < |g[DependencyOrder(g, ms)[i]]| ==>
      g[DependencyOrder(g, ms)[i]][j] in DependencyOrder(g, ms)[..i]
  {
    TopoSortRespectsDependencies(g, rank, ms, {});
    var r := DependencyOrder(g, ms);
    assert TargetsBefore(g, {}, r);
    forall i, j | 0 <= i < |r| && 0 <= j < |g[r[i]]|
      ensures g[r[i]][j] in r[..i]
    {
      assert r[i] in g;
    }
  }

  /** The walk emits nothing outside any target-closed set that holds the
      requested models and the models already visited. */
  lemma {:induction false} TopoSortWithin<T>(g: map<T, seq<T>>, ms: seq<T>, visited: set<T>, s: set<T>)
    requires Closed(g)
    requires forall i :: 0 <= i < |ms| ==> ms[i] in g && ms[i] in s
    requires DepClosed(g, s)
    ensures forall i :: 0 <= i < |TopoSort(g, ms, visited).order| ==> TopoSort(g, ms, visited).order[i] in s
    decreases |g.Keys - visited|, |ms|
  {
    if ms != [] {
      if ms[0] in visited {
        TopoSortWithin(g, ms[1..], visited, s);
      } else {
        var m := ms[0];
        CardShrinks(g.Keys, visited, visited + {m}, m);
        TopoSortWithin(g, g[m], visited + {m}, s);
        var sub := TopoSort(g, g[m], visited + {m});
        CardShrinks(g.Keys, visited, sub.visited, m);
        TopoSortWithin(g, ms[1..], sub.visited, s);
      }
    }
  }

  /** The dependency order holds exactly the requested models and their
      transitive foreign-key targets: it is the least target-closed set
      containing the request. */
  lemma DependencyOrderIsClosure<T>(g: map<T, seq<T>>, ms: seq<T>, s: set<T>)
    requires Closed(g)
    requires forall i :: 0 <= i < |ms| ==> ms[i] in g && ms[i] in s
    requires DepClosed(g, s)
    ensures forall i :: 0 <= i < |DependencyOrder(g, ms)| ==> DependencyOrder(g, ms)[i] in s
  {
    TopoSortWithin(g, ms, {}, s);
  }

  // ---------------------------------------------------------------------
  // table lifecycle

  /** `create_tables`: creates, in order, each listed table that does not exist. */
  function CreateTables<T, K, R>(ms: seq<T>, s: Store<T, K, R>): (r: Store<T, K, R>)
    ensures r.tables.Keys == s.tables.Keys + Elems(ms)
    ensures forall t :: t in s.tables ==> r.tables[t] == s.tables[t]
    ensures forall t :: t in ms && t !in s.tables ==> r.tables[t] == map[]
  {
    if ms == [] then s
    else CreateTables(ms[1..], if ms[0] in s.tables then s else Store(s.tables[ms[0] := map[]]))
  }

  /** `drop_tables`: drops, in order, each listed table that exists. */
  function DropTables<T, K, R>(ms: seq<T>, s: Store<T, K, R>): (r: Store<T, K, R>)
    ensures r.tables.Keys == s.tables.Keys - Elems(ms)
    ensures forall t :: t in r.tables ==> r.tables[t] == s.tables[t]
  {
    if ms == [] then s
    else DropTables(ms[1..], if ms[0] in s.tables then Store(s.tables - {ms[0]}) else s)
  }

  /** Creating the same tables again changes nothing. */
  lemma CreateTablesIdempotent<T, K, R>(ms: seq<T>, s: Store<T, K, R>)
    ensures CreateTables(ms, CreateTables(ms, s)) == CreateTables(ms, s)
  {
    var r1 := CreateTables(ms, s);
    var r2 := CreateTables(ms, r1);
    assert r2.tables == r1.tables;
  }

  /** Dropping the same tables again changes nothing. */
  lemma DropTablesIdempotent<T, K, R>(ms: seq<T>, s: Store<T, K, R>)
    ensures DropTables(ms, DropTables(ms, s)) == DropTables(ms, s)
  {
    var r1 := DropTables(ms, s);
    var r2 := DropTables(ms, r1);
    assert r2.tables == r1.tables;
  }
}

=== FILE: wrappers.dfy ===
/** Optional values and success-or-error results, used wherever the system
    returns None or raises an exception. */
module Wrappers {

  datatype Option<+T> = None | Some(value: T) {

    function GetOr(default: T): T {
      match this
      case Some(v) => v
      case None => default
    }
  }

  /** `Failure` stands for a raised exception; `:-` propagates it. */
  datatype Result<+R, +E> = Success(value: R) | Failure(error: E) {

    predicate IsFailure() {
      Failure?
    }

    function PropagateFailure<U>(): Result<U, E>
      requires Failure?
    {
      Failure(error)
    }

    function Extract(): R
      requires Success?
    {
      value
    }
  }
}
